=== FILE: README.md ===
# Heiße Ecke cost calculation: a Dafny model

This project models the cost-calculation engine of the "Heiße Ecke" food-cost
calculator, a React and TypeScript web application. Its data is:

- an inventory of purchased articles (price per kilogram, litre or piece);
- a mapping from recipe ingredient names to inventory articles;
- recipe lines (dish, ingredient, quantity);
- dishes with master, menu and test prices.

The model covers six pieces:

- **Value coercion** (`Coerce`):
  - the lenient spreadsheet reader `toNumber`, of which src/core.ts and src/core/utils.ts hold identical copies;
  - the stricter form reader `toNum`;
  - the percentage clamp `clampPct`.
- **Normalisation** (`Normalise`): the row-to-record half of `parseWorkbook`. Each sheet arrives as rows that map a column label to a cell. The model covers:
  - reading a field from several synonym columns, where a `null` or missing cell falls through to the next label and `""` does not;
  - trimming, and turning empty text into `null`;
  - dropping rows that lack their key;
  - `ekToBase` and `pickPrice`, which live in `Core`.
- **Recomputation `recalcAll`** (`Recalc`, `RecalcFacts`). It runs three passes, in this order:
  1. inventory base prices;
  2. recipe lines: mapped article, cost, status, and at most one diagnostic each;
  3. dishes: cost of goods, margin, margin percentage, status, and at most one diagnostic each.

  The source mutates its records in place. Its name index of inventory items holds the same objects the first pass rewrites, so the recipe pass sees the new base prices. The model writes the passes as pure functions and feeds the recomputed inventory into the recipe pass.
- **Edits of the application shell** (`Editor`, `EditorFacts`): `applyMapping`, `fixRecipeUnitForIngredient`, `addInventoryItem`, `addDish`, `addRecipeLine` and `updateDishPrice`. Each one passes its result through `safeSetAll`, which means `recalcAll`.
- **Day close-out `daySummary`** and the day-state setters (`DayRollup`, `DayRollupFacts`), with their own record shapes. The summary holds:
  - revenue, surcharged revenue, franchise fee, cost of goods, net margin and net margin percentage;
  - a consumption table per (article, unit), sorted by article name.
- **Update import `mergeAppData`** (`Merge`). It folds a fresh import over the previous data.

Money is `real`. JavaScript truthiness is written out:

- `!qty` and `!price` treat 0 as missing;
- `||` treats `""` as missing;
- the merge tells an absent field (`undefined`) from `null` with the three-way `Merge.Slot`.

For lookups, `Map.set` lets the last duplicate win (`Seqs.LastIndex`) and `find` takes the first match (`Seqs.FirstIndex`). The JSON deep copies the edits start from are the identity on these records.

Five behaviours of the code go against what a user of the calculator might expect. The model follows the code in each:

- **Merge drops mapping corrections.** A re-import takes every mapping row from the new import, so the user's corrections are not kept. With an old row `Pommes` → `Pommes frites TK`, the merged row has the import's `null` correction (`Merge.MergeDropsOldCorrection`).
- **Merge prices and old-only dishes.** A re-import carries a dish's test and menu prices over from the old data, and drops dishes that only the old data has (`Merge.AbsentPriceIsCarried`, `Merge.MergeAppData`).
- **Merging data with itself** returns it unchanged only while no two dishes share a name (`Merge.MergeWithSelf`, `Merge.MergeWithSelfDuplicateNames`).
- **Line resolution and units.** `recalcAll` reads neither a recipe line's per-line article selection nor its unit, so it reports no unit mismatch (`RecalcFacts.UnitIsNotConsulted`). Only the day close-out reads the selection.
- **Exact names and base-unit prices.** An ingredient is matched to an article by exact name through the mapping. Prices come only from the price per kilogram, litre or piece. The modelled code has no fuzzy name matching and no pricing by package content.

Two behaviours of the code are worth knowing:

- `applyMapping` edits the FIRST mapping row of an ingredient, but `recalcAll` reads the LAST one. With duplicate rows, a choice made in the editor therefore has no effect on costs (`EditorFacts.DuplicateMappingIgnoresChoice`).
- The consumption key is the article name, `"__"` and the unit, joined as text. Two different (name, unit) pairs can share a key; the model keeps this as written.

## Model

| member | source | states |
|---|---|---|
| `Coerce.ToNumber` | src/core.ts:57-67 | A finite number passes through; any other non-string is `null`; a string gives `null` exactly when it holds no digit. |
| `Coerce.ToNumberReadsFirstMatch` | src/core.ts:60-64 | For a string, the result is the value of the leftmost match of `-?\d+(\.\d+)?` in the trimmed text with its first comma made a dot. The match is the one that cannot be extended. |
| `Coerce.LiteralUnique` | src/core.ts:61 | At a given position the greedy match is the only literal written out there that cannot be extended. |
| `Coerce.ToNumberDecimalComma` | src/core/utils.ts:1-11 | "12,49" reads as 12.49. The src/core/utils.ts copy is the same reader, so one definition models both. |
| `Coerce.ToNumberSkipsText` | src/core.ts:60-64 | Leading text and a trailing unit are skipped: "ca. 3 kg" reads as 3. |
| `Coerce.ToNumberNegative` | src/core.ts:60-63 | A minus sign directly before the digits is kept: "-0,5" reads as -0.5. |
| `Coerce.ToNumberThousandsSeparator` | src/core.ts:60-63 | Only the first comma is replaced and only the first literal is read: "1.234,5" reads as 1.234. |
| `Coerce.ToNumberMissing` | src/core.ts:58-66 | Text without digits, the empty text, NaN, booleans and `undefined` all read as `null`. |
| `Coerce.ToNum` | src/app.tsx:22-30 | `null`, `undefined`, booleans and blank text are `null`. A number is kept exactly when it is finite. Otherwise the trimmed text, with all whitespace removed and its first comma made a dot, must be a decimal number as a whole. When that text is written as sign, whole digits, dot and fraction digits, the result is exactly that decimal's value. |
| `Coerce.ParseStrict` | src/app.tsx:27-29 | `Number(t)` is finite exactly for an optional sign, then digits with at most one dot and at least one digit. Every such spelling (`-12.5`, `+3`, `.5`, `7.`) gives its decimal value, negated under a minus sign. |
| `Coerce.ParseBodyValue` | src/app.tsx:28 | Whole digits, an optional dot and fraction digits parse to the whole part plus the fraction digits over the matching power of ten. |
| `Coerce.WordRejected` | src/app.tsx:25-29 | A word that starts with a letter and has no spaces or commas (such as `String(true)`) is not a number. |
| `Coerce.ToNumDecimalComma` | src/app.tsx:25-29 | "12,49" reads as 12.49. |
| `Coerce.ToNumRejectsUnit` | src/app.tsx:25-29 | "3 kg" is `null`, unlike with `toNumber`. |
| `Coerce.ToNumSpaceSeparator` | src/app.tsx:27-28 | Inner spaces are removed: "1 234" reads as 1234. |
| `Coerce.ToNumIgnoresInnerSpace` | src/app.tsx:25-28 | Dropping one whitespace character from inside a trimmed text does not change what `toNum` reads. |
| `Text.RemoveSpacesKeepsNonSpaces` | src/app.tsx:27 | Removing whitespace keeps exactly the text's non-space characters. |
| `Coerce.ClampPct` | src/app.tsx:32-37 | The result always lies in [0, 100]. A non-finite input gives 0, a negative one 0, one above 100 gives 100, and values in range are unchanged. |
| `Coerce.ClampPctIdempotent` | src/app.tsx:32-37 | Clamping a clamped value changes nothing. |
| `Core.EkToBase` | src/core.ts:76-80 | For "kg" and "l" (after lower-casing and trimming) the base price times 1000 is the purchase price; for every other unit the price is unchanged. |
| `Core.EkToBaseScalesExactlyThousandUnits` | src/core.ts:77-79 | A non-zero price changes exactly for the kilogram and litre units. |
| `Core.EkToBaseExamples` | src/core.ts:77-79 | " KG " and "L" divide by 1000; "Stk" and "Liter" leave the price as it is. |
| `Core.PickPrice` | src/core.ts:81-83 | The test price if present (0 counts as present), else the menu price, else the master price, else `null`. |
| `Core.FirstPresent` | src/core.ts:82 | An `a ?? b ?? …` chain: present exactly when some candidate is, and then equal to the first present one. |
| `Normalise.Pick` | src/core.ts:99 | The first synonym cell that is neither `null` nor `undefined`; if all are, the last one. |
| `Normalise.KeyText` | src/core.ts:98 | The key text is trimmed. It is empty when every synonym cell is absent, and it is the trimmed cell text when the first present cell holds text. |
| `Normalise.FieldNumber` | src/core.ts:99 | `null` when every synonym cell is absent. A finite number cell gives its value. A text cell gives `null` exactly when it holds no digit. |
| `Normalise.FieldText` | src/core.ts:100 | `null` exactly when the trimmed text is empty; otherwise that non-empty, trimmed text. |
| `Normalise.InventoryRow` | src/core.ts:97-104 | Each field is read from its own columns: the name from "Zutat", the price from the three price labels in order, the unit from the two unit labels, the status from "STATUS". The name is trimmed and a present unit is non-empty. A base price is set exactly when both a price and a unit are present, and it is `EkToBase` of them. |
| `Normalise.MappingRowOf` | src/core.ts:107-111 | Recipe name, suggestion, correction and status are each read from their own column labels, in order. The recipe name is trimmed; a present suggestion or correction is non-empty. |
| `Normalise.RecipeRow` | src/core.ts:114-122 | Each of the eight fields is read from its own column labels: dish, ingredient, quantity, unit, mapped article, base price, cost, status. Dish and ingredient are trimmed, a present unit is non-empty, and an imported line has no per-line selection. |
| `Normalise.DishRowOf` | src/core.ts:125-133 | The name, the three prices, cost of goods, margin, margin percentage and status are each read from their own column labels. The dish name is trimmed. |
| `Normalise.Sheet` | src/core.ts:97-105 | Every surviving record has its key, every record with its key survives, and the survivors keep the row order. There are exactly as many survivors as rows whose record has its key. |
| `Seqs.Filter` | src/core.ts:105 | The kept elements all satisfy the predicate and each element that satisfies it is kept, in the original order. Exactly as many elements are kept as satisfy it. |
| `Normalise.SheetSingle` | src/core.ts:105 | A single row yields its record exactly when the record has its key. |
| `Normalise.SheetAppend` | src/core.ts:97-105 | Rows are handled one at a time: concatenated rows give concatenated records. |
| `Normalise.NormaliseInventory` | src/core.ts:97-105 | Every article has a non-empty, trimmed name. Every row whose record has a name yields it. There is one record per such row, no more. |
| `Normalise.NormaliseMapping` | src/core.ts:107-112 | Every mapping row has a non-empty, trimmed recipe name. Every row whose record has a recipe name yields it. There is one record per such row, no more. |
| `Normalise.NormaliseRecipes` | src/core.ts:114-123 | Every recipe line has a non-empty, trimmed dish and ingredient. Every row whose record has both yields it. There is one record per such row, no more. |
| `Normalise.NormaliseDishes` | src/core.ts:125-134 | Every dish has a non-empty, trimmed name. Every row whose record has a name yields it. There is one record per such row, no more. |
| `Normalise.NormaliseWorkbook` | src/core.ts:97-136 | Each sheet of the result is that sheet normalised on its own, with no more records than rows. Every record has its non-empty key, and every row whose record has its key survives, once per such row. |
| `Normalise.NamedArticleKept` | src/core.ts:98-104 | A row whose "Zutat" cell holds non-blank text yields an article, named by that text trimmed. |
| `Normalise.NamedMappingKept` | src/core.ts:107-112 | A row whose "Zutat im Rezept" cell holds non-blank text yields a mapping row under that text trimmed. |
| `Normalise.NamedLineKept` | src/core.ts:114-123 | A row whose "Gericht" and "Zutat (Rezept)" cells hold non-blank text yields a recipe line of that dish and ingredient. |
| `Normalise.NamedDishKept` | src/core.ts:125-134 | A row whose "Gericht" cell holds non-blank text yields a dish of that name, trimmed. |
| `Normalise.MissingKeyDropsRow` | src/core.ts:98-105 | A row without the "Zutat" column produces no article. |
| `Normalise.EmptyCellBlocksFallback` | src/core.ts:99 | An empty primary price cell is a value: the synonyms are not read, and the article has no price and no base price. |
| `Normalise.NullishCellFallsBack` | src/core.ts:99 | A `null` or missing primary price cell falls back to "EK", then to "EK (wie auf Rechnung)". |
| `Recalc.RecalcItem` | src/core.ts:156-164 | The raw fields are kept. With a price and a non-empty unit, the base price is `EkToBase` of them and the status is "OK"; otherwise the base price is `null` and the status is "FEHLT_EK_ODER_EINHEIT". |
| `Recalc.RecalcInventory` | src/core.ts:156-164 | Same length and order; each article gets its own base price and status. |
| `Recalc.FindMapping` | src/core.ts:152-153 | Found exactly when a row has the name; with duplicates, the last such row. |
| `Recalc.FindItem` | src/core.ts:149-150 | Found exactly when an article has the name; with duplicates, the last such article. |
| `Recalc.MappedName` | src/core.ts:169 | No row gives `null`. A correction that is non-blank after trimming wins, and is returned untrimmed. Otherwise the result is the suggestion. |
| `Recalc.Classify` | src/core.ts:172-216 | The order of the checks: missing or non-positive quantity first, then no mapped name, then a missing article or base price. Otherwise the line is costed with the article's base price. |
| `Recalc.RecalcLine` | src/core.ts:167-216 | Dish, ingredient, quantity, unit and selection are unchanged, and the mapped article is recorded on every path. |
| `Recalc.RecalcRecipes` | src/core.ts:167-217 | Same length and order, and each line keeps its inputs. |
| `Recalc.RecalcDish` | src/core.ts:227-260 | Name and the three prices are unchanged. |
| `Recalc.RecalcDishes` | src/core.ts:227-261 | Same length and order, and each dish keeps its name and prices. |
| `Recalc.RecalcAll` | src/core.ts:146-264 | Every collection keeps its length and order. Mapping rows are untouched. Articles keep their raw data, recipe lines their inputs, and dishes their names and prices. |
| `RecalcFacts.RecalcItemIdempotent` | src/core.ts:156-164 | Recomputing an article twice gives the same article. |
| `RecalcFacts.FindItemAfterRecalc` | src/core.ts:149-164 | Looking up the recomputed inventory finds the recomputed version of the article the original lookup finds. This is the aliasing of the name index. |
| `RecalcFacts.PricedAfterRecalc` | src/core.ts:149-164 | After the inventory pass, a name resolves to a priced article exactly when its last raw article has a price and a unit; the base price is then `EkToBase` of them. |
| `RecalcFacts.LineOutcome` | src/core.ts:167-216 | Each output line: the status is "FEHLT_MENGE", "FEHLT_MAPPING", "FEHLT_EK" or "OK", each exactly under its condition in check order and stated on the INPUT data. Cost is present exactly for "OK", where it is quantity × base price. |
| `RecalcFacts.LineStep` | src/core.ts:167-216 | The same classification for one line against any inventory. |
| `RecalcFacts.LineStepNoQty` | src/core.ts:172-183 | A line without a positive quantity gets "FEHLT_MENGE" and no cost. |
| `RecalcFacts.LineStepNoMapping` | src/core.ts:185-196 | A quantified line without a mapped name gets "FEHLT_MAPPING" and no cost. |
| `RecalcFacts.LineStepNoEk` | src/core.ts:198-211 | A mapped line whose article is missing or unpriced gets "FEHLT_EK", and both base price and cost are `null`. |
| `RecalcFacts.LineStepCosted` | src/core.ts:213-216 | A fully resolved line gets "OK", the article's base price, and cost quantity × base price. |
| `RecalcFacts.DishOutcome` | src/core.ts:220-261 | Cost of goods is the sum of the dish's line costs, kept only when > 0. A missing or non-positive price gives "FEHLT_PREIS" (checked first); otherwise missing cost of goods gives "FEHLT_REZEPT"; otherwise "OK", where margin + cost of goods = price and margin % × price = margin. Non-OK dishes have no margin. |
| `RecalcFacts.DishStep` | src/core.ts:227-260 | The same classification for one dish against any recipe lines. |
| `RecalcFacts.CostSumWithoutCostedLines` | src/core.ts:229 | A dish none of whose lines carries a cost sums to 0. |
| `RecalcFacts.UncostedDishIsReported` | src/core.ts:245-255 | A priced dish none of whose lines was costed ends as "FEHLT_REZEPT" with no cost of goods. |
| `RecalcFacts.LineIssueMatchesStatus` | src/core.ts:172-216 | A line pushes a diagnostic exactly when its status is not "OK". The diagnostic's kind, message and hint are the ones its status stands for. |
| `RecalcFacts.DishIssueMatchesStatus` | src/core.ts:232-260 | A dish pushes a diagnostic exactly when its status is not "OK", namely the PREIS or REZEPT one. |
| `RecalcFacts.IssuesFollowStatuses` | src/core.ts:146-264 | The diagnostics are those of the non-OK recipe lines in recipe order, then those of the non-OK dishes in dish order. There is one per non-OK row and none from the inventory pass. |
| `RecalcFacts.RecipeIssuesFollowStatuses` | src/core.ts:167-217 | The recipe-pass diagnostics are one per non-OK output line, in line order. |
| `RecalcFacts.DishIssuesFollowStatuses` | src/core.ts:227-261 | The dish-pass diagnostics are one per non-OK output dish, in dish order. |
| `RecalcFacts.RecalcLineIdempotent` | src/core.ts:167-216 | Recomputing a recomputed line gives the same line and diagnostic. |
| `RecalcFacts.RecalcDishIdempotent` | src/core.ts:227-260 | Recomputing a recomputed dish gives the same dish and diagnostic. |
| `RecalcFacts.InventoryIdempotent` | src/core.ts:156-164 | The inventory pass is idempotent. |
| `RecalcFacts.RecipesIdempotent` | src/core.ts:167-217 | The recipe pass on its own output gives the same lines. |
| `RecalcFacts.DishesIdempotent` | src/core.ts:227-261 | The dish pass on its own output gives the same dishes. |
| `RecalcFacts.RecalcIdempotent` | src/core.ts:146-264 | Recomputing the recomputed data yields the same data and the same diagnostics. |
| `RecalcFacts.CostSumIgnoresUnits` | src/core.ts:229 | Line units do not affect a dish's cost sum. |
| `RecalcFacts.RecipesIgnoreUnits` | src/core.ts:167-217 | Changing line units changes only those units in the recipe pass output, and no diagnostic. |
| `RecalcFacts.DishesIgnoreUnits` | src/core.ts:220-261 | Changing line units changes no dish and no dish diagnostic. |
| `RecalcFacts.UnitIsNotConsulted` | src/core.ts:146-264 | Changing the units of recipe lines changes nothing else in the result: same inventory, dishes, costs, statuses and diagnostics. |
| `RecalcFacts.BurgerExample` | src/core.ts:146-264 | A patty at 1.20 per piece and an unmapped sauce, for a burger at 9.90. The patty costs 1.20 and the sauce is "FEHLT_MAPPING". The burger has cost of goods 1.20, status "OK" and margin 8.70. The only diagnostic is the sauce's MAPPING one. |
| `Editor.OptTrimmed` | src/app.tsx:575 | `text.trim() \|\| null`: `null` exactly for blank text, otherwise the non-empty trimmed text. |
| `Editor.MappingEdited` | src/app.tsx:516-530 | Only the first mapping row of the ingredient changes: the correction becomes the choice, and the status is "OK" for a non-empty choice, else "PRÜFEN". Every line of the ingredient records the choice as its selection. Nothing else changes. |
| `Editor.ApplyMapping` | src/app.tsx:516-533 | Without data nothing happens. Otherwise the stored mapping is the edited one, and the error banner is kept. |
| `Editor.UnitsFixed` | src/app.tsx:548-550 | Lines of the ingredient take the new unit; the others keep theirs. |
| `Editor.FixRecipeUnit` | src/app.tsx:545-551 | Without data nothing happens; otherwise the data is recomputed and the banner kept. |
| `Editor.AddInventoryItem` | src/app.tsx:564-584 | Without data or with a blank name nothing happens. Otherwise exactly one article is appended, and the mapping is unchanged. |
| `Editor.AddDish` | src/app.tsx:596-619 | Without data or with a blank name nothing happens. A name already used, ignoring case, raises "Gericht existiert bereits." and leaves the data as it is. Otherwise exactly one dish with the trimmed name is appended. |
| `Editor.RecipeLineAdded` | src/app.tsx:638-672 | Exactly one line is appended. A dish with null prices and status "PREIS FEHLT" is appended only if no dish has that exact name. A mapping row is appended only if none exists for the ingredient. Inventory is unchanged. |
| `Editor.AddRecipeLine` | src/app.tsx:632-636 | Without data, or with a blank dish or ingredient, nothing happens. |
| `Editor.UpdateDishPrice` | src/app.tsx:502-513 | Without data, or for an unknown dish, nothing happens. |
| `EditorFacts.ApplyMappingResolves` | src/app.tsx:516-533 | With a single mapping row for the ingredient, a non-blank choice becomes the mapped article and the selection of every line of that ingredient. |
| `EditorFacts.DuplicateMappingIgnoresChoice` | src/app.tsx:520-524 | With two mapping rows for "Pommes", choosing "Pommes frisch" edits the first row, and the line still maps to the last row's "Pommes TK". |
| `EditorFacts.FixRecipeUnitKeepsCosts` | src/app.tsx:545-551 | Fixing a unit changes no cost, status, dish or diagnostic; only the units change. |
| `EditorFacts.AddInventoryItemOutcome` | src/app.tsx:564-584 | The new article has the trimmed name and the `toNum` price. It is "OK" after recomputation exactly when a price and a non-blank unit were given. Earlier articles keep their raw data. |
| `EditorFacts.AddDishTwiceRefused` | src/app.tsx:596-605 | After a dish is added, adding it again under any capitalisation raises the error and changes nothing else. |
| `EditorFacts.AddRecipeLineOutcome` | src/app.tsx:632-672 | One line with the trimmed dish and ingredient is appended. Existing mapping rows, corrections included, are unchanged. If the ingredient already had a row, the mapping is exactly as before. Afterwards a mapping row for the ingredient and a dish of that name exist. |
| `EditorFacts.UpdateDishPriceOutcome` | src/app.tsx:502-513 | The first dish of that name gets the new value in the chosen price field, and keeps its name and its other two prices. Every other dish keeps all its prices. |
| `DayRollup.UsedPrice` | src/app.tsx:743-745 | A non-null override wins; otherwise test, then menu, then master price. |
| `DayRollup.DishRevenue` | src/app.tsx:740-747 | An unsold dish, or one without a known price, adds no revenue. A sold dish with a price adds the price times the sold count. |
| `DayRollup.DishCost` | src/app.tsx:740-750 | An unsold dish, or one without cost of goods, adds no cost. A sold dish with cost of goods adds that cost times the sold count. |
| `DayRollup.FindMapping` | src/app.tsx:719-724 | There is a mapping row exactly when some row has the ingredient's name; it is the last such row. |
| `DayRollup.Chosen` | src/app.tsx:758-763 | A non-empty per-line selection wins. Otherwise the last mapping row of the ingredient gives its non-empty correction, else its non-empty suggestion, else no article. Any chosen name is non-empty. |
| `DayRollup.FinitePrice` | src/app.tsx:768-784 | There is a price exactly when the first article of that name has a finite price per base unit. The price is then that first article's price, even when later articles share the name. |
| `DayRollup.LineContribution` | src/app.tsx:755-785 | A line is skipped exactly when it has no quantity (or 0), no unit, or no chosen article. Otherwise it contributes under key name + "__" + unit. Its quantity is line quantity × sold count. Its cost is that quantity × the article's price per base unit when the price is finite, and 0 otherwise. |
| `DayRollup.DishContributions` | src/app.tsx:739-741 | An unsold dish contributes no consumption. What a sold dish contributes under each key is stated by `DayRollupFacts.ContributionTotals`. |
| `DayRollup.AccumulateTotals` | src/app.tsx:771-785 | The consumption table has one entry per key. For every key it lists exactly the quantity and cost contributed under that key. |
| `DayRollup.AccumulateLabels` | src/app.tsx:771-781 | Every entry carries the name and unit of the first contribution under its key; later contributions only add to its figures. Every contributed key has an entry. |
| `DayRollup.UpsertLabels` | src/app.tsx:774-781 | Adding one contribution keeps the labels of the existing entries. A new key gets an entry with that contribution's name and unit, and no earlier contribution had that key. |
| `DayRollup.EntryHoldsTally` | src/app.tsx:774-785 | With one entry per key, the table's total for an entry's key is that entry's own quantity and cost. |
| `DayRollup.Insert` | src/app.tsx:798-800 | Inserting into a sorted table keeps it sorted and adds exactly that entry. |
| `DayRollup.SortByName` | src/app.tsx:798-800 | The result is a permutation of the table, sorted by name under the comparison. |
| `DayRollup.NetMargins` | src/app.tsx:789-796 | Surcharged revenue is revenue times one plus the surcharge. The fee is that times the fee rate. Net margin + fee + cost of goods = surcharged revenue. The margin percentage exists exactly when surcharged revenue is > 0, and then times surcharged revenue is the net margin. With no surcharge and no fee, the margin is revenue minus cost. |
| `DayRollup.Summarise` | src/app.tsx:709-810 | Revenue and cost are the sold dishes' sums. The money figures are `NetMargins` of those with both percentages clamped. The consumption list is the accumulated table, sorted by name. Each row is labelled with the name and unit of the first contribution under its key. Every contributed key has a row. |
| `DayRollup.SummaryMargins` | src/app.tsx:789-796 | Margin fields that are the net margins of a revenue and a cost of goods satisfy the balance and percentage identities below. |
| `DayRollup.SummaryBalances` | src/app.tsx:789-796 | In every summary, net margin + fee + cost of goods = surcharged revenue. The margin percentage exists exactly when surcharged revenue is > 0, and then times surcharged revenue is the net margin. |
| `DayRollup.DaySummary` | src/app.tsx:706-707 | There is a summary exactly when data is loaded. |
| `DayRollup.QtyInput` | src/app.tsx:815 | `null` and negative inputs give 0; otherwise the whole number at or below the input. |
| `DayRollup.SetDayQty` | src/app.tsx:814-817 | The dish's sold quantity becomes that non-negative whole number; every other dish and every other field keeps its value. |
| `DayRollup.SetDayPrice` | src/app.tsx:819-821 | The dish's override becomes the value (`null` included); other dishes and fields are unchanged. |
| `DayRollup.PctInput` | src/app.tsx:824 | The result is `clampPct` of the value, or 0 for a missing value, and lies in [0, 100]. |
| `DayRollup.SetAufschlagPct` | src/app.tsx:823-825 | The surcharge becomes `clampPct(v ?? 0)`, a finite value in [0, 100]; the other fields are unchanged. |
| `DayRollup.SetFranchiseFeePct` | src/app.tsx:827-829 | The fee percentage becomes `clampPct(v ?? 0)`, a finite value in [0, 100]; the other fields are unchanged. |
| `DayRollupFacts.ConsumptionRowsAreTotals` | src/app.tsx:771-785 | Each row of the consumption table holds the total quantity and cost contributed under its key. |
| `DayRollupFacts.LinesTotals` | src/app.tsx:754-785 | Under each key, the contributions of some recipe lines hold the sum over those lines booked under that key of line quantity × sold count, and of that × the finite article price. |
| `DayRollupFacts.ContributionTotals` | src/app.tsx:739-786 | Under each key, the contributions of some dishes hold the sum over the recipe lines of the sold ones of the quantity and cost booked under that key. |
| `DayRollupFacts.ConsumptionFromRecipes` | src/app.tsx:739-786 | Under every key, the consumption table lists the quantity and cost computed straight from the recipe lines of the sold dishes. |
| `DayRollupFacts.SummaryRowsFromRecipes` | src/app.tsx:771-800 | Each row of the summary's sorted consumption list holds the recipe-based quantity and cost of its key, and the name and unit of the first contribution under that key. |
| `DayRollupFacts.OnlySoldDishesCount` | src/app.tsx:739-750 | Revenue and cost of goods equal those over the sold dishes alone. |
| `DayRollupFacts.ClearedQtyDropsDish` | src/app.tsx:814-817 | Clearing a dish's quantity removes its revenue, cost and consumption. |
| `DayRollupFacts.PctSetterIdempotent` | src/app.tsx:823-829 | A stored percentage is already clamped, so re-entering it changes nothing. |
| `DayRollupFacts.CurrywurstExample` | src/app.tsx:706-810 | Ten dishes at 8.50 with cost of goods 2.00, a 5% surcharge and an 8% fee. This gives revenue 85, surcharged revenue 89.25, fee 7.14, net margin 62.11, net margin % 62.11/89.25, and one consumption row for the chosen article. |
| `Merge.SlotValue` | src/core/utils.ts:24 | `x ?? null`: a value exactly for a present, non-null field. |
| `Merge.PickSlotPrice` | src/core/utils.ts:23-25 | The test price if present, else the menu price, else the master price; absent reads like `null`. |
| `Merge.PickPricesAgree` | src/core/utils.ts:23-25 | The two copies of `pickPrice` agree once absent fields read as `null`. |
| `Merge.OldDish` | src/core/utils.ts:32-35 | An old dish of the name exists exactly when the lookup succeeds; it returns the last such dish. |
| `Merge.CarrySlot` | src/core/utils.ts:38-39 | An absent new field takes the old value if the old field is present (`null` included); otherwise the new field stays. |
| `Merge.MergeAppData` | src/core/utils.ts:27-45 | Inventory, mapping and recipes are the new import's. The dishes are the new import's, in count, names, order, master prices and all other fields, so old-only dishes are dropped. |
| `Merge.PresentPriceIsKept` | src/core/utils.ts:38-39 | A test or menu price present in the new row, `null` included, is never replaced. |
| `Merge.AbsentPriceIsCarried` | src/core/utils.ts:32-40 | A price absent from the new row is taken from the LAST old dish of the same name. |
| `Merge.NewDishIsVerbatim` | src/core/utils.ts:34-36 | A dish without an old namesake is taken as imported. |
| `Merge.MergeWithoutOld` | src/core/utils.ts:33 | With no old data the merge returns the new import. |
| `Merge.MergeTwice` | src/core/utils.ts:27-45 | Merging the same old data again changes nothing more. |
| `Merge.MergeWithSelf` | src/core/utils.ts:27-45 | Merging data with itself returns it, provided dish names are distinct. |
| `Merge.MergeWithSelfDuplicateNames` | src/core/utils.ts:32-40 | With two dishes of one name, merging with itself copies the later twin's test price into the earlier one. |
| `Merge.MergeDropsOldCorrection` | src/core/utils.ts:30-44 | An old "Pommes" correction "Pommes frites TK" is not kept: the merged mapping row has the import's `null` correction. |

## Left out

- Spreadsheet I/O (`XLSX.read`, `sheetToJSON`, `exportWorkbook`) is a foreign binary-format library. Normalisation starts from already-read rows, and a missing sheet is an empty row list.
- `money`, `pct` and `nowStamp` format with `Intl` and the clock.
- React rendering, `localStorage` persistence, JSON backup import and export, file download, tab switching and form resets are UI and I/O. `safeSetAll` keeps only its recomputation.
- src/state/store.tsx, the page components, the decimal input widgets and src/focusGuard.ts are UI glue. The store depends on modules that are not part of this model. Its fall-back from an update import with no base to a plain import appears as `Merge.MergeWithoutOld`.
- IEEE-754 rounding and the full `Number()` grammar (exponents, hexadecimal, `Infinity` text) are not modelled. Numbers are `real`. The strict reader accepts the decimal subset: a sign, digits and at most one dot.
- `String(n)` of a number cell is not computed: a number cell carries its text.
- `toLowerCase` is modelled on ASCII letters only; `trim` and `\s` use JavaScript's whitespace set.
- `localeCompare` is an abstract comparison, required only to be total.
- The application-only inventory fields (group, package content, target unit, price per base) are not carried by the core records, because `recalcAll` reads none of them. The day close-out has its own records with `pricePerBase`.
- `suggestRecipeUnitFromInventory` and the unit-mismatch hints are display helpers that `recalcAll` does not use.
- The JSON deep copy's conversion of NaN to `null` is not modelled: the copy is the identity on these records.
- `DayRollup.SortByName`: proves a permutation sorted by name, but not that JavaScript's sort is stable for equal names. The insertion used here is stable, but the property is not stated.
- Lookups of sold quantities and price overrides by dish name read only the dish's own entries. In the source, `day.qtyByDish` and `day.priceByDish` are plain objects. For a dish named after an inherited object member (`constructor`, `toString`), the lookup finds a function and revenue becomes NaN. The model reads 0 sold and no override there.
- `DayRollup.DishContributions`: its own contract states only the unsold case. The sold case is stated per key by `DayRollupFacts.LinesTotals` and `DayRollupFacts.ContributionTotals`.
- `Editor.FixRecipeUnit`: states only the outer shape; its effect on the data is stated by `EditorFacts.FixRecipeUnitKeepsCosts`.
- `Editor.AddRecipeLine`: states only the no-change cases; its appended data is stated by `Editor.RecipeLineAdded` and `EditorFacts.AddRecipeLineOutcome`.
- `Editor.UpdateDishPrice`: states only the no-change cases; its effect is stated by `EditorFacts.UpdateDishPriceOutcome`.

=== FILE: coerce.dfy ===
/**
 * Value coercion: the lenient spreadsheet number reader `toNumber` (two
 * textually identical copies, in src/core.ts and src/core/utils.ts), the
 * stricter form-field reader `toNum` and the percentage clamp `clampPct`
 * of src/app.tsx.
 */
module Coerce {
  import opened Wrappers
  import opened Text
  import opened JsValue

  predicate IsDigit(c: char)
  {
    '0' <= c <= '9'
  }

  predicate AllDigits(s: string)
  {
    forall k :: 0 <= k < |s| ==> IsDigit(s[k])
  }

  predicate HasDigit(s: string)
  {
    exists k :: 0 <= k < |s| && IsDigit(s[k])
  }

  /** The natural number a run of decimal digits denotes. */
  function DigitsValue(ds: string): nat
    requires AllDigits(ds)
  {
    if |ds| == 0 then 0
    else DigitsValue(ds[..|ds| - 1]) * 10 + (ds[|ds| - 1] as int - '0' as int)
  }

  function Pow10(n: nat): (r: nat)
    ensures r > 0
  {
    if n == 0 then 1 else 10 * Pow10(n - 1)
  }

  /** The value of `[-]whole.frac` written in decimal digits. */
  function DecimalValue(negative: bool, whole: string, frac: string): real
    requires AllDigits(whole) && AllDigits(frac)
  {
    var m := DigitsValue(whole) as real + DigitsValue(frac) as real / Pow10(|frac|) as real;
    if negative then -m else m
  }

  /** A decimal literal: optional minus sign, whole digits, fraction digits. */
  datatype Literal = Literal(negative: bool, whole: string, frac: string)
  {
    /** The shape `-?\d+(?:\.\d+)?` of the lenient reader's regular expression. */
    predicate WellFormed()
    {
      |whole| > 0 && AllDigits(whole) && AllDigits(frac)
    }

    /** The literal's text: an empty fraction is written without a dot. */
    function Render(): string
    {
      (if negative then "-" else "") + whole + (if frac == "" then "" else "." + frac)
    }

    /** What `Number(text)` yields for the literal. */
    function Value(): real
      requires WellFormed()
    {
      DecimalValue(negative, whole, frac)
    }
  }

  // ===== toNumber: the first `-?\d+(?:\.\d+)?` in the text =====

  /** Where the regular expression can start a match: a digit, or `-` followed by a digit. */
  predicate StartsLiteral(t: string, i: nat)
    requires i < |t|
  {
    IsDigit(t[i]) || (t[i] == '-' && i + 1 < |t| && IsDigit(t[i + 1]))
  }

  /** End of the maximal run of digits starting at `i` (greedy `\d+`). */
  function DigitRunEnd(t: string, i: nat): (j: nat)
    requires i <= |t|
    ensures i <= j <= |t|
    ensures AllDigits(t[i..j])
    ensures j == |t| || !IsDigit(t[j])
    decreases |t| - i
  {
    if i < |t| && IsDigit(t[i]) then DigitRunEnd(t, i + 1) else i
  }

  /** The leftmost position at or after `i` where a match starts. */
  function FirstLiteralStart(t: string, i: nat): (r: Option<nat>)
    requires i <= |t|
    ensures r.Some? ==> i <= r.value < |t| && StartsLiteral(t, r.value)
    ensures r.Some? ==> forall k :: i <= k < r.value ==> !StartsLiteral(t, k)
    ensures r.None? <==> forall k :: i <= k < |t| ==> !StartsLiteral(t, k)
    decreases |t| - i
  {
    if i == |t| then None
    else if StartsLiteral(t, i) then Some(i)
    else FirstLiteralStart(t, i + 1)
  }

  /** A literal ending at `e` cannot be extended by the greedy regular expression. */
  predicate EndsMaximally(t: string, e: nat, l: Literal)
    requires e <= |t|
  {
    && (e == |t| || !IsDigit(t[e]))
    && (l.frac == "" ==> !(e + 1 < |t| && t[e] == '.' && IsDigit(t[e + 1])))
  }

  /** The greedy match starting at a position where a match can start. */
  function ScanLiteral(t: string, i: nat): (l: Literal)
    requires i < |t| && StartsLiteral(t, i)
    ensures l.WellFormed()
    ensures i + |l.Render()| <= |t| && t[i..i + |l.Render()|] == l.Render()
    ensures EndsMaximally(t, i + |l.Render()|, l)
  {
    var neg := t[i] == '-';
    var ws := if neg then i + 1 else i;
    var we := DigitRunEnd(t, ws);
    if we + 1 < |t| && t[we] == '.' && IsDigit(t[we + 1]) then
      var fe := DigitRunEnd(t, we + 1);
      ScanWithFraction(t, i, ws, we, fe);
      Literal(neg, t[ws..we], t[we + 1..fe])
    else
      ScanWithoutFraction(t, i, ws, we);
      Literal(neg, t[ws..we], "")
  }

  lemma ScanWithFraction(t: string, i: nat, ws: nat, we: nat, fe: nat)
    requires i <= ws <= we && we + 1 < fe <= |t| && ws <= i + 1
    requires ws == i + 1 <==> t[i] == '-'
    requires t[we] == '.'
    ensures
      var l := Literal(t[i] == '-', t[ws..we], t[we + 1..fe]);
      t[i..fe] == l.Render()
  {
    var l := Literal(t[i] == '-', t[ws..we], t[we + 1..fe]);
    var sign := if t[i] == '-' then "-" else "";
    assert t[i..ws] == sign;
    assert l.frac != "";
    assert l.Render() == sign + t[ws..we] + ("." + t[we + 1..fe]);
    assert t[we..we + 1] == ".";
    assert t[i..fe] == t[i..ws] + t[ws..we] + (t[we..we + 1] + t[we + 1..fe]);
  }

  lemma ScanWithoutFraction(t: string, i: nat, ws: nat, we: nat)
    requires i <= ws <= we <= |t| && ws <= i + 1 && i < |t|
    requires ws == i + 1 <==> t[i] == '-'
    ensures
      var l := Literal(t[i] == '-', t[ws..we], "");
      t[i..we] == l.Render()
  {
    var sign := if t[i] == '-' then "-" else "";
    assert t[i..ws] == sign;
    assert t[i..we] == t[i..ws] + t[ws..we];
  }

  /**
   * The greedy match is the only literal that starts at `i`, is written
   * out in the text there, and cannot be extended.
   */
  lemma LiteralUnique(t: string, i: nat, l: Literal)
    requires i < |t| && StartsLiteral(t, i)
    requires l.WellFormed()
    requires i + |l.Render()| <= |t| && t[i..i + |l.Render()|] == l.Render()
    requires EndsMaximally(t, i + |l.Render()|, l)
    ensures ScanLiteral(t, i) == l
  {
    LiteralLayout(t, i, l);
    if l.frac == "" {
      WholeLiteralUnique(t, i, l);
    } else {
      FractionLiteralUnique(t, i, l);
    }
  }

  /** Where the sign, the whole digits and the rest of a literal written at `i` lie in the text. */
  lemma LiteralLayout(t: string, i: nat, l: Literal)
    requires l.WellFormed()
    requires i + |l.Render()| <= |t| && t[i..i + |l.Render()|] == l.Render()
    ensures l.negative <==> t[i] == '-'
    ensures |l.Render()| == |SignText(l)| + |l.whole| + |TailText(l)|
    ensures t[i + |SignText(l)|..i + |SignText(l)| + |l.whole|] == l.whole
    ensures t[i + |SignText(l)| + |l.whole|..i + |l.Render()|] == TailText(l)
    ensures forall p :: i + |SignText(l)| <= p < i + |SignText(l)| + |l.whole| ==> IsDigit(t[p])
  {
    SignInText(t, i, l);
    ThreePartSlice(t, i, SignText(l), l.whole, TailText(l));
    DigitsInText(t, i + |SignText(l)|, l.whole);
  }

  lemma WholeLiteralUnique(t: string, i: nat, l: Literal)
    requires i < |t| && StartsLiteral(t, i)
    requires l.WellFormed() && l.frac == ""
    requires i + |l.Render()| <= |t|
    requires EndsMaximally(t, i + |l.Render()|, l)
    requires l.negative <==> t[i] == '-'
    requires |l.Render()| == |SignText(l)| + |l.whole| + |TailText(l)|
    requires t[i + |SignText(l)|..i + |SignText(l)| + |l.whole|] == l.whole
    requires forall p :: i + |SignText(l)| <= p < i + |SignText(l)| + |l.whole| ==> IsDigit(t[p])
    ensures ScanLiteral(t, i) == l
  {
    var ws := i + |SignText(l)|;
    var we := ws + |l.whole|;
    assert we == i + |l.Render()|;
    DigitRunEndAt(t, ws, we);
    assert ws == i + (if t[i] == '-' then 1 else 0);
    assert Literal(t[i] == '-', t[ws..we], "") == l;
    ScanIsWhole(t, i, ws, we);
  }

  lemma FractionLiteralUnique(t: string, i: nat, l: Literal)
    requires i < |t| && StartsLiteral(t, i)
    requires l.WellFormed() && l.frac != ""
    requires i + |l.Render()| <= |t|
    requires EndsMaximally(t, i + |l.Render()|, l)
    requires l.negative <==> t[i] == '-'
    requires |l.Render()| == |SignText(l)| + |l.whole| + |TailText(l)|
    requires t[i + |SignText(l)|..i + |SignText(l)| + |l.whole|] == l.whole
    requires t[i + |SignText(l)| + |l.whole|..i + |l.Render()|] == TailText(l)
    requires forall p :: i + |SignText(l)| <= p < i + |SignText(l)| + |l.whole| ==> IsDigit(t[p])
    ensures ScanLiteral(t, i) == l
  {
    var e := i + |l.Render()|;
    var ws := i + |SignText(l)|;
    var we := ws + |l.whole|;
    assert TailText(l) == "." + l.frac;
    SliceSplit(t, we, e, ".", l.frac);
    assert t[we] == t[we..we + 1][0];
    DigitRunEndAt(t, ws, we);
    DigitsInText(t, we + 1, l.frac);
    DigitRunEndAt(t, we + 1, e);
    assert ws == i + (if t[i] == '-' then 1 else 0);
    assert Literal(t[i] == '-', t[ws..we], t[we + 1..e]) == l;
    ScanIsFraction(t, i, ws, we, e);
  }

  lemma ScanIsWhole(t: string, i: nat, ws: nat, we: nat)
    requires i < |t| && StartsLiteral(t, i)
    requires ws == i + (if t[i] == '-' then 1 else 0) && DigitRunEnd(t, ws) == we
    requires !(we + 1 < |t| && t[we] == '.' && IsDigit(t[we + 1]))
    ensures ScanLiteral(t, i) == Literal(t[i] == '-', t[ws..we], "")
  {
  }

  lemma ScanIsFraction(t: string, i: nat, ws: nat, we: nat, fe: nat)
    requires i < |t| && StartsLiteral(t, i)
    requires ws == i + (if t[i] == '-' then 1 else 0) && DigitRunEnd(t, ws) == we
    requires we + 1 < |t| && t[we] == '.' && IsDigit(t[we + 1]) && DigitRunEnd(t, we + 1) == fe
    ensures ScanLiteral(t, i) == Literal(t[i] == '-', t[ws..we], t[we + 1..fe])
  {
  }

  function SignText(l: Literal): string
  {
    if l.negative then "-" else ""
  }

  function TailText(l: Literal): string
  {
    if l.frac == "" then "" else "." + l.frac
  }

  lemma SignInText(t: string, i: nat, l: Literal)
    requires l.WellFormed()
    requires i + |l.Render()| <= |t| && t[i..i + |l.Render()|] == l.Render()
    ensures l.Render() == SignText(l) + (l.whole + TailText(l))
    ensures l.negative <==> t[i] == '-'
  {
    var r := l.Render();
    assert r == SignText(l) + (l.whole + TailText(l));
    assert t[i] == r[0];
    if !l.negative {
      assert r[0] == l.whole[0];
    }
  }

  lemma DigitsInText(t: string, a: nat, x: string)
    requires a + |x| <= |t| && t[a..a + |x|] == x && AllDigits(x)
    ensures forall p :: a <= p < a + |x| ==> IsDigit(t[p])
  {
    forall p | a <= p < a + |x|
      ensures IsDigit(t[p])
    {
      assert t[p] == t[a..a + |x|][p - a];
    }
  }

  /** A slice that spells `x + (y + z)` splits into slices spelling `y` and `z` after `x`. */
  lemma ThreePartSlice(t: string, i: nat, x: string, y: string, z: string)
    requires i + |x + (y + z)| <= |t| && t[i..i + |x + (y + z)|] == x + (y + z)
    ensures |x + (y + z)| == |x| + |y| + |z|
    ensures t[i + |x|..i + |x| + |y|] == y
    ensures t[i + |x| + |y|..i + |x + (y + z)|] == z
  {
    var e := i + |x + (y + z)|;
    SliceSplit(t, i, e, x, y + z);
    SliceSplit(t, i + |x|, e, y, z);
  }

  /** A slice that spells `x + y` splits into a slice spelling `x` and one spelling `y`. */
  lemma SliceSplit(t: string, a: nat, c: nat, x: string, y: string)
    requires a <= c <= |t| && t[a..c] == x + y
    ensures a + |x| <= c && t[a..a + |x|] == x && t[a + |x|..c] == y
  {
    assert t[a..a + |x|] == t[a..c][..|x|];
    assert t[a + |x|..c] == t[a..c][|x|..];
  }

  /** A run of digits from `i` to `j` that cannot be extended is the greedy run. */
  lemma {:induction false} DigitRunEndAt(t: string, i: nat, j: nat)
    requires i <= j <= |t|
    requires forall p :: i <= p < j ==> IsDigit(t[p])
    requires j == |t| || !IsDigit(t[j])
    ensures DigitRunEnd(t, i) == j
    decreases j - i
  {
    if i < j {
      DigitRunEndAt(t, i + 1, j);
    }
  }

  /** The text the regular expression runs on: trimmed, first comma turned into a dot. */
  function LenientText(s: string): string
  {
    ReplaceFirst(Trim(s), ',', '.')
  }

  /**
   * `toNumber` (src/core.ts and src/core/utils.ts). `Number` of a matched
   * literal is always finite in the model (a literal of more than 308 digits
   * overflowing to `Infinity` is not modelled).
   */
  function ToNumber(x: Value): (r: Option<real>)
    ensures x.Number? && x.n.Finite? ==> r == Some(x.n.value)
    ensures !x.Str? && !(x.Number? && x.n.Finite?) ==> r == None
    ensures x.Str? ==> (r.None? <==> !HasDigit(x.s))
  {
    match x
    case Number(Finite(v), _) => Some(v)
    case Str(s) =>
      var t := LenientText(s);
      LenientTextKeepsDigits(s);
      NoStartIffNoDigit(t);
      (match FirstLiteralStart(t, 0)
       case None => None
       case Some(i) => Some(ScanLiteral(t, i).Value()))
    case _ => None
  }

  /**
   * `toNumber` of a string is the value of the leftmost match of
   * `-?\d+(?:\.\d+)?` in the trimmed text with its first comma made a dot,
   * the match taking as many digits as it can.
   */
  lemma ToNumberReadsFirstMatch(s: string, i: nat, l: Literal)
    requires i < |LenientText(s)| && StartsLiteral(LenientText(s), i)
    requires forall k :: 0 <= k < i ==> !StartsLiteral(LenientText(s), k)
    requires l.WellFormed()
    requires i + |l.Render()| <= |LenientText(s)| && LenientText(s)[i..i + |l.Render()|] == l.Render()
    requires EndsMaximally(LenientText(s), i + |l.Render()|, l)
    ensures ToNumber(Str(s)) == Some(l.Value())
  {
    var t := LenientText(s);
    LiteralUnique(t, i, l);
    FirstStartAt(t, 0, i);
  }

  lemma {:induction false} FirstStartAt(t: string, j: nat, i: nat)
    requires j <= i < |t| && StartsLiteral(t, i)
    requires forall k :: j <= k < i ==> !StartsLiteral(t, k)
    ensures FirstLiteralStart(t, j) == Some(i)
    decreases i - j
  {
    if j < i {
      FirstStartAt(t, j + 1, i);
    }
  }

  lemma NoStartIffNoDigit(t: string)
    ensures (forall k :: 0 <= k < |t| ==> !StartsLiteral(t, k)) <==> !HasDigit(t)
  {
    if HasDigit(t) {
      var k :| 0 <= k < |t| && IsDigit(t[k]);
      assert StartsLiteral(t, k);
    }
  }

  lemma LenientTextKeepsDigits(s: string)
    ensures HasDigit(LenientText(s)) <==> HasDigit(s)
  {
    TrimKeepsDigits(s);
    ReplaceKeepsDigits(Trim(s));
  }

  lemma TrimKeepsDigits(s: string)
    ensures HasDigit(Trim(s)) <==> HasDigit(s)
  {
    DigitsInCore(s, Trim(s), TrimOffset(s));
  }

  /** A slice that leaves out only whitespace keeps every digit. */
  lemma DigitsInCore(s: string, a: string, off: nat)
    requires off + |a| <= |s| && a == s[off..off + |a|]
    requires forall k :: 0 <= k < off ==> IsSpace(s[k])
    requires forall k :: off + |a| <= k < |s| ==> IsSpace(s[k])
    ensures HasDigit(a) <==> HasDigit(s)
  {
    if HasDigit(a) {
      var k :| 0 <= k < |a| && IsDigit(a[k]);
      assert s[off + k] == a[k];
    }
    if HasDigit(s) {
      var k :| 0 <= k < |s| && IsDigit(s[k]);
      DigitIsNotSpace(s[k]);
      assert a[k - off] == s[k];
    }
  }

  lemma DigitIsNotSpace(c: char)
    requires IsDigit(c)
    ensures !IsSpace(c)
  {
  }

  lemma ReplaceKeepsDigits(a: string)
    ensures HasDigit(ReplaceFirst(a, ',', '.')) <==> HasDigit(a)
  {
    var t := ReplaceFirst(a, ',', '.');
    if HasDigit(a) {
      var k :| 0 <= k < |a| && IsDigit(a[k]);
      assert t[k] == a[k];
    }
    if HasDigit(t) {
      var k :| 0 <= k < |t| && IsDigit(t[k]);
      assert t[k] == a[k];
    }
  }

  /** German decimal comma: "12,49" reads as 12.49. */
  lemma ToNumberDecimalComma()
    ensures ToNumber(Str("12,49")) == Some(12.49)
  {
    LenientTextComma("12,49", 2, "12.49");
    assert FirstLiteralStart("12.49", 0) == Some(0);
    ToNumberOfText("12,49", "12.49", 0);
    ScanDecimalComma();
    ValueDecimalComma();
  }

  /** `toNumber` of a string reads the greedy match at the first start in its lenient text. */
  lemma ToNumberOfText(s: string, t: string, i: nat)
    requires LenientText(s) == t && FirstLiteralStart(t, 0) == Some(i)
    ensures ToNumber(Str(s)) == Some(ScanLiteral(t, i).Value())
  {
  }

  lemma ScanDecimalComma()
    ensures ScanLiteral("12.49", 0) == Literal(false, "12", "49")
  {
    assert DigitRunEnd("12.49", 0) == 2;
    assert DigitRunEnd("12.49", 3) == 5;
  }

  lemma ValueDecimalComma()
    ensures Literal(false, "12", "49").Value() == 12.49
  {
    TwoDigits("12", 12);
    TwoDigits("49", 49);
    assert Pow10(2) == 100;
  }

  /** Leading text and a trailing unit are skipped: "ca. 3 kg" reads as 3. */
  lemma ToNumberSkipsText()
    ensures ToNumber(Str("ca. 3 kg")) == Some(3.0)
  {
    LenientTextNoComma("ca. 3 kg");
    FirstStartSkipsText();
    ToNumberOfText("ca. 3 kg", "ca. 3 kg", 4);
    ScanSkipsText();
    ValueSkipsText();
  }

  lemma ValueSkipsText()
    ensures Literal(false, "3", "").Value() == 3.0
  {
    assert DigitsValue("3") == 3;
  }

  lemma FirstStartSkipsText()
    ensures FirstLiteralStart("ca. 3 kg", 0) == Some(4)
  {
    var t := "ca. 3 kg";
    assert !StartsLiteral(t, 0) && !StartsLiteral(t, 1) && !StartsLiteral(t, 2) && !StartsLiteral(t, 3);
  }

  lemma ScanSkipsText()
    ensures ScanLiteral("ca. 3 kg", 4) == Literal(false, "3", "")
  {
    assert DigitRunEnd("ca. 3 kg", 4) == 5;
  }

  /** A minus sign directly before the digits is part of the number. */
  lemma ToNumberNegative()
    ensures ToNumber(Str("-0,5")) == Some(-0.5)
  {
    LenientTextComma("-0,5", 2, "-0.5");
    assert FirstLiteralStart("-0.5", 0) == Some(0);
    ToNumberOfText("-0,5", "-0.5", 0);
    ScanNegative();
    ValueNegative();
  }

  lemma ScanNegative()
    ensures ScanLiteral("-0.5", 0) == Literal(true, "0", "5")
  {
    assert DigitRunEnd("-0.5", 1) == 2;
    assert DigitRunEnd("-0.5", 3) == 4;
  }

  lemma ValueNegative()
    ensures Literal(true, "0", "5").Value() == -0.5
  {
    assert DigitsValue("0") == 0;
    assert DigitsValue("5") == 5;
    assert Pow10(1) == 10;
  }

  /** Only the first comma becomes a dot: "1.234,5" reads as 1.234. */
  lemma ToNumberThousandsSeparator()
    ensures ToNumber(Str("1.234,5")) == Some(1.234)
  {
    LenientTextComma("1.234,5", 5, "1.234.5");
    assert FirstLiteralStart("1.234.5", 0) == Some(0);
    ToNumberOfText("1.234,5", "1.234.5", 0);
    ScanThousands();
    ValueThousands();
  }

  lemma ScanThousands()
    ensures ScanLiteral("1.234.5", 0) == Literal(false, "1", "234")
  {
    assert DigitRunEnd("1.234.5", 0) == 1;
    assert DigitRunEnd("1.234.5", 2) == 5;
  }

  lemma ValueThousands()
    ensures Literal(false, "1", "234").Value() == 1.234
  {
    assert DigitsValue("1") == 1;
    assert "234"[..2] == "23";
    TwoDigits("23", 23);
    assert DigitsValue("234") == 234;
    assert Pow10(3) == 1000;
  }

  lemma LenientTextNoComma(s: string)
    requires IsTrimmed(s) && ',' !in s
    ensures LenientText(s) == s
  {
    TrimOfTrimmed(s);
  }

  lemma LenientTextComma(s: string, k: nat, t: string)
    requires IsTrimmed(s) && k < |s| && s[k] == ','
    requires forall j :: 0 <= j < k ==> s[j] != ','
    requires t == s[k := '.']
    ensures LenientText(s) == t
  {
    TrimOfTrimmed(s);
    assert IndexOf(s, ',') == k;
  }

  lemma TwoDigits(s: string, n: nat)
    requires |s| == 2 && AllDigits(s) && n == (s[0] as int - '0' as int) * 10 + (s[1] as int - '0' as int)
    ensures DigitsValue(s) == n
  {
    assert s[..1][..0] == [];
    assert DigitsValue(s[..1]) == s[0] as int - '0' as int;
  }

  /** Values that hold no number read as missing. */
  lemma ToNumberMissing()
    ensures ToNumber(Str("k. A.")) == None
    ensures ToNumber(Str("")) == None
    ensures ToNumber(Number(NaN, "NaN")) == None
    ensures ToNumber(Bool(true)) == None
    ensures ToNumber(Undefined) == None
  {
    assert !HasDigit("k. A.");
  }

  // ===== toNum: the whole trimmed, space-free text must be a number =====

  /** The optional sign character `+` or `-` that `Number` accepts before the digits. */
  function SignLength(t: string): nat
  {
    if |t| > 0 && (t[0] == '+' || t[0] == '-') then 1 else 0
  }

  function CountChar(s: string, c: char): nat
  {
    if |s| == 0 then 0 else (if s[0] == c then 1 else 0) + CountChar(s[1..], c)
  }

  /** Characters allowed after the sign: digits and the decimal dot. */
  predicate DigitsAndDots(b: string)
  {
    forall k :: 0 <= k < |b| ==> IsDigit(b[k]) || b[k] == '.'
  }

  /**
   * The decimal subset of JavaScript's numeric string grammar: a sign, then
   * digits and at most one dot, with at least one digit (`12`, `12.`, `.5`,
   * `-1.25`).
   */
  predicate IsStrictDecimal(t: string)
  {
    IsDecimalBody(t[SignLength(t)..])
  }

  predicate IsDecimalBody(b: string)
  {
    DigitsAndDots(b) && CountChar(b, '.') <= 1 && HasDigit(b)
  }

  /**
   * `t` is written as an optional sign, whole digits and, after an optional
   * dot, fraction digits, with at least one digit in all: `-12.5`, `+3`,
   * `.5`, `7.`.
   */
  predicate DecimalForm(t: string, sign: string, whole: string, dot: bool, frac: string)
  {
    && (sign == "" || sign == "+" || sign == "-")
    && AllDigits(whole) && AllDigits(frac) && |whole| + |frac| > 0
    && (dot || frac == "")
    && t == sign + whole + (if dot then "." + frac else "")
  }

  /** `Number(t)` restricted to the decimal subset; everything else reads as not finite. */
  function ParseStrict(t: string): (r: Option<real>)
    ensures r.Some? <==> IsStrictDecimal(t)
    ensures forall sign, whole, dot, frac :: DecimalForm(t, sign, whole, dot, frac) ==>
      r == Some(DecimalValue(sign == "-", whole, frac))
  {
    ParseStrictValues(t);
    ParseBody(t[SignLength(t)..], |t| > 0 && t[0] == '-')
  }

  /** Every way of reading `t` as a decimal gives the value the parse returns. */
  lemma ParseStrictValues(t: string)
    ensures forall sign, whole, dot, frac :: DecimalForm(t, sign, whole, dot, frac) ==>
      ParseBody(t[SignLength(t)..], |t| > 0 && t[0] == '-') == Some(DecimalValue(sign == "-", whole, frac))
  {
    forall sign, whole, dot, frac | DecimalForm(t, sign, whole, dot, frac)
      ensures ParseBody(t[SignLength(t)..], |t| > 0 && t[0] == '-') == Some(DecimalValue(sign == "-", whole, frac))
    {
      var b := whole + (if dot then "." + frac else "");
      assert t == sign + b;
      assert |b| > 0 && (IsDigit(b[0]) || b[0] == '.') by {
        if |whole| > 0 {
          assert b[0] == whole[0];
        } else {
          assert b[0] == '.';
        }
      }
      if sign == "" {
        assert t == b;
      } else {
        assert t[0] == sign[0];
      }
      assert SignLength(t) == |sign|;
      assert t[|sign|..] == b;
      ParseBodyValue(b, whole, dot, frac, sign == "-");
    }
  }

  /** Whole digits, an optional dot and fraction digits parse to their decimal value. */
  lemma ParseBodyValue(b: string, whole: string, dot: bool, frac: string, negative: bool)
    requires AllDigits(whole) && AllDigits(frac) && |whole| + |frac| > 0 && (dot || frac == "")
    requires b == whole + (if dot then "." + frac else "")
    ensures ParseBody(b, negative) == Some(DecimalValue(negative, whole, frac))
  {
    var j := |whole|;
    forall p | 0 <= p < j
      ensures IsDigit(b[p])
    {
      assert b[p] == whole[p];
    }
    if dot {
      assert b[j] == '.';
    }
    DigitRunEndAt(b, 0, j);
    assert b[..j] == whole;
    if dot {
      forall p | j + 1 <= p < |b|
        ensures IsDigit(b[p])
      {
        assert b[p] == frac[p - j - 1];
      }
      DigitRunEndAt(b, j + 1, |b|);
      assert b[j + 1..|b|] == frac;
    }
  }

  /** Digits, optionally a dot and more digits, and nothing else. */
  function ParseBody(b: string, negative: bool): (r: Option<real>)
    ensures r.Some? <==> IsDecimalBody(b)
  {
    var j := DigitRunEnd(b, 0);
    var hasDot := j < |b| && b[j] == '.';
    var k := if hasDot then DigitRunEnd(b, j + 1) else j;
    BodyScan(b, j, hasDot, k);
    if k == |b| && (j > 0 || k > j + 1) then
      Some(DecimalValue(negative, b[..j], if hasDot then b[j + 1..k] else ""))
    else None
  }

  lemma BodyScan(b: string, j: nat, hasDot: bool, k: nat)
    requires j == DigitRunEnd(b, 0) && hasDot == (j < |b| && b[j] == '.')
    requires k == if hasDot then DigitRunEnd(b, j + 1) else j
    ensures (k == |b| && (j > 0 || k > j + 1)) <==> IsDecimalBody(b)
  {
    if hasDot {
      BodyWithDot(b, j, k);
    } else {
      BodyWithoutDot(b, j);
    }
  }

  lemma DigitsHaveNoDot(s: string)
    requires AllDigits(s)
    ensures CountChar(s, '.') == 0
  {
    if |s| > 0 {
      assert AllDigits(s[1..]) by {
        forall k | 0 <= k < |s[1..]|
          ensures IsDigit(s[1..][k])
        {
          assert s[1..][k] == s[k + 1];
        }
      }
      DigitsHaveNoDot(s[1..]);
    }
  }

  lemma CountCharAppend(a: string, b: string, c: char)
    ensures CountChar(a + b, c) == CountChar(a, c) + CountChar(b, c)
  {
    if |a| == 0 {
      assert a + b == b;
    } else {
      assert (a + b)[1..] == a[1..] + b;
      CountCharAppend(a[1..], b, c);
    }
  }

  lemma BodyWithoutDot(b: string, j: nat)
    requires j == DigitRunEnd(b, 0)
    requires !(j < |b| && b[j] == '.')
    ensures (j == |b| && j > 0) <==> IsDecimalBody(b)
  {
    DigitsHaveNoDot(b[..j]);
    if j == |b| {
      assert b[..j] == b;
      if j > 0 {
        assert IsDigit(b[0]);
      }
    } else {
      assert !IsDigit(b[j]) && b[j] != '.';
    }
  }

  lemma BodyWithDot(b: string, j: nat, k: nat)
    requires j == DigitRunEnd(b, 0) && j < |b| && b[j] == '.'
    requires k == DigitRunEnd(b, j + 1)
    ensures (k == |b| && (j > 0 || k > j + 1)) <==> IsDecimalBody(b)
  {
    assert b[0..j] == b[..j];
    DotCount(b, j, k);
    if k == |b| {
      BodyEndsAfterFraction(b, j, k);
    } else {
      BodyGoesOnAfterFraction(b, j, k);
    }
  }

  /** Past the one dot after the whole digits, dots can only come after the fraction digits. */
  lemma DotCount(b: string, j: nat, k: nat)
    requires j < |b| && b[j] == '.' && j + 1 <= k <= |b|
    requires AllDigits(b[..j]) && AllDigits(b[j + 1..k])
    ensures CountChar(b, '.') == 1 + CountChar(b[k..], '.')
  {
    CountSplit(b, j, '.');
    DigitsHaveNoDot(b[..j]);
    assert b[j..][1..] == b[j + 1..];
    var r := b[j + 1..];
    CountSplit(r, k - (j + 1), '.');
    assert r[..k - (j + 1)] == b[j + 1..k] && r[k - (j + 1)..] == b[k..];
    DigitsHaveNoDot(b[j + 1..k]);
  }

  lemma CountSplit(s: string, i: nat, c: char)
    requires i <= |s|
    ensures CountChar(s, c) == CountChar(s[..i], c) + CountChar(s[i..], c)
  {
    CountCharAppend(s[..i], s[i..], c);
    assert s[..i] + s[i..] == s;
  }

  lemma BodyEndsAfterFraction(b: string, j: nat, k: nat)
    requires j == DigitRunEnd(b, 0) && j < |b| && b[j] == '.'
    requires k == DigitRunEnd(b, j + 1) && k == |b|
    requires CountChar(b, '.') == 1 + CountChar(b[k..], '.')
    ensures (j > 0 || k > j + 1) <==> IsDecimalBody(b)
  {
    assert b[k..] == [];
    forall p | 0 <= p < |b|
      ensures IsDigit(b[p]) || b[p] == '.'
    {
      if p < j {
        assert b[p] == b[..j][p];
      } else if p > j {
        assert b[p] == b[j + 1..k][p - (j + 1)];
      }
    }
    if j > 0 {
      assert IsDigit(b[0]);
    } else if k > j + 1 {
      assert IsDigit(b[j + 1]);
    } else {
      assert b == ".";
      assert !HasDigit(b);
    }
  }

  lemma BodyGoesOnAfterFraction(b: string, j: nat, k: nat)
    requires j == DigitRunEnd(b, 0) && j < |b| && b[j] == '.'
    requires k == DigitRunEnd(b, j + 1) && k < |b|
    requires CountChar(b, '.') == 1 + CountChar(b[k..], '.')
    ensures !IsDecimalBody(b)
  {
    assert !IsDigit(b[k]);
    if b[k] == '.' {
      assert b[k..][0] == '.';
      assert CountChar(b[k..], '.') >= 1;
    }
  }

  /**
   * `toNum` (src/app.tsx): `null` and `undefined` read as missing, numbers
   * pass through when finite, anything else is turned into text, trimmed,
   * stripped of every whitespace character, its first comma turned into a
   * dot, and the whole text must then be a number.
   */
  function ToNum(v: Value): (r: Option<real>)
    ensures IsNullish(v) ==> r == None
    ensures v.Bool? ==> r == None
    ensures v.Number? ==> (r.Some? <==> v.n.Finite?) && (v.n.Finite? ==> r == Some(v.n.value))
    ensures v.Str? && Trim(v.s) == "" ==> r == None
    ensures v.Str? && Trim(v.s) != "" ==> (r.Some? <==> IsStrictDecimal(Cleaned(v.s)))
    ensures v.Str? ==> forall sign, whole, dot, frac :: DecimalForm(Cleaned(v.s), sign, whole, dot, frac) ==>
      r == Some(DecimalValue(sign == "-", whole, frac))
  {
    match v
    case Undefined => None
    case Null => None
    case Number(n, _) => if n.Finite? then Some(n.value) else None
    case _ =>
      BoolTextRejected(v);
      var s := Trim(ToStr(v));
      if s == "" then None
      else ParseStrict(ReplaceFirst(RemoveSpaces(s), ',', '.'))
  }

  /** The text `toNum` hands to `Number`: trimmed, without whitespace, first comma made a dot. */
  function Cleaned(s: string): string
  {
    ReplaceFirst(RemoveSpaces(Trim(s)), ',', '.')
  }

  /** `"true"` and `"false"` are no numbers. */
  lemma BoolTextRejected(v: Value)
    ensures v.Bool? ==> ParseStrict(Cleaned(ToStr(v))) == None
  {
    if v.Bool? {
      WordRejected(ToStr(v));
    }
  }

  /** A word of letters, with no spaces or commas, is not a decimal number. */
  lemma WordRejected(w: string)
    requires |w| > 0 && !IsDigit(w[0]) && w[0] != '.' && w[0] != '+' && w[0] != '-'
    requires forall k :: 0 <= k < |w| ==> !IsSpace(w[k]) && w[k] != ','
    ensures ParseStrict(Cleaned(w)) == None
  {
    TrimOfTrimmed(w);
    SpaceFreeKept(w);
    NoCommaKept(w);
    StrictRejects(w, 0);
  }

  /** `clampPct` (src/app.tsx): non-finite values read as 0, then clamped into [0, 100]. */
  function ClampPct(v: Num): (r: real)
    ensures 0.0 <= r <= 100.0
    ensures !v.Finite? ==> r == 0.0
    ensures v.Finite? && 0.0 <= v.value <= 100.0 ==> r == v.value
    ensures v.Finite? && v.value < 0.0 ==> r == 0.0
    ensures v.Finite? && v.value > 100.0 ==> r == 100.0
  {
    if !v.Finite? then 0.0
    else if v.value < 0.0 then 0.0
    else if v.value > 100.0 then 100.0
    else v.value
  }

  /** Clamping a clamped value changes nothing. */
  lemma ClampPctIdempotent(v: Num)
    ensures ClampPct(Finite(ClampPct(v))) == ClampPct(v)
  {
  }

  /** A German decimal comma is accepted by `toNum` as well. */
  lemma ToNumDecimalComma()
    ensures ToNum(Str("12,49")) == Some(12.49)
  {
    ToNumCommaText();
    ReplaceDecimalComma();
    ParseDecimalComma();
  }

  lemma ToNumCommaText()
    ensures ToNum(Str("12,49")) == ParseStrict(ReplaceFirst("12,49", ',', '.'))
  {
    ToNumOfSpaceFree("12,49");
  }

  lemma ReplaceDecimalComma()
    ensures ReplaceFirst("12,49", ',', '.') == "12.49"
  {
    assert IndexOf("12,49", ',') == 2;
  }

  lemma ParseDecimalComma()
    ensures ParseStrict("12.49") == Some(12.49)
  {
    assert "12.49"[SignLength("12.49")..] == "12.49";
    ScanDecimalComma();
    assert "12.49"[..2] == "12" && "12.49"[3..5] == "49";
    ValueDecimalComma();
  }

  /** Unlike `toNumber`, `toNum` rejects a number followed by a unit. */
  lemma ToNumRejectsUnit()
    ensures ToNum(Str("3 kg")) == None
  {
    DropSpaceOfUnit();
    ToNumRejectsGluedUnit();
  }

  lemma DropSpaceOfUnit()
    ensures ToNum(Str("3 kg")) == ToNum(Str("3kg"))
  {
    ToNumIgnoresInnerSpace("3 kg", 1, "3kg");
  }

  lemma ToNumRejectsGluedUnit()
    ensures ToNum(Str("3kg")) == None
  {
    ToNumOfPlain("3kg");
    StrictRejects("3kg", 1);
  }

  /** Spaces inside the text are removed, so a space as thousands separator is accepted. */
  lemma ToNumSpaceSeparator()
    ensures ToNum(Str("1 234")) == Some(1234.0)
  {
    DropThousandsSpace();
    ToNumThousands();
  }

  lemma DropThousandsSpace()
    ensures ToNum(Str("1 234")) == ToNum(Str("1234"))
  {
    ToNumIgnoresInnerSpace("1 234", 1, "1234");
  }

  lemma ToNumThousands()
    ensures ToNum(Str("1234")) == Some(1234.0)
  {
    ToNumOfPlain("1234");
    ParseThousands();
  }

  /** A whitespace character inside a trimmed text does not change what `toNum` reads. */
  lemma ToNumIgnoresInnerSpace(s: string, i: nat, t: string)
    requires IsTrimmed(s) && 0 < i < |s| - 1 && IsSpace(s[i])
    requires t == s[..i] + s[i + 1..]
    ensures ToNum(Str(s)) == ToNum(Str(t))
  {
    var a, b := s[..i], s[i + 1..];
    assert s == a + [s[i]] + b;
    assert (a + b)[0] == s[0] && (a + b)[|a + b| - 1] == s[|s| - 1];
    ToNumOfTrimmed(s);
    ToNumOfTrimmed(a + b);
    RemoveInnerSpace(a, s[i], b);
  }

  lemma RemoveInnerSpace(a: string, sp: char, b: string)
    requires IsSpace(sp)
    ensures RemoveSpaces(a + [sp] + b) == RemoveSpaces(a + b)
  {
    RemoveSpacesAppend(a + [sp], b);
    RemoveSpacesAppend(a, [sp]);
    RemoveSpacesAppend(a, b);
    assert RemoveSpaces([sp]) == [];
  }

  lemma {:induction false} RemoveSpacesAppend(a: string, b: string)
    ensures RemoveSpaces(a + b) == RemoveSpaces(a) + RemoveSpaces(b)
  {
    if |a| == 0 {
      assert a + b == b;
    } else {
      assert (a + b)[0] == a[0] && (a + b)[1..] == a[1..] + b;
      RemoveSpacesAppend(a[1..], b);
    }
  }

  lemma ParseThousands()
    ensures ParseStrict("1234") == Some(1234.0)
  {
    assert "1234"[SignLength("1234")..] == "1234";
    assert DigitRunEnd("1234", 0) == 4;
    assert "1234"[..4] == "1234";
    assert "1234"[..3] == "123" && "123"[..2] == "12";
    TwoDigits("12", 12);
    assert DigitsValue("1234") == 1234;
  }

  /** For text that needs no trimming, `toNum` parses it with spaces removed and the first comma replaced. */
  lemma ToNumOfTrimmed(s: string)
    requires IsTrimmed(s) && s != ""
    ensures ToNum(Str(s)) == ParseStrict(ReplaceFirst(RemoveSpaces(s), ',', '.'))
  {
    TrimOfTrimmed(s);
  }

  lemma ToNumOfSpaceFree(s: string)
    requires s != "" && forall k :: 0 <= k < |s| ==> !IsSpace(s[k])
    ensures ToNum(Str(s)) == ParseStrict(ReplaceFirst(s, ',', '.'))
  {
    ToNumOfTrimmed(s);
    SpaceFreeKept(s);
  }

  /** For text without spaces or commas, `toNum` is the strict parse of the text itself. */
  lemma ToNumOfPlain(s: string)
    requires s != "" && forall k :: 0 <= k < |s| ==> !IsSpace(s[k]) && s[k] != ','
    ensures ToNum(Str(s)) == ParseStrict(s)
  {
    ToNumOfSpaceFree(s);
    NoCommaKept(s);
  }

  /** A character after the sign that is neither a digit nor a dot makes the strict parse fail. */
  lemma StrictRejects(t: string, j: nat)
    requires SignLength(t) <= j < |t| && !IsDigit(t[j]) && t[j] != '.'
    ensures ParseStrict(t) == None
  {
    assert t[SignLength(t)..][j - SignLength(t)] == t[j];
  }

  lemma SpaceFreeKept(s: string)
    requires forall k :: 0 <= k < |s| ==> !IsSpace(s[k])
    ensures RemoveSpaces(s) == s
  {
    if |s| > 0 {
      assert s == [s[0]] + s[1..];
      SpaceFreeKept(s[1..]);
    }
  }

  lemma NoCommaKept(s: string)
    requires forall k :: 0 <= k < |s| ==> s[k] != ','
    ensures ReplaceFirst(s, ',', '.') == s
  {
  }
}

=== FILE: core.dfy ===
/**
 * The record types of src/core.ts and its two price helpers, `ekToBase`
 * and `pickPrice`. Every nullable field is an `Option`. Status fields hold
 * free text after an import and one of the status constants below after a
 * recalculation.
 */
module Core {
  import opened Wrappers
  import Text
  import Seqs

  const StatusOk := "OK"
  const StatusMissingEkOrUnit := "FEHLT_EK_ODER_EINHEIT"
  const StatusMissingQty := "FEHLT_MENGE"
  const StatusMissingMapping := "FEHLT_MAPPING"
  const StatusMissingEk := "FEHLT_EK"
  const StatusMissingPrice := "FEHLT_PREIS"
  const StatusMissingRecipe := "FEHLT_REZEPT"

  /** An inventory article: purchase price `ekRaw` per `unitRaw`, and the derived price per base unit. */
  datatype InventoryItem = InventoryItem(
    name: string,
    ekRaw: Option<real>,
    unitRaw: Option<string>,
    ekBase: Option<real>,
    status: Option<string>)

  /** Resolution of a recipe ingredient name to an inventory article. */
  datatype MappingRow = MappingRow(
    recipeName: string,
    suggestion: Option<string>,
    correction: Option<string>,
    status: Option<string>)

  /**
   * One ingredient of one dish. `selected` is the per-line inventory choice
   * (`inventoryItemSelected`) the editor in src/app.tsx stores on the same
   * objects; the recalculation neither reads nor writes it.
   */
  datatype RecipeLine = RecipeLine(
    dish: string,
    ingredient: string,
    qty: Option<real>,
    unit: Option<string>,
    mappedInventory: Option<string>,
    ekBase: Option<real>,
    cost: Option<real>,
    status: Option<string>,
    selected: Option<string>)

  /** A dish with its three candidate prices and the derived cost of goods and margin. */
  datatype DishRow = DishRow(
    dish: string,
    priceMaster: Option<real>,
    priceMenu: Option<real>,
    priceTest: Option<real>,
    cogs: Option<real>,
    db: Option<real>,
    dbPct: Option<real>,
    status: Option<string>)

  datatype AppData = AppData(
    inventory: seq<InventoryItem>,
    mapping: seq<MappingRow>,
    recipes: seq<RecipeLine>,
    dishes: seq<DishRow>)

  datatype IssueType = Mapping | Ek | Menge | Preis | Rezept

  /** A diagnostic of the recalculation, with its message and the hint where to fix it. */
  datatype DataIssue = DataIssue(
    kind: IssueType,
    message: string,
    dish: Option<string>,
    ingredient: Option<string>,
    actionHint: string)

  /** JavaScript truthiness of a nullable string: `null` and `""` are falsy. */
  predicate Truthy(s: Option<string>)
  {
    s.Some? && s.value != ""
  }

  /** The purchase units priced per kilogram or litre, whose base unit is a thousandth. */
  predicate IsThousandUnit(unitRaw: string)
  {
    var u := Text.Trim(Text.Lower(unitRaw));
    u == "kg" || u == "l"
  }

  /** `ekToBase`: price per gram, millilitre or piece. */
  function EkToBase(ekRaw: real, unitRaw: string): (r: real)
    ensures IsThousandUnit(unitRaw) ==> r * 1000.0 == ekRaw
    ensures !IsThousandUnit(unitRaw) ==> r == ekRaw
  {
    if IsThousandUnit(unitRaw) then ekRaw / 1000.0 else ekRaw
  }

  /** A price changes under `EkToBase` exactly for kilogram and litre units. */
  lemma EkToBaseScalesExactlyThousandUnits(ekRaw: real, unitRaw: string)
    requires ekRaw != 0.0
    ensures EkToBase(ekRaw, unitRaw) != ekRaw <==> IsThousandUnit(unitRaw)
  {
  }

  /** Case and surrounding whitespace of the unit do not matter; other spellings are not recognised. */
  lemma EkToBaseExamples(p: real)
    ensures EkToBase(p, " KG ") == p / 1000.0
    ensures EkToBase(p, "L") == p / 1000.0
    ensures EkToBase(p, "Stk") == p
    ensures EkToBase(p, "Liter") == p
  {
    UnitKgPadded();
    UnitLitre();
    UnitPiece();
    UnitLiterSpelledOut();
  }

  lemma UnitKgPadded()
    ensures IsThousandUnit(" KG ")
  {
    assert Text.Lower(" KG ") == " kg ";
    assert Text.SkipSpaces(" kg ", 0) == 1;
    assert Text.SkipSpacesBack(" kg ", 1, 4) == 3;
    assert Text.Trim(" kg ") == "kg";
  }

  lemma UnitLitre()
    ensures IsThousandUnit("L")
  {
    assert Text.Lower("L") == "l";
    Text.TrimOfTrimmed("l");
  }

  lemma UnitPiece()
    ensures !IsThousandUnit("Stk")
  {
    assert Text.Lower("Stk") == "stk";
    Text.TrimOfTrimmed("stk");
  }

  lemma UnitLiterSpelledOut()
    ensures !IsThousandUnit("Liter")
  {
    assert Text.Lower("Liter") == "liter";
    Text.TrimOfTrimmed("liter");
  }

  /** `pickPrice`: the test price, else the menu price, else the master price. */
  function PickPrice(d: DishRow): (r: Option<real>)
    ensures d.priceTest.Some? ==> r == d.priceTest
    ensures d.priceTest.None? && d.priceMenu.Some? ==> r == d.priceMenu
    ensures d.priceTest.None? && d.priceMenu.None? ==> r == d.priceMaster
  {
    var candidates := [d.priceTest, d.priceMenu, d.priceMaster];
    assert candidates[0] == d.priceTest && candidates[1] == d.priceMenu && candidates[2] == d.priceMaster;
    FirstPresent(candidates)
  }

  /** The first present entry of an ordered list of candidates (`a ?? b ?? …`). */
  function FirstPresent<T>(candidates: seq<Option<T>>): (r: Option<T>)
    ensures r.Some? <==> exists k :: 0 <= k < |candidates| && candidates[k].Some?
    ensures forall k :: (0 <= k < |candidates| && candidates[k].Some?
                         && forall j :: 0 <= j < k ==> candidates[j].None?) ==> r == candidates[k]
  {
    if |candidates| == 0 then None
    else if candidates[0].Some? then candidates[0]
    else
      assert forall k :: 1 <= k < |candidates| ==> candidates[k] == candidates[1..][k - 1];
      FirstPresent(candidates[1..])
  }
}

=== FILE: editor.dfy ===
/**
 * The data edits of the application shell (src/app.tsx). Each edit works on
 * a deep copy of the current data, changes a few fields, and hands the copy
 * to `safeSetAll`, which stores the recomputed data and its diagnostics.
 * Without loaded data every edit does nothing. The JSON deep copy is the
 * identity on these records, so the model starts from the data itself.
 */
module Editor {
  import opened Wrappers
  import opened JsValue
  import Text
  import Coerce
  import opened Core
  import opened Recalc
  import Seqs

  /** What the shell holds: the loaded data, its diagnostics, and the error banner. */
  datatype Session = Session(data: Option<AppData>, issues: seq<DataIssue>, error: Option<string>)

  const StatusReview := "PRÜFEN"
  const StatusDishNew := "PREIS FEHLT"
  const DuplicateDishError := "Gericht existiert bereits."

  /** `safeSetAll`: store the recomputed data and its diagnostics. */
  function SafeSetAll(s: Session, next: AppData): Session
  {
    var r := RecalcAll(next);
    Session(Some(r.data), r.issues, s.error)
  }

  /** `text.trim() || null`. */
  function OptTrimmed(text: string): (r: Option<string>)
    ensures r.None? <==> Text.Trim(text) == ""
    ensures r.Some? ==> r.value == Text.Trim(text) && r.value != ""
  {
    var t := Text.Trim(text);
    if t == "" then None else Some(t)
  }

  /** `"OK"` for a chosen article, `"PRÜFEN"` when the choice is empty. */
  function ChoiceStatus(choice: Option<string>): string
  {
    if Truthy(choice) then StatusOk else StatusReview
  }

  // ===== applyMapping =====

  /** `k` is the row `find` returns for `name`: the first one with that recipe name. */
  predicate IsFirstNamed(mapping: seq<MappingRow>, k: int, name: string)
  {
    0 <= k < |mapping| && mapping[k].recipeName == name
    && forall j :: 0 <= j < k ==> mapping[j].recipeName != name
  }

  function MappingEdited(data: AppData, recipeName: string, choice: Option<string>): (r: AppData)
    ensures r.inventory == data.inventory && r.dishes == data.dishes
    ensures |r.mapping| == |data.mapping|
    ensures forall k :: 0 <= k < |data.mapping| ==>
      r.mapping[k] == (if IsFirstNamed(data.mapping, k, recipeName)
                       then data.mapping[k].(correction := choice, status := Some(ChoiceStatus(choice)))
                       else data.mapping[k])
    ensures |r.recipes| == |data.recipes|
    ensures forall k :: 0 <= k < |data.recipes| ==>
      r.recipes[k] == (if data.recipes[k].ingredient == recipeName
                       then data.recipes[k].(selected := choice)
                       else data.recipes[k])
  {
    var mapping :=
      match Seqs.FirstIndex(data.mapping, (m: MappingRow) => m.recipeName == recipeName)
      case None => data.mapping
      case Some(k) => data.mapping[k := data.mapping[k].(correction := choice, status := Some(ChoiceStatus(choice)))];
    var recipes := seq(|data.recipes|, k requires 0 <= k < |data.recipes| =>
      if data.recipes[k].ingredient == recipeName then data.recipes[k].(selected := choice) else data.recipes[k]);
    data.(mapping := mapping, recipes := recipes)
  }

  /**
   * `applyMapping`: the first mapping row for the recipe ingredient takes
   * the chosen article as its correction, and every line of that
   * ingredient records the choice.
   */
  function ApplyMapping(s: Session, recipeName: string, choice: Option<string>): (r: Session)
    ensures s.data.None? ==> r == s
    ensures s.data.Some? ==> r.data.Some? && r.error == s.error
    ensures s.data.Some? ==> r.data.value.mapping == MappingEdited(s.data.value, recipeName, choice).mapping
  {
    if s.data.None? then s else SafeSetAll(s, MappingEdited(s.data.value, recipeName, choice))
  }

  // ===== fixRecipeUnitForIngredient =====

  function UnitsFixed(lines: seq<RecipeLine>, recipeName: string, unit: string): (units: seq<Option<string>>)
    ensures |units| == |lines|
    ensures forall k :: 0 <= k < |lines| ==>
      units[k] == if lines[k].ingredient == recipeName then Some(unit) else lines[k].unit
  {
    seq(|lines|, k requires 0 <= k < |lines| =>
      if lines[k].ingredient == recipeName then Some(unit) else lines[k].unit)
  }

  /** `fixRecipeUnitForIngredient`: every line of the ingredient takes the new unit. */
  function FixRecipeUnit(s: Session, recipeName: string, unit: string): (r: Session)
    ensures s.data.None? ==> r == s
    ensures s.data.Some? ==> r.data.Some? && r.error == s.error
  {
    if s.data.None? then s
    else
      var data := s.data.value;
      SafeSetAll(s, data.(recipes := WithUnits(data.recipes, UnitsFixed(data.recipes, recipeName, unit))))
  }

  // ===== addInventoryItem =====

  /** The article the form describes; its base price and status are left to the recomputation. */
  function NewItem(name: string, ekRaw: string, unitRaw: string): InventoryItem
  {
    InventoryItem(Text.Trim(name), Coerce.ToNum(Str(ekRaw)), OptTrimmed(unitRaw), None, None)
  }

  /** `addInventoryItem`: a blank name does nothing; otherwise one article is appended. */
  function AddInventoryItem(s: Session, name: string, ekRaw: string, unitRaw: string): (r: Session)
    ensures s.data.None? || Text.Trim(name) == "" ==> r == s
    ensures s.data.Some? && Text.Trim(name) != "" ==>
      && r.data.Some? && r.error == s.error
      && |r.data.value.inventory| == |s.data.value.inventory| + 1
      && r.data.value.mapping == s.data.value.mapping
  {
    if s.data.None? || Text.Trim(name) == "" then s
    else
      var data := s.data.value;
      SafeSetAll(s, data.(inventory := data.inventory + [NewItem(name, ekRaw, unitRaw)]))
  }

  // ===== addDish =====

  /** `dishes.some(d => d.dish.toLowerCase() === name.toLowerCase())`. */
  predicate DishNameTaken(dishes: seq<DishRow>, name: string)
  {
    exists k :: 0 <= k < |dishes| && Text.Lower(dishes[k].dish) == Text.Lower(name)
  }

  function NewDish(name: string, priceMaster: string, priceMenu: string, priceTest: string): DishRow
  {
    DishRow(Text.Trim(name), Coerce.ToNum(Str(priceMaster)), Coerce.ToNum(Str(priceMenu)),
      Coerce.ToNum(Str(priceTest)), None, None, None, None)
  }

  /**
   * `addDish`: a blank name does nothing; a name already used, ignoring
   * case, raises the error banner and leaves the data as it is; otherwise
   * one dish is appended.
   */
  function AddDish(s: Session, name: string, priceMaster: string, priceMenu: string, priceTest: string): (r: Session)
    ensures s.data.None? || Text.Trim(name) == "" ==> r == s
    ensures s.data.Some? && Text.Trim(name) != "" && DishNameTaken(s.data.value.dishes, Text.Trim(name)) ==>
      r == s.(error := Some(DuplicateDishError))
    ensures s.data.Some? && Text.Trim(name) != "" && !DishNameTaken(s.data.value.dishes, Text.Trim(name)) ==>
      && r.data.Some? && r.error == s.error
      && |r.data.value.dishes| == |s.data.value.dishes| + 1
      && r.data.value.dishes[|s.data.value.dishes|].dish == Text.Trim(name)
  {
    if s.data.None? || Text.Trim(name) == "" then s
    else
      var data := s.data.value;
      if DishNameTaken(data.dishes, Text.Trim(name)) then s.(error := Some(DuplicateDishError))
      else SafeSetAll(s, data.(dishes := data.dishes + [NewDish(name, priceMaster, priceMenu, priceTest)]))
  }

  // ===== addRecipeLine =====

  predicate HasDishNamed(dishes: seq<DishRow>, dish: string)
  {
    exists k :: 0 <= k < |dishes| && dishes[k].dish == dish
  }

  predicate HasMappingFor(mapping: seq<MappingRow>, ingredient: string)
  {
    exists k :: 0 <= k < |mapping| && mapping[k].recipeName == ingredient
  }

  /** The data `addRecipeLine` hands to the recomputation. */
  function RecipeLineAdded(data: AppData, dish: string, ingredient: string, qty: string, unit: string, pick: string): (r: AppData)
    ensures r.inventory == data.inventory
    ensures r.recipes == data.recipes
      + [RecipeLine(dish, ingredient, Coerce.ToNum(Str(qty)), if unit == "" then None else Some(unit),
                    None, None, None, None, OptTrimmed(pick))]
    ensures r.dishes == data.dishes
      + (if HasDishNamed(data.dishes, dish) then []
         else [DishRow(dish, None, None, None, None, None, None, Some(StatusDishNew))])
    ensures r.mapping == data.mapping
      + (if HasMappingFor(data.mapping, ingredient) then []
         else [MappingRow(ingredient, None, OptTrimmed(pick), Some(ChoiceStatus(OptTrimmed(pick))))])
  {
    var line := RecipeLine(dish, ingredient, Coerce.ToNum(Str(qty)), if unit == "" then None else Some(unit),
      None, None, None, None, OptTrimmed(pick));
    var dishes :=
      if HasDishNamed(data.dishes, dish) then data.dishes
      else data.dishes + [DishRow(dish, None, None, None, None, None, None, Some(StatusDishNew))];
    var mapping :=
      if HasMappingFor(data.mapping, ingredient) then data.mapping
      else data.mapping + [MappingRow(ingredient, None, OptTrimmed(pick), Some(ChoiceStatus(OptTrimmed(pick))))];
    AppData(data.inventory, mapping, data.recipes + [line], dishes)
  }

  /**
   * `addRecipeLine`: a blank dish or ingredient does nothing; otherwise the
   * line is appended, together with a dish and a mapping row when none of
   * that name exists yet.
   */
  function AddRecipeLine(s: Session, dish: string, ingredient: string, qty: string, unit: string, pick: string): (r: Session)
    ensures s.data.None? || Text.Trim(dish) == "" || Text.Trim(ingredient) == "" ==> r == s
  {
    if s.data.None? || Text.Trim(dish) == "" || Text.Trim(ingredient) == "" then s
    else SafeSetAll(s, RecipeLineAdded(s.data.value, Text.Trim(dish), Text.Trim(ingredient), qty, unit, pick))
  }

  // ===== updateDishPrice =====

  datatype PriceField = Master | Menu | Test

  function WithPrice(d: DishRow, field: PriceField, value: Option<real>): DishRow
  {
    match field
    case Master => d.(priceMaster := value)
    case Menu => d.(priceMenu := value)
    case Test => d.(priceTest := value)
  }

  function PriceOf(d: DishRow, field: PriceField): Option<real>
  {
    match field
    case Master => d.priceMaster
    case Menu => d.priceMenu
    case Test => d.priceTest
  }

  /** `updateDishPrice`: the first dish of that name takes the new price; an unknown dish does nothing. */
  function UpdateDishPrice(s: Session, dishName: string, field: PriceField, value: Option<real>): (r: Session)
    ensures s.data.None? ==> r == s
    ensures s.data.Some? && Seqs.FirstIndex(s.data.value.dishes, (d: DishRow) => d.dish == dishName).None? ==> r == s
  {
    if s.data.None? then s
    else
      var data := s.data.value;
      match Seqs.FirstIndex(data.dishes, (d: DishRow) => d.dish == dishName)
      case None => s
      case Some(k) => SafeSetAll(s, data.(dishes := data.dishes[k := WithPrice(data.dishes[k], field, value)]))
  }
}

=== FILE: editor_facts.dfy ===
/** What the edits of src/app.tsx achieve once the data is recomputed. */
module EditorFacts {
  import opened Wrappers
  import Text
  import opened Core
  import opened Recalc
  import opened RecalcFacts
  import opened Editor
  import Seqs

  /**
   * With a single mapping row for the ingredient, choosing a non-blank
   * article resolves every line of that ingredient to it.
   */
  lemma ApplyMappingResolves(s: Session, recipeName: string, c: string, k0: nat)
    requires s.data.Some?
    requires IsFirstNamed(s.data.value.mapping, k0, recipeName)
    requires forall j :: k0 < j < |s.data.value.mapping| ==> s.data.value.mapping[j].recipeName != recipeName
    requires Text.Trim(c) != ""
    ensures var out := ApplyMapping(s, recipeName, Some(c)).data.value;
      forall k :: 0 <= k < |s.data.value.recipes| && s.data.value.recipes[k].ingredient == recipeName ==>
        out.recipes[k].mappedInventory == Some(c) && out.recipes[k].selected == Some(c)
  {
    var next := MappingEdited(s.data.value, recipeName, Some(c));
    assert next.mapping[k0].correction == Some(c);
    assert FindMapping(next.mapping, recipeName) == Some(next.mapping[k0]);
    forall k | 0 <= k < |next.recipes| && s.data.value.recipes[k].ingredient == recipeName
      ensures RecalcAll(next).data.recipes[k].mappedInventory == Some(c)
    {
      LineOutcome(next, k);
    }
  }

  /** Two mapping rows for "Pommes"; the editor edits the first, the lookup reads the last. */
  function DuplicateMappingData(): AppData
  {
    AppData(
      [],
      [MappingRow("Pommes", None, None, None), MappingRow("Pommes", Some("Pommes TK"), None, None)],
      [RecipeLine("Currywurst", "Pommes", Some(150.0), Some("g"), None, None, None, None, None)],
      [])
  }

  /**
   * With duplicate mapping rows the choice has no effect on the cost
   * calculation: the edited row is not the one the recomputation reads.
   */
  lemma DuplicateMappingIgnoresChoice()
    ensures var out := ApplyMapping(Session(Some(DuplicateMappingData()), [], None), "Pommes", Some("Pommes frisch"));
      out.data.value.recipes[0].mappedInventory == Some("Pommes TK")
  {
    var next := MappingEdited(DuplicateMappingData(), "Pommes", Some("Pommes frisch"));
    assert next.mapping[1] == DuplicateMappingData().mapping[1];
    assert FindMapping(next.mapping, "Pommes") == Some(next.mapping[1]);
    assert Text.Trim("Pommes TK") != "" by {
      assert !Text.IsSpace("Pommes TK"[0]);
    }
    LineOutcome(next, 0);
  }

  /** Fixing a recipe unit changes no cost, status or diagnostic. */
  lemma FixRecipeUnitKeepsCosts(s: Session, recipeName: string, unit: string)
    requires s.data.Some?
    ensures var (before, after) := (RecalcAll(s.data.value), FixRecipeUnit(s, recipeName, unit));
      var units := UnitsFixed(s.data.value.recipes, recipeName, unit);
      && after.issues == before.issues
      && after.data.value.dishes == before.data.dishes
      && after.data.value.recipes == WithUnits(before.data.recipes, units)
  {
    UnitIsNotConsulted(s.data.value, UnitsFixed(s.data.value.recipes, recipeName, unit));
  }

  /**
   * The appended article keeps the form's trimmed name and parsed price,
   * and is OK after the recomputation exactly when both a price and a
   * unit were entered. The earlier articles keep their raw data.
   */
  lemma AddInventoryItemOutcome(s: Session, name: string, ekRaw: string, unitRaw: string)
    requires s.data.Some? && Text.Trim(name) != ""
    ensures var (prev, inv) := (s.data.value.inventory, AddInventoryItem(s, name, ekRaw, unitRaw).data.value.inventory);
      var item := inv[|prev|];
      && item.name == Text.Trim(name)
      && item.ekRaw == Coerce.ToNum(JsValue.Str(ekRaw))
      && (item.status == Some(StatusOk) <==> Coerce.ToNum(JsValue.Str(ekRaw)).Some? && Text.Trim(unitRaw) != "")
      && (forall k :: 0 <= k < |prev| ==>
            inv[k].name == prev[k].name && inv[k].ekRaw == prev[k].ekRaw && inv[k].unitRaw == prev[k].unitRaw)
  {
    var data := s.data.value;
    var next := data.(inventory := data.inventory + [NewItem(name, ekRaw, unitRaw)]);
    assert next.inventory[|data.inventory|] == NewItem(name, ekRaw, unitRaw);
    assert RecalcAll(next).data.inventory[|data.inventory|] == RecalcItem(NewItem(name, ekRaw, unitRaw));
    StatusesDistinct();
    assert StatusOk != StatusMissingEkOrUnit;
  }

  /** Once a dish is added, adding it again under any capitalisation is refused. */
  lemma AddDishTwiceRefused(s: Session, name: string, again: string, pm: string, pmenu: string, pt: string)
    requires s.data.Some? && Text.Trim(name) != "" && !DishNameTaken(s.data.value.dishes, Text.Trim(name))
    requires Text.Trim(again) != "" && Text.Lower(Text.Trim(again)) == Text.Lower(Text.Trim(name))
    ensures var once := AddDish(s, name, pm, pmenu, pt);
      AddDish(once, again, pm, pmenu, pt) == once.(error := Some(DuplicateDishError))
  {
    var once := AddDish(s, name, pm, pmenu, pt);
    var k := |s.data.value.dishes|;
    assert Text.Lower(once.data.value.dishes[k].dish) == Text.Lower(Text.Trim(again));
  }

  /**
   * Adding a recipe line appends exactly one line and never rewrites a
   * mapping row: existing rows, corrections included, stay as they were,
   * and a row is added only for an ingredient that had none. Afterwards a
   * dish of that name exists.
   */
  lemma AddRecipeLineOutcome(s: Session, dish: string, ingredient: string, qty: string, unit: string, pick: string)
    requires s.data.Some? && Text.Trim(dish) != "" && Text.Trim(ingredient) != ""
    ensures var (prev, out) := (s.data.value, AddRecipeLine(s, dish, ingredient, qty, unit, pick).data.value);
      && |out.recipes| == |prev.recipes| + 1
      && out.recipes[|prev.recipes|].dish == Text.Trim(dish)
      && out.recipes[|prev.recipes|].ingredient == Text.Trim(ingredient)
      && out.mapping[..|prev.mapping|] == prev.mapping
      && (HasMappingFor(prev.mapping, Text.Trim(ingredient)) ==> out.mapping == prev.mapping)
      && HasMappingFor(out.mapping, Text.Trim(ingredient))
      && HasDishNamed(out.dishes, Text.Trim(dish))
  {
    var prev := s.data.value;
    var next := RecipeLineAdded(prev, Text.Trim(dish), Text.Trim(ingredient), qty, unit, pick);
    assert AddRecipeLine(s, dish, ingredient, qty, unit, pick).data.value == RecalcAll(next).data;
    var out := RecalcAll(next).data;
    LineAddedKept(prev, next, out, Text.Trim(dish), Text.Trim(ingredient), qty, unit, pick);
  }

  /** Data recomputed from the extended data keeps the new line, the mapping row and the dish. */
  lemma LineAddedKept(prev: AppData, next: AppData, out: AppData, dish: string, ingredient: string,
                      qty: string, unit: string, pick: string)
    requires next == RecipeLineAdded(prev, dish, ingredient, qty, unit, pick)
    requires |out.recipes| == |next.recipes| && forall k :: 0 <= k < |next.recipes| ==> SameLineInputs(out.recipes[k], next.recipes[k])
    requires out.mapping == next.mapping
    requires |out.dishes| == |next.dishes| && forall k :: 0 <= k < |next.dishes| ==> SameDishInputs(out.dishes[k], next.dishes[k])
    ensures |out.recipes| == |prev.recipes| + 1
    ensures out.recipes[|prev.recipes|].dish == dish && out.recipes[|prev.recipes|].ingredient == ingredient
    ensures out.mapping[..|prev.mapping|] == prev.mapping
    ensures HasMappingFor(prev.mapping, ingredient) ==> out.mapping == prev.mapping
    ensures HasMappingFor(out.mapping, ingredient)
    ensures HasDishNamed(out.dishes, dish)
  {
    assert SameLineInputs(out.recipes[|prev.recipes|], next.recipes[|prev.recipes|]);
    if !HasMappingFor(prev.mapping, ingredient) {
      assert next.mapping[|prev.mapping|].recipeName == ingredient;
    }
    if HasDishNamed(prev.dishes, dish) {
      var j :| 0 <= j < |prev.dishes| && prev.dishes[j].dish == dish;
      assert SameDishInputs(out.dishes[j], next.dishes[j]);
      assert next.dishes[j].dish == dish;
    } else {
      assert SameDishInputs(out.dishes[|prev.dishes|], next.dishes[|prev.dishes|]);
    }
  }

  /**
   * Setting a price changes that one price of the first dish with the name;
   * every other dish keeps its prices, and the recomputed dish reads the
   * new value.
   */
  lemma UpdateDishPriceOutcome(s: Session, dishName: string, field: PriceField, value: Option<real>, k: nat)
    requires s.data.Some?
    requires k < |s.data.value.dishes| && s.data.value.dishes[k].dish == dishName
    requires forall j :: 0 <= j < k ==> s.data.value.dishes[j].dish != dishName
    ensures var (prev, out) := (s.data.value.dishes, UpdateDishPrice(s, dishName, field, value).data.value.dishes);
      && |out| == |prev|
      && PriceOf(out[k], field) == value
      && out[k].dish == prev[k].dish
      && (forall f :: f != field ==> PriceOf(out[k], f) == PriceOf(prev[k], f))
      && (forall j :: 0 <= j < |prev| && j != k ==>
            out[j].priceMaster == prev[j].priceMaster && out[j].priceMenu == prev[j].priceMenu
            && out[j].priceTest == prev[j].priceTest)
  {
    var data := s.data.value;
    var next := data.(dishes := data.dishes[k := WithPrice(data.dishes[k], field, value)]);
    UpdateDishPriceRecalculates(s, dishName, field, value, k);
    var r := RecalcAll(next);
    PriceEditKept(data.dishes, next.dishes, r.data.dishes, k, field, value);
  }

  /** Dishes recomputed from the edited list keep the edit and every other price. */
  lemma PriceEditKept(prev: seq<DishRow>, next: seq<DishRow>, out: seq<DishRow>, k: nat, field: PriceField, value: Option<real>)
    requires k < |prev| && next == prev[k := WithPrice(prev[k], field, value)]
    requires |out| == |next| && forall j :: 0 <= j < |next| ==> SameDishInputs(out[j], next[j])
    ensures PriceOf(out[k], field) == value && out[k].dish == prev[k].dish
    ensures forall f :: f != field ==> PriceOf(out[k], f) == PriceOf(prev[k], f)
    ensures forall j :: 0 <= j < |prev| && j != k ==>
      out[j].priceMaster == prev[j].priceMaster && out[j].priceMenu == prev[j].priceMenu
      && out[j].priceTest == prev[j].priceTest
  {
    assert SameDishInputs(out[k], next[k]);
  }

  /** The dishes after the edit are those of the recomputed data with the one price replaced. */
  lemma UpdateDishPriceRecalculates(s: Session, dishName: string, field: PriceField, value: Option<real>, k: nat)
    requires s.data.Some?
    requires k < |s.data.value.dishes| && s.data.value.dishes[k].dish == dishName
    requires forall j :: 0 <= j < k ==> s.data.value.dishes[j].dish != dishName
    ensures var data := s.data.value;
      UpdateDishPrice(s, dishName, field, value).data.value.dishes
      == RecalcAll(data.(dishes := data.dishes[k := WithPrice(data.dishes[k], field, value)])).data.dishes
  {
    assert Seqs.FirstIndex(s.data.value.dishes, (d: DishRow) => d.dish == dishName) == Some(k);
  }
}

=== FILE: jsvalue.dfy ===
/**
 * JavaScript values as the engine receives them: spreadsheet cells handed
 * over by the reader (with `defval: ""`, so empty cells are `""`), form
 * inputs, and values read back from JSON.
 */
module JsValue {

  /** A JavaScript number: finite (modelled by a real) or one of the IEEE specials. */
  datatype Num = Finite(value: real) | NaN | Infinity | NegInfinity

  /**
   * A JavaScript value. `Undefined` is also what reading a column that the
   * row lacks yields. For a number, `shown` is the text `String(n)` produces
   * for a finite `n`; JavaScript's number-to-text algorithm is not modelled,
   * the cell carries its rendering.
   */
  datatype Value =
    | Undefined
    | Null
    | Bool(b: bool)
    | Number(n: Num, shown: string)
    | Str(s: string)

  /** The values `??` skips. */
  predicate IsNullish(v: Value)
  {
    v.Undefined? || v.Null?
  }

  /** `a ?? b`. */
  function Coalesce(a: Value, b: Value): Value
  {
    if IsNullish(a) then b else a
  }

  /** `String(v)`. */
  function ToStr(v: Value): string
  {
    match v
    case Undefined => "undefined"
    case Null => "null"
    case Bool(b) => if b then "true" else "false"
    case Number(n, shown) =>
      (match n
       case Finite(_) => shown
       case NaN => "NaN"
       case Infinity => "Infinity"
       case NegInfinity => "-Infinity")
    case Str(s) => s
  }
}

=== FILE: merge.dfy ===
/**
 * The update import of src/core/utils.ts (`mergeAppData`) and that file's
 * copy of `pickPrice`. Records read back from JSON can lack a field
 * (`undefined`) or hold `null`, and the merge treats the two differently,
 * so the price fields here are three-way slots. The merge looks only at the
 * dishes' names and their test and menu prices; everything else is carried
 * through untouched, so the other record types are left as type parameters.
 */
module Merge {
  import opened Wrappers
  import Core
  import Seqs

  /** A field that is absent (`undefined`), `null`, or holds a value. */
  datatype Slot<T> = Missing | Null | Val(value: T)

  /** `x ?? null`: absent and `null` both read as no value. */
  function SlotValue<T>(s: Slot<T>): (r: Option<T>)
    ensures r.Some? <==> s.Val?
    ensures s.Val? ==> r.value == s.value
  {
    if s.Val? then Some(s.value) else None
  }

  /** A dish as the merge sees it: name, three prices, and the rest of the record. */
  datatype DishRecord<X> = DishRecord(dish: string, priceMaster: Slot<real>, priceMenu: Slot<real>, priceTest: Slot<real>, rest: X)

  datatype Snapshot<I, M, R, X> = Snapshot(inventory: seq<I>, mapping: seq<M>, recipes: seq<R>, dishes: seq<DishRecord<X>>)

  /**
   * `pickPrice` of src/core/utils.ts: the test price, else the menu price,
   * else the master price, an absent field counting as `null`.
   */
  function PickSlotPrice<X>(d: DishRecord<X>): (r: Option<real>)
    ensures d.priceTest.Val? ==> r == Some(d.priceTest.value)
    ensures !d.priceTest.Val? && d.priceMenu.Val? ==> r == Some(d.priceMenu.value)
    ensures !d.priceTest.Val? && !d.priceMenu.Val? ==> r == SlotValue(d.priceMaster)
  {
    SlotValue(d.priceTest).OrElse(SlotValue(d.priceMenu)).OrElse(SlotValue(d.priceMaster))
  }

  /** The two copies of `pickPrice` agree once absent fields are read as `null`. */
  lemma PickPricesAgree<X>(d: DishRecord<X>, row: Core.DishRow)
    requires row.priceMaster == SlotValue(d.priceMaster)
    requires row.priceMenu == SlotValue(d.priceMenu)
    requires row.priceTest == SlotValue(d.priceTest)
    ensures PickSlotPrice(d) == Core.PickPrice(row)
  {
  }

  /** `oldDishes.get(name)`: the map is filled in order, so the last old dish of that name. */
  function OldDish<X>(dishes: seq<DishRecord<X>>, name: string): (r: Option<DishRecord<X>>)
    ensures r.Some? <==> exists k :: 0 <= k < |dishes| && dishes[k].dish == name
    ensures forall k :: (0 <= k < |dishes| && dishes[k].dish == name
                         && forall j :: k < j < |dishes| ==> dishes[j].dish != name)
                        ==> r == Some(dishes[k])
  {
    match Seqs.LastIndex(dishes, (d: DishRecord<X>) => d.dish == name)
    case None => None
    case Some(k) => Some(dishes[k])
  }

  /** A field absent from the new row takes the old row's value, if the old row has the field. */
  function CarrySlot(prev: Slot<real>, next: Slot<real>): (r: Slot<real>)
    ensures next.Missing? && !prev.Missing? ==> r == prev
    ensures !(next.Missing? && !prev.Missing?) ==> r == next
  {
    if !prev.Missing? && next.Missing? then prev else next
  }

  function MergeDish<X>(prev: Option<DishRecord<X>>, d: DishRecord<X>): DishRecord<X>
  {
    match prev
    case None => d
    case Some(o) => d.(priceTest := CarrySlot(o.priceTest, d.priceTest), priceMenu := CarrySlot(o.priceMenu, d.priceMenu))
  }

  /**
   * `mergeAppData`: a copy of the new import whose dishes take the test and
   * menu prices of the same-named old dish where the new row lacks them.
   * Everything else, including every inventory, mapping and recipe row,
   * comes from the new import. No old data (`null`) behaves as no old dishes.
   */
  function MergeAppData<I, M, R, X>(prev: Option<Snapshot<I, M, R, X>>, next: Snapshot<I, M, R, X>): (r: Snapshot<I, M, R, X>)
    ensures r.inventory == next.inventory && r.mapping == next.mapping && r.recipes == next.recipes
    ensures |r.dishes| == |next.dishes|
    ensures forall k :: 0 <= k < |next.dishes| ==>
      && r.dishes[k].dish == next.dishes[k].dish
      && r.dishes[k].priceMaster == next.dishes[k].priceMaster
      && r.dishes[k].rest == next.dishes[k].rest
  {
    var oldDishes := if prev.Some? then prev.value.dishes else [];
    next.(dishes := seq(|next.dishes|, k requires 0 <= k < |next.dishes| =>
      MergeDish(OldDish(oldDishes, next.dishes[k].dish), next.dishes[k])))
  }

  // ===== What the merge keeps =====

  /** A price the new row holds, `null` included, is never replaced. */
  lemma PresentPriceIsKept<I, M, R, X>(prev: Option<Snapshot<I, M, R, X>>, next: Snapshot<I, M, R, X>, k: nat)
    requires k < |next.dishes|
    ensures !next.dishes[k].priceTest.Missing? ==> MergeAppData(prev, next).dishes[k].priceTest == next.dishes[k].priceTest
    ensures !next.dishes[k].priceMenu.Missing? ==> MergeAppData(prev, next).dishes[k].priceMenu == next.dishes[k].priceMenu
  {
  }

  /**
   * A price absent from the new row comes from the last old dish of the
   * same name (and stays absent if that dish lacks it too).
   */
  lemma AbsentPriceIsCarried<I, M, R, X>(prev: Snapshot<I, M, R, X>, next: Snapshot<I, M, R, X>, k: nat, j: nat)
    requires k < |next.dishes| && j < |prev.dishes|
    requires prev.dishes[j].dish == next.dishes[k].dish
    requires forall i :: j < i < |prev.dishes| ==> prev.dishes[i].dish != next.dishes[k].dish
    ensures next.dishes[k].priceTest.Missing? ==> MergeAppData(Some(prev), next).dishes[k].priceTest == prev.dishes[j].priceTest
    ensures next.dishes[k].priceMenu.Missing? ==> MergeAppData(Some(prev), next).dishes[k].priceMenu == prev.dishes[j].priceMenu
  {
    assert OldDish(prev.dishes, next.dishes[k].dish) == Some(prev.dishes[j]);
  }

  /** A dish with no old namesake is taken as imported. */
  lemma NewDishIsVerbatim<I, M, R, X>(prev: Option<Snapshot<I, M, R, X>>, next: Snapshot<I, M, R, X>, k: nat)
    requires k < |next.dishes|
    requires prev.Some? ==> forall j :: 0 <= j < |prev.value.dishes| ==> prev.value.dishes[j].dish != next.dishes[k].dish
    ensures MergeAppData(prev, next).dishes[k] == next.dishes[k]
  {
  }

  /** Without old data the update import is a plain import. */
  lemma MergeWithoutOld<I, M, R, X>(next: Snapshot<I, M, R, X>)
    ensures MergeAppData(None, next) == next
  {
    var r := MergeAppData(None, next);
    assert forall k :: 0 <= k < |next.dishes| ==> r.dishes[k] == next.dishes[k];
  }

  /** Merging the same old data a second time changes nothing more. */
  lemma MergeTwice<I, M, R, X>(prev: Snapshot<I, M, R, X>, next: Snapshot<I, M, R, X>)
    ensures MergeAppData(Some(prev), MergeAppData(Some(prev), next)) == MergeAppData(Some(prev), next)
  {
    var once := MergeAppData(Some(prev), next);
    var twice := MergeAppData(Some(prev), once);
    forall k | 0 <= k < |once.dishes|
      ensures twice.dishes[k] == once.dishes[k]
    {
      assert once.dishes[k].dish == next.dishes[k].dish;
    }
  }

  predicate DistinctDishNames<X>(dishes: seq<DishRecord<X>>)
  {
    forall i, j :: 0 <= i < j < |dishes| ==> dishes[i].dish != dishes[j].dish
  }

  /** Merging data with itself gives it back, provided no two dishes share a name. */
  lemma MergeWithSelf<I, M, R, X>(x: Snapshot<I, M, R, X>)
    requires DistinctDishNames(x.dishes)
    ensures MergeAppData(Some(x), x) == x
  {
    var r := MergeAppData(Some(x), x);
    forall k | 0 <= k < |x.dishes|
      ensures r.dishes[k] == x.dishes[k]
    {
      assert OldDish(x.dishes, x.dishes[k].dish) == Some(x.dishes[k]);
    }
  }

  /** Two dishes named "Burger", only the second with a test price. */
  function TwinBurgers(): Snapshot<int, int, int, int>
  {
    Snapshot([], [], [], [DishRecord("Burger", Val(9.0), Missing, Missing, 0),
                          DishRecord("Burger", Val(9.0), Missing, Val(8.5), 0)])
  }

  /** With a repeated dish name, merging data with itself copies the later twin's price into the earlier one. */
  lemma MergeWithSelfDuplicateNames()
    ensures MergeAppData(Some(TwinBurgers()), TwinBurgers()) != TwinBurgers()
    ensures MergeAppData(Some(TwinBurgers()), TwinBurgers()).dishes[0].priceTest == Val(8.5)
  {
    var x := TwinBurgers();
    var r := MergeAppData(Some(x), x);
    assert OldDish(x.dishes, "Burger") == Some(x.dishes[1]);
    assert r.dishes[0].priceTest != x.dishes[0].priceTest;
  }

  /** An old mapping correction for "Pommes" and a fresh import that only suggests an article. */
  function PommesOld(): Snapshot<int, Core.MappingRow, int, int>
  {
    Snapshot([], [Core.MappingRow("Pommes", Some("Pommes (TK)"), Some("Pommes frites TK"), Some("OK"))], [], [])
  }

  function PommesNew(): Snapshot<int, Core.MappingRow, int, int>
  {
    Snapshot([], [Core.MappingRow("Pommes", Some("Pommes 9mm"), None, None)], [], [])
  }

  /** Mapping corrections are not carried over: the merged data has the fresh import's mapping rows. */
  lemma MergeDropsOldCorrection()
    ensures MergeAppData(Some(PommesOld()), PommesNew()).mapping[0].correction == None
  {
  }
}

=== FILE: normalise.dfy ===
/**
 * The row-to-entity half of `parseWorkbook` in src/core.ts: each sheet
 * arrives as a sequence of rows (column label to cell), and each row becomes
 * one record. A logical field may be read from several column labels in
 * order; the first cell that is neither `null` nor `undefined` is used, so
 * an empty cell `""` blocks the later labels. Rows without their key are
 * dropped; the survivors keep their order.
 */
module Normalise {
  import opened Wrappers
  import opened JsValue
  import Text
  import Coerce
  import opened Core
  import Seqs

  /** A sheet row as the reader returns it: cells by column label. */
  type Row = map<string, Value>

  /** `r[col]`: a label the row lacks reads as `undefined`. */
  function Cell(row: Row, col: string): Value
  {
    if col in row then row[col] else Undefined
  }

  /** `r[c0] ?? r[c1] ?? … ?? r[cn]`. */
  function Pick(row: Row, cols: seq<string>): (v: Value)
    requires |cols| > 0
    ensures forall k :: 0 <= k < |cols| && !IsNullish(Cell(row, cols[k]))
                        && (forall j :: 0 <= j < k ==> IsNullish(Cell(row, cols[j])))
                        ==> v == Cell(row, cols[k])
    ensures (forall j :: 0 <= j < |cols| ==> IsNullish(Cell(row, cols[j]))) ==> v == Cell(row, cols[|cols| - 1])
  {
    if |cols| == 1 then Cell(row, cols[0])
    else Coalesce(Cell(row, cols[0]), Pick(row, cols[1..]))
  }

  /**
   * `String(r[c0] ?? … ?? "").trim()`: the trimmed text of the first present
   * cell, and the empty text when every cell is absent.
   */
  function KeyText(row: Row, cols: seq<string>): (s: string)
    requires |cols| > 0
    ensures Text.IsTrimmed(s)
    ensures IsNullish(Pick(row, cols)) ==> s == ""
    ensures Pick(row, cols).Str? ==> s == Text.Trim(Pick(row, cols).s)
    ensures !IsNullish(Pick(row, cols)) ==> s == Text.Trim(ToStr(Pick(row, cols)))
  {
    Text.Trim(ToStr(Coalesce(Pick(row, cols), Str(""))))
  }

  /** `String(r[c0] ?? … ?? "").trim() || null`: the empty text becomes `null`. */
  function FieldText(row: Row, cols: seq<string>): (r: Option<string>)
    requires |cols| > 0
    ensures r.None? <==> KeyText(row, cols) == ""
    ensures r.Some? ==> r.value == KeyText(row, cols) && r.value != "" && Text.IsTrimmed(r.value)
  {
    var s := KeyText(row, cols);
    if s == "" then None else Some(s)
  }

  /** `toNumber(r[c0] ?? … ?? r[cn])`: a finite number cell as it is, a text cell by its first numeral. */
  function FieldNumber(row: Row, cols: seq<string>): (r: Option<real>)
    requires |cols| > 0
    ensures IsNullish(Pick(row, cols)) ==> r == None
    ensures Pick(row, cols).Number? && Pick(row, cols).n.Finite? ==> r == Some(Pick(row, cols).n.value)
    ensures Pick(row, cols).Str? ==> (r.None? <==> !Coerce.HasDigit(Pick(row, cols).s))
  {
    Coerce.ToNumber(Pick(row, cols))
  }

  // ===== Column labels, in the order they are tried =====

  const InvName := ["Zutat"]
  const InvEk := ["EK (wie Inventur)", "EK", "EK (wie auf Rechnung)"]
  const InvUnit := ["Einheit (Inventur)", "Einheit"]
  const InvStatus := ["STATUS"]

  const MapRecipeName := ["Zutat im Rezept", "Zutat (Rezept)", "Zutat"]
  const MapSuggestion := ["Vorschlag Inventur-Zutat", "Vorschlag"]
  const MapCorrection := ["Inventur-Zutat (Korrektur)", "Inventur-Zutat (falls korrigieren)"]
  const MapStatus := ["Status", "STATUS"]

  const RecDish := ["Gericht"]
  const RecIngredient := ["Zutat (Rezept)", "Zutat"]
  const RecQty := ["Menge"]
  const RecUnit := ["Einheit (g/ml/stk)", "Einheit"]
  const RecMapped := ["Inventur-Zutat (gemappt)", "Inventur-Zutat"]
  const RecEkBase := ["EK aus Inventur (Base)", "EK"]
  const RecCost := ["Kosten"]
  const RecStatus := ["STATUS"]

  const DishName := ["Gericht"]
  const DishPriceMaster := ["Preis (Master)"]
  const DishPriceMenu := ["Preis (Speisekarte)"]
  const DishPriceTest := ["Preis (Test)"]
  const DishCogs := ["Wareneinsatz (aus Rezept)", "Wareneinsatz"]
  const DishDb := ["DB € (Test)", "DB €"]
  const DishDbPct := ["DB % (Test)", "DB %"]
  const DishStatus := ["STATUS"]

  // ===== One row to one record =====

  /** An inventory row; its base price is derived on import when it has a price and a unit. */
  function InventoryRow(row: Row): (r: InventoryItem)
    ensures r.name == KeyText(row, InvName) && r.ekRaw == FieldNumber(row, InvEk)
    ensures r.unitRaw == FieldText(row, InvUnit) && r.status == FieldText(row, InvStatus)
    ensures Text.IsTrimmed(r.name)
    ensures r.unitRaw.Some? ==> r.unitRaw.value != ""
    ensures r.ekBase.Some? <==> r.ekRaw.Some? && r.unitRaw.Some?
    ensures r.ekBase.Some? ==> r.ekBase.value == EkToBase(r.ekRaw.value, r.unitRaw.value)
  {
    var ekRaw := FieldNumber(row, InvEk);
    var unitRaw := FieldText(row, InvUnit);
    InventoryItem(
      KeyText(row, InvName),
      ekRaw,
      unitRaw,
      if ekRaw.Some? && unitRaw.Some? then Some(EkToBase(ekRaw.value, unitRaw.value)) else None,
      FieldText(row, InvStatus))
  }

  /** A mapping row: recipe ingredient name, suggested and corrected inventory article. */
  function MappingRowOf(row: Row): (r: MappingRow)
    ensures r.recipeName == KeyText(row, MapRecipeName)
    ensures r.suggestion == FieldText(row, MapSuggestion) && r.correction == FieldText(row, MapCorrection)
    ensures r.status == FieldText(row, MapStatus)
    ensures Text.IsTrimmed(r.recipeName)
    ensures r.suggestion.Some? ==> r.suggestion.value != ""
    ensures r.correction.Some? ==> r.correction.value != ""
  {
    MappingRow(
      KeyText(row, MapRecipeName),
      FieldText(row, MapSuggestion),
      FieldText(row, MapCorrection),
      FieldText(row, MapStatus))
  }

  /** A recipe row; the editor's per-line choice starts out empty. */
  function RecipeRow(row: Row): (r: RecipeLine)
    ensures r.dish == KeyText(row, RecDish) && r.ingredient == KeyText(row, RecIngredient)
    ensures r.qty == FieldNumber(row, RecQty) && r.unit == FieldText(row, RecUnit)
    ensures r.mappedInventory == FieldText(row, RecMapped) && r.ekBase == FieldNumber(row, RecEkBase)
    ensures r.cost == FieldNumber(row, RecCost) && r.status == FieldText(row, RecStatus)
    ensures Text.IsTrimmed(r.dish) && Text.IsTrimmed(r.ingredient)
    ensures r.unit.Some? ==> r.unit.value != ""
    ensures r.selected == None
  {
    RecipeLine(
      KeyText(row, RecDish),
      KeyText(row, RecIngredient),
      FieldNumber(row, RecQty),
      FieldText(row, RecUnit),
      FieldText(row, RecMapped),
      FieldNumber(row, RecEkBase),
      FieldNumber(row, RecCost),
      FieldText(row, RecStatus),
      None)
  }

  /** A dish row: its name, three prices, cost of goods and margin columns. */
  function DishRowOf(row: Row): (r: DishRow)
    ensures r.dish == KeyText(row, DishName)
    ensures r.priceMaster == FieldNumber(row, DishPriceMaster) && r.priceMenu == FieldNumber(row, DishPriceMenu)
    ensures r.priceTest == FieldNumber(row, DishPriceTest) && r.cogs == FieldNumber(row, DishCogs)
    ensures r.db == FieldNumber(row, DishDb) && r.dbPct == FieldNumber(row, DishDbPct)
    ensures r.status == FieldText(row, DishStatus)
    ensures Text.IsTrimmed(r.dish)
  {
    DishRow(
      KeyText(row, DishName),
      FieldNumber(row, DishPriceMaster),
      FieldNumber(row, DishPriceMenu),
      FieldNumber(row, DishPriceTest),
      FieldNumber(row, DishCogs),
      FieldNumber(row, DishDb),
      FieldNumber(row, DishDbPct),
      FieldText(row, DishStatus))
  }

  // ===== Whole sheets =====

  predicate HasName(i: InventoryItem) { i.name != "" }
  predicate HasRecipeName(m: MappingRow) { m.recipeName != "" }
  predicate HasDishAndIngredient(l: RecipeLine) { l.dish != "" && l.ingredient != "" }
  predicate HasDish(d: DishRow) { d.dish != "" }

  /** `rows.map(f)`. */
  function Records<T>(rows: seq<Row>, f: Row -> T): (r: seq<T>)
    ensures |r| == |rows| && forall k :: 0 <= k < |rows| ==> r[k] == f(rows[k])
  {
    seq(|rows|, k requires 0 <= k < |rows| => f(rows[k]))
  }

  /** Every row whose record has its key yields that record in `r`. */
  predicate KeepsKeyed<T(==)>(rows: seq<Row>, f: Row -> T, keep: T -> bool, r: seq<T>)
  {
    forall k :: 0 <= k < |rows| && keep(f(rows[k])) ==> f(rows[k]) in r
  }

  /**
   * `rows.map(f).filter(keep)`: exactly the records that have their key
   * survive, in row order, one per row that yields one.
   */
  function Sheet<T(==)>(rows: seq<Row>, f: Row -> T, keep: T -> bool): (r: seq<T>)
    ensures |r| <= |rows| && |r| == Seqs.Count(Records(rows, f), keep)
    ensures forall k :: 0 <= k < |r| ==> keep(r[k])
    ensures KeepsKeyed(rows, f, keep, r)
    ensures Seqs.IsSubsequence(r, Records(rows, f))
  {
    Seqs.Filter(Records(rows, f), keep)
  }

  /** A single row yields its record exactly when the record has its key. */
  lemma SheetSingle<T>(row: Row, f: Row -> T, keep: T -> bool)
    ensures Sheet([row], f, keep) == if keep(f(row)) then [f(row)] else []
  {
    assert seq(1, k requires 0 <= k < 1 => f([row][k])) == [f(row)];
  }

  /** Sheets are processed row by row: concatenated rows give concatenated records, in order. */
  lemma SheetAppend<T>(rows: seq<Row>, more: seq<Row>, f: Row -> T, keep: T -> bool)
    ensures Sheet(rows + more, f, keep) == Sheet(rows, f, keep) + Sheet(more, f, keep)
  {
    var all := rows + more;
    assert seq(|all|, k requires 0 <= k < |all| => f(all[k]))
        == seq(|rows|, k requires 0 <= k < |rows| => f(rows[k])) + seq(|more|, k requires 0 <= k < |more| => f(more[k]));
    Seqs.FilterAppend(seq(|rows|, k requires 0 <= k < |rows| => f(rows[k])),
                      seq(|more|, k requires 0 <= k < |more| => f(more[k])), keep);
  }

  function NormaliseInventory(rows: seq<Row>): (r: seq<InventoryItem>)
    ensures forall k :: 0 <= k < |r| ==> r[k].name != "" && Text.IsTrimmed(r[k].name)
    ensures KeepsKeyed(rows, InventoryRow, HasName, r)
    ensures |r| == Seqs.Count(Records(rows, InventoryRow), HasName)
  {
    InventoryTrimmed(rows);
    Sheet(rows, InventoryRow, HasName)
  }

  function NormaliseMapping(rows: seq<Row>): (r: seq<MappingRow>)
    ensures forall k :: 0 <= k < |r| ==> r[k].recipeName != "" && Text.IsTrimmed(r[k].recipeName)
    ensures KeepsKeyed(rows, MappingRowOf, HasRecipeName, r)
    ensures |r| == Seqs.Count(Records(rows, MappingRowOf), HasRecipeName)
  {
    MappingTrimmed(rows);
    Sheet(rows, MappingRowOf, HasRecipeName)
  }

  function NormaliseRecipes(rows: seq<Row>): (r: seq<RecipeLine>)
    ensures forall k :: 0 <= k < |r| ==>
      r[k].dish != "" && Text.IsTrimmed(r[k].dish) && r[k].ingredient != "" && Text.IsTrimmed(r[k].ingredient)
    ensures KeepsKeyed(rows, RecipeRow, HasDishAndIngredient, r)
    ensures |r| == Seqs.Count(Records(rows, RecipeRow), HasDishAndIngredient)
  {
    RecipesTrimmed(rows);
    Sheet(rows, RecipeRow, HasDishAndIngredient)
  }

  function NormaliseDishes(rows: seq<Row>): (r: seq<DishRow>)
    ensures forall k :: 0 <= k < |r| ==> r[k].dish != "" && Text.IsTrimmed(r[k].dish)
    ensures KeepsKeyed(rows, DishRowOf, HasDish, r)
    ensures |r| == Seqs.Count(Records(rows, DishRowOf), HasDish)
  {
    DishesTrimmed(rows);
    Sheet(rows, DishRowOf, HasDish)
  }

  /** A property every record of the sheet's rows has is kept by every record the sheet keeps. */
  lemma SheetKeeps<T>(rows: seq<Row>, f: Row -> T, keep: T -> bool, p: T -> bool)
    requires forall k :: 0 <= k < |rows| ==> p(f(rows[k]))
    ensures var r := Sheet(rows, f, keep);
      forall k :: 0 <= k < |r| ==> p(r[k])
  {
    var xs := Records(rows, f);
    var r := Seqs.Filter(xs, keep);
    forall k | 0 <= k < |r|
      ensures p(r[k])
    {
      assert r[k] in xs;
      var j :| 0 <= j < |xs| && xs[j] == r[k];
      assert xs[j] == f(rows[j]);
    }
  }

  lemma InventoryTrimmed(rows: seq<Row>)
    ensures var r := Sheet(rows, InventoryRow, HasName);
      forall k :: 0 <= k < |r| ==> Text.IsTrimmed(r[k].name)
  {
    SheetKeeps(rows, InventoryRow, HasName, (i: InventoryItem) => Text.IsTrimmed(i.name));
  }

  lemma MappingTrimmed(rows: seq<Row>)
    ensures var r := Sheet(rows, MappingRowOf, HasRecipeName);
      forall k :: 0 <= k < |r| ==> Text.IsTrimmed(r[k].recipeName)
  {
    SheetKeeps(rows, MappingRowOf, HasRecipeName, (m: MappingRow) => Text.IsTrimmed(m.recipeName));
  }

  lemma RecipesTrimmed(rows: seq<Row>)
    ensures var r := Sheet(rows, RecipeRow, HasDishAndIngredient);
      forall k :: 0 <= k < |r| ==> Text.IsTrimmed(r[k].dish) && Text.IsTrimmed(r[k].ingredient)
  {
    SheetKeeps(rows, RecipeRow, HasDishAndIngredient,
      (l: RecipeLine) => Text.IsTrimmed(l.dish) && Text.IsTrimmed(l.ingredient));
  }

  lemma DishesTrimmed(rows: seq<Row>)
    ensures var r := Sheet(rows, DishRowOf, HasDish);
      forall k :: 0 <= k < |r| ==> Text.IsTrimmed(r[k].dish)
  {
    SheetKeeps(rows, DishRowOf, HasDish, (d: DishRow) => Text.IsTrimmed(d.dish));
  }

  /**
   * `parseWorkbook` after the sheets are read: the rows of INVENTUR_INPUT,
   * MAP_ZUTATEN, REZEPTE_BASIS and GERICHTE (a missing sheet gives no rows).
   */
  function NormaliseWorkbook(inventory: seq<Row>, mapping: seq<Row>, recipes: seq<Row>, dishes: seq<Row>): (r: AppData)
    ensures |r.inventory| <= |inventory| && |r.mapping| <= |mapping|
    ensures |r.recipes| <= |recipes| && |r.dishes| <= |dishes|
    ensures r.inventory == NormaliseInventory(inventory) && r.mapping == NormaliseMapping(mapping)
    ensures r.recipes == NormaliseRecipes(recipes) && r.dishes == NormaliseDishes(dishes)
    ensures forall k :: 0 <= k < |r.inventory| ==> r.inventory[k].name != "" && Text.IsTrimmed(r.inventory[k].name)
    ensures forall k :: 0 <= k < |r.mapping| ==> r.mapping[k].recipeName != "" && Text.IsTrimmed(r.mapping[k].recipeName)
    ensures forall k :: 0 <= k < |r.recipes| ==> r.recipes[k].dish != "" && r.recipes[k].ingredient != ""
    ensures forall k :: 0 <= k < |r.dishes| ==> r.dishes[k].dish != "" && Text.IsTrimmed(r.dishes[k].dish)
    ensures KeepsKeyed(inventory, InventoryRow, HasName, r.inventory) && KeepsKeyed(mapping, MappingRowOf, HasRecipeName, r.mapping)
    ensures KeepsKeyed(recipes, RecipeRow, HasDishAndIngredient, r.recipes) && KeepsKeyed(dishes, DishRowOf, HasDish, r.dishes)
    ensures |r.inventory| == Seqs.Count(Records(inventory, InventoryRow), HasName)
    ensures |r.mapping| == Seqs.Count(Records(mapping, MappingRowOf), HasRecipeName)
    ensures |r.recipes| == Seqs.Count(Records(recipes, RecipeRow), HasDishAndIngredient)
    ensures |r.dishes| == Seqs.Count(Records(dishes, DishRowOf), HasDish)
  {
    AppData(NormaliseInventory(inventory), NormaliseMapping(mapping), NormaliseRecipes(recipes), NormaliseDishes(dishes))
  }

  // ===== Rows with their key are kept =====

  /** An inventory row whose "Zutat" cell has non-blank text yields an article of that (trimmed) name. */
  lemma NamedArticleKept(rows: seq<Row>, k: nat, name: string)
    requires k < |rows| && Cell(rows[k], "Zutat") == Str(name) && Text.Trim(name) != ""
    ensures InventoryRow(rows[k]) in NormaliseInventory(rows)
    ensures InventoryRow(rows[k]).name == Text.Trim(name)
  {
    assert Pick(rows[k], InvName) == Str(name);
  }

  /** A mapping row whose first ingredient-name label holds non-blank text is kept under that name. */
  lemma NamedMappingKept(rows: seq<Row>, k: nat, name: string)
    requires k < |rows| && Cell(rows[k], "Zutat im Rezept") == Str(name) && Text.Trim(name) != ""
    ensures MappingRowOf(rows[k]) in NormaliseMapping(rows)
    ensures MappingRowOf(rows[k]).recipeName == Text.Trim(name)
  {
    assert Pick(rows[k], MapRecipeName) == Str(name);
  }

  /** A recipe row with non-blank dish and ingredient texts is kept as a line of that dish and ingredient. */
  lemma NamedLineKept(rows: seq<Row>, k: nat, dish: string, ingredient: string)
    requires k < |rows| && Cell(rows[k], "Gericht") == Str(dish) && Text.Trim(dish) != ""
    requires Cell(rows[k], "Zutat (Rezept)") == Str(ingredient) && Text.Trim(ingredient) != ""
    ensures RecipeRow(rows[k]) in NormaliseRecipes(rows)
    ensures RecipeRow(rows[k]).dish == Text.Trim(dish) && RecipeRow(rows[k]).ingredient == Text.Trim(ingredient)
  {
    assert Pick(rows[k], RecDish) == Str(dish);
    assert Pick(rows[k], RecIngredient) == Str(ingredient);
  }

  /** A dish row whose "Gericht" cell has non-blank text yields a dish of that (trimmed) name. */
  lemma NamedDishKept(rows: seq<Row>, k: nat, name: string)
    requires k < |rows| && Cell(rows[k], "Gericht") == Str(name) && Text.Trim(name) != ""
    ensures DishRowOf(rows[k]) in NormaliseDishes(rows)
    ensures DishRowOf(rows[k]).dish == Text.Trim(name)
  {
    assert Pick(rows[k], DishName) == Str(name);
  }

  // ===== Column fallback =====

  /** A row without the key column is dropped: the missing cell reads as the empty text. */
  lemma MissingKeyDropsRow(row: Row)
    requires "Zutat" !in row
    ensures NormaliseInventory([row]) == []
  {
    assert KeyText(row, InvName) == Text.Trim("");
    SheetSingle(row, InventoryRow, HasName);
  }

  /** An empty primary price cell is a value, not an absence: the later labels are not read. */
  lemma EmptyCellBlocksFallback(row: Row)
    requires Cell(row, "EK (wie Inventur)") == Str("")
    ensures InventoryRow(row).ekRaw == None && InventoryRow(row).ekBase == None
  {
    assert Pick(row, InvEk) == Str("");
    Coerce.ToNumberMissing();
  }

  /** A `null` or missing primary price cell falls back to the "EK" column and then to the invoice price. */
  lemma NullishCellFallsBack(row: Row)
    requires IsNullish(Cell(row, "EK (wie Inventur)"))
    ensures InventoryRow(row).ekRaw == Coerce.ToNumber(Pick(row, ["EK", "EK (wie auf Rechnung)"]))
  {
    assert InvEk[1..] == ["EK", "EK (wie auf Rechnung)"];
  }
}

=== FILE: recalc.dfy ===
/**
 * `recalcAll` of src/core.ts: the recompute pass that derives base prices
 * of inventory articles, the cost and status of every recipe line, and the
 * cost of goods, margin and status of every dish, collecting one
 * diagnostic per line or dish that could not be costed.
 *
 * The source mutates the records in place. Its lookup table of inventory
 * articles is built before the base prices are recomputed but holds the
 * same objects, so the recipe step sees the recomputed prices. The model is
 * therefore three pure passes run in order, the recipe pass reading the
 * output of the inventory pass.
 */
module Recalc {
  import opened Wrappers
  import opened Core
  import Text
  import Seqs

  /** The result of `recalcAll`: the updated data and the diagnostics. */
  datatype Recalculated = Recalculated(data: AppData, issues: seq<DataIssue>)

  // ===== Inventory step =====

  /** `inv.ekRaw != null && inv.unitRaw`: a price and a non-empty unit. */
  predicate HasPriceAndUnit(i: InventoryItem)
  {
    i.ekRaw.Some? && Truthy(i.unitRaw)
  }

  function RecalcItem(i: InventoryItem): (r: InventoryItem)
    ensures r.name == i.name && r.ekRaw == i.ekRaw && r.unitRaw == i.unitRaw
    ensures r.status == Some(if HasPriceAndUnit(i) then StatusOk else StatusMissingEkOrUnit)
    ensures r.ekBase.Some? <==> HasPriceAndUnit(i)
    ensures r.ekBase.Some? ==> r.ekBase.value == EkToBase(i.ekRaw.value, i.unitRaw.value)
  {
    if HasPriceAndUnit(i) then
      i.(ekBase := Some(EkToBase(i.ekRaw.value, i.unitRaw.value)), status := Some(StatusOk))
    else
      i.(ekBase := None, status := Some(StatusMissingEkOrUnit))
  }

  function RecalcInventory(inventory: seq<InventoryItem>): (r: seq<InventoryItem>)
    ensures |r| == |inventory|
    ensures forall k :: 0 <= k < |r| ==>
      r[k].name == inventory[k].name && r[k].ekRaw == inventory[k].ekRaw
      && r[k].unitRaw == inventory[k].unitRaw
  {
    seq(|inventory|, k requires 0 <= k < |inventory| => RecalcItem(inventory[k]))
  }

  // ===== Lookups: `Map.set` in collection order, so the last row with a key wins =====

  /** `mapByRecipe.get(name)`. */
  function FindMapping(mapping: seq<MappingRow>, name: string): (r: Option<MappingRow>)
    ensures r.Some? <==> exists k :: 0 <= k < |mapping| && mapping[k].recipeName == name
    ensures forall k :: (0 <= k < |mapping| && mapping[k].recipeName == name
                         && forall j :: k < j < |mapping| ==> mapping[j].recipeName != name)
                        ==> r == Some(mapping[k])
  {
    match Seqs.LastIndex(mapping, (m: MappingRow) => m.recipeName == name)
    case None => None
    case Some(k) => Some(mapping[k])
  }

  /** `invByName.get(name)`. */
  function FindItem(inventory: seq<InventoryItem>, name: string): (r: Option<InventoryItem>)
    ensures r.Some? <==> exists k :: 0 <= k < |inventory| && inventory[k].name == name
    ensures forall k :: (0 <= k < |inventory| && inventory[k].name == name
                         && forall j :: k < j < |inventory| ==> inventory[j].name != name)
                        ==> r == Some(inventory[k])
  {
    match Seqs.LastIndex(inventory, (i: InventoryItem) => i.name == name)
    case None => None
    case Some(k) => Some(inventory[k])
  }

  // ===== Recipe step =====

  /** The mapped inventory name: a correction that is not blank, else the suggestion. */
  function MappedName(m: Option<MappingRow>): (r: Option<string>)
    ensures m.None? ==> r == None
    ensures m.Some? && m.value.correction.Some? && Text.Trim(m.value.correction.value) != ""
            ==> r == m.value.correction
    ensures m.Some? && !(m.value.correction.Some? && Text.Trim(m.value.correction.value) != "")
            ==> r == m.value.suggestion
  {
    match m
    case None => None
    case Some(row) =>
      if row.correction.Some? && Text.Trim(row.correction.value) != "" then row.correction
      else row.suggestion
  }

  /** `!r.qty || r.qty <= 0` fails: a quantity that is present and positive. */
  predicate QtyPositive(q: Option<real>)
  {
    q.Some? && q.value > 0.0
  }

  /** Why a recipe line could or could not be costed, in the order the checks run. */
  datatype LineVerdict = NoQty | NoMapping | NoEk(mapped: string) | Costed(ekBase: real)

  function LineMapped(line: RecipeLine, mapping: seq<MappingRow>): Option<string>
  {
    MappedName(FindMapping(mapping, line.ingredient))
  }

  function Classify(line: RecipeLine, mapping: seq<MappingRow>, inventory: seq<InventoryItem>): (v: LineVerdict)
    ensures v.NoQty? <==> !QtyPositive(line.qty)
    ensures v.NoMapping? <==> QtyPositive(line.qty) && !Truthy(LineMapped(line, mapping))
    ensures v.NoEk? ==> v.mapped == LineMapped(line, mapping).value
    ensures (v.NoEk? || v.Costed?) ==> QtyPositive(line.qty) && Truthy(LineMapped(line, mapping))
    ensures v.Costed? <==> (QtyPositive(line.qty) && Truthy(LineMapped(line, mapping))
      && FindItem(inventory, LineMapped(line, mapping).value).Some?
      && FindItem(inventory, LineMapped(line, mapping).value).value.ekBase.Some?)
    ensures v.Costed? ==> v.ekBase == FindItem(inventory, LineMapped(line, mapping).value).value.ekBase.value
  {
    var mapped := LineMapped(line, mapping);
    if !QtyPositive(line.qty) then NoQty
    else if !Truthy(mapped) then NoMapping
    else match FindItem(inventory, mapped.value)
      case None => NoEk(mapped.value)
      case Some(item) => if item.ekBase.None? then NoEk(mapped.value) else Costed(item.ekBase.value)
  }

  function MengeIssue(dish: string, ingredient: string): DataIssue
  {
    DataIssue(Menge, "Menge fehlt: " + ingredient, Some(dish), Some(ingredient),
      "Im Gericht-Rezept die Menge eintragen.")
  }

  function MappingIssue(dish: string, ingredient: string): DataIssue
  {
    DataIssue(Mapping, "Zuordnung fehlt: " + ingredient, Some(dish), Some(ingredient),
      "Im Reiter „Mapping“ die Rezept-Zutat zuordnen.")
  }

  /** The price diagnostic names the mapped inventory article, not the recipe ingredient. */
  function EkIssue(dish: string, mapped: string): DataIssue
  {
    DataIssue(Ek, "Einkaufspreis fehlt: " + mapped, Some(dish), Some(mapped),
      "In „Inventur“ EK + Einheit pflegen.")
  }

  function PreisIssue(dish: string): DataIssue
  {
    DataIssue(Preis, "Preis fehlt: " + dish, Some(dish), None,
      "Im Gericht einen Speisekarten- oder Testpreis eintragen.")
  }

  function RezeptIssue(dish: string): DataIssue
  {
    DataIssue(Rezept, "Wareneinsatz fehlt (Rezept unvollständig): " + dish, Some(dish), None,
      "Im Gericht-Rezept fehlende Mengen/Zuordnung ergänzen.")
  }

  /**
   * One recipe line of the recipe step, with the diagnostic it pushes. The
   * line's `ekBase` is only written on the last two paths; on the first two
   * it keeps whatever it held.
   */
  function RecalcLine(line: RecipeLine, mapping: seq<MappingRow>, inventory: seq<InventoryItem>): (r: (RecipeLine, Option<DataIssue>))
    ensures SameLineInputs(r.0, line)
    ensures r.0.mappedInventory == LineMapped(line, mapping)
  {
    var l := line.(mappedInventory := LineMapped(line, mapping));
    match Classify(line, mapping, inventory)
    case NoQty =>
      (l.(status := Some(StatusMissingQty), cost := None), Some(MengeIssue(line.dish, line.ingredient)))
    case NoMapping =>
      (l.(status := Some(StatusMissingMapping), cost := None), Some(MappingIssue(line.dish, line.ingredient)))
    case NoEk(mapped) =>
      (l.(status := Some(StatusMissingEk), ekBase := None, cost := None), Some(EkIssue(line.dish, mapped)))
    case Costed(ekBase) =>
      (l.(ekBase := Some(ekBase), cost := Some(LineCost(line.qty.value, ekBase)), status := Some(StatusOk)), None)
  }

  /** The fields of a recipe line that the recompute pass never writes. */
  predicate SameLineInputs(a: RecipeLine, b: RecipeLine)
  {
    a.dish == b.dish && a.ingredient == b.ingredient && a.qty == b.qty && a.unit == b.unit
    && a.selected == b.selected
  }

  /** `r.qty * inv.ekBase`: the quantity is read as grams, millilitres or pieces. */
  function LineCost(qty: real, ekBase: real): real
  {
    qty * ekBase
  }

  function RecalcRecipes(lines: seq<RecipeLine>, mapping: seq<MappingRow>, inventory: seq<InventoryItem>): (r: seq<RecipeLine>)
    ensures |r| == |lines|
    ensures forall k :: 0 <= k < |r| ==> SameLineInputs(r[k], lines[k])
  {
    seq(|lines|, k requires 0 <= k < |lines| => RecalcLine(lines[k], mapping, inventory).0)
  }

  /** The diagnostic each line pushes, if any, in recipe order. */
  function LineIssueSlots(lines: seq<RecipeLine>, mapping: seq<MappingRow>, inventory: seq<InventoryItem>): seq<Option<DataIssue>>
  {
    seq(|lines|, k requires 0 <= k < |lines| => RecalcLine(lines[k], mapping, inventory).1)
  }

  function RecipeIssues(lines: seq<RecipeLine>, mapping: seq<MappingRow>, inventory: seq<InventoryItem>): seq<DataIssue>
  {
    Seqs.Somes(LineIssueSlots(lines, mapping, inventory))
  }

  /** `lines` with their units replaced by `units`. */
  function WithUnits(lines: seq<RecipeLine>, units: seq<Option<string>>): seq<RecipeLine>
    requires |units| == |lines|
  {
    seq(|lines|, k requires 0 <= k < |lines| => lines[k].(unit := units[k]))
  }

  // ===== Dish step =====

  /** `lines.reduce((s, x) => s + (x.cost ?? 0), 0)` over the lines of one dish. */
  function CostSum(lines: seq<RecipeLine>, dish: string): real
  {
    if |lines| == 0 then 0.0
    else (if lines[0].dish == dish then lines[0].cost.GetOr(0.0) else 0.0) + CostSum(lines[1..], dish)
  }

  /** `!price || price <= 0`: no price, or a price that is not positive. */
  predicate PriceMissing(price: Option<real>)
  {
    price.None? || price.value <= 0.0
  }

  /** The fields of a dish that the recompute pass never writes. */
  predicate SameDishInputs(a: DishRow, b: DishRow)
  {
    a.dish == b.dish && a.priceMaster == b.priceMaster && a.priceMenu == b.priceMenu
    && a.priceTest == b.priceTest
  }

  function RecalcDish(d: DishRow, lines: seq<RecipeLine>): (r: (DishRow, Option<DataIssue>))
    ensures SameDishInputs(r.0, d)
  {
    var sum := CostSum(lines, d.dish);
    var withCogs := d.(cogs := if sum > 0.0 then Some(sum) else None);
    var price := PickPrice(d);
    if PriceMissing(price) then
      (withCogs.(status := Some(StatusMissingPrice), db := None, dbPct := None), Some(PreisIssue(d.dish)))
    else if withCogs.cogs.None? then
      (withCogs.(status := Some(StatusMissingRecipe), db := None, dbPct := None), Some(RezeptIssue(d.dish)))
    else
      var db := price.value - withCogs.cogs.value;
      (withCogs.(db := Some(db), dbPct := Some(db / price.value), status := Some(StatusOk)), None)
  }

  function RecalcDishes(dishes: seq<DishRow>, lines: seq<RecipeLine>): (r: seq<DishRow>)
    ensures |r| == |dishes|
    ensures forall k :: 0 <= k < |r| ==> SameDishInputs(r[k], dishes[k])
  {
    seq(|dishes|, k requires 0 <= k < |dishes| => RecalcDish(dishes[k], lines).0)
  }

  /** The diagnostic each dish pushes, if any, in dish order. */
  function DishIssueSlots(dishes: seq<DishRow>, lines: seq<RecipeLine>): seq<Option<DataIssue>>
  {
    seq(|dishes|, k requires 0 <= k < |dishes| => RecalcDish(dishes[k], lines).1)
  }

  function DishIssues(dishes: seq<DishRow>, lines: seq<RecipeLine>): seq<DataIssue>
  {
    Seqs.Somes(DishIssueSlots(dishes, lines))
  }

  // ===== The whole pass =====

  /**
   * `recalcAll`. Collections keep their length and order; mapping rows,
   * names, quantities, units and prices are never written.
   */
  function RecalcAll(data: AppData): (r: Recalculated)
    ensures |r.data.inventory| == |data.inventory|
    ensures forall k :: 0 <= k < |data.inventory| ==>
      r.data.inventory[k].name == data.inventory[k].name && r.data.inventory[k].ekRaw == data.inventory[k].ekRaw
      && r.data.inventory[k].unitRaw == data.inventory[k].unitRaw
    ensures r.data.mapping == data.mapping
    ensures |r.data.recipes| == |data.recipes|
    ensures forall k :: 0 <= k < |data.recipes| ==> SameLineInputs(r.data.recipes[k], data.recipes[k])
    ensures |r.data.dishes| == |data.dishes|
    ensures forall k :: 0 <= k < |data.dishes| ==> SameDishInputs(r.data.dishes[k], data.dishes[k])
  {
    var inventory := RecalcInventory(data.inventory);
    var recipes := RecalcRecipes(data.recipes, data.mapping, inventory);
    var dishes := RecalcDishes(data.dishes, recipes);
    Recalculated(
      AppData(inventory, data.mapping, recipes, dishes),
      RecipeIssues(data.recipes, data.mapping, inventory) + DishIssues(data.dishes, recipes))
  }
}

=== FILE: recalc_facts.dfy ===
/**
 * What `recalcAll` promises: the classification order of recipe lines and
 * dishes, that the recipe step prices against the freshly recomputed
 * inventory, one diagnostic per row that is not OK, idempotence, and that
 * the recipe unit is never consulted.
 */
module RecalcFacts {
  import opened Wrappers
  import opened Core
  import opened Recalc
  import Seqs

  // ===== Inventory step =====

  /** Recomputing an already recomputed article changes nothing. */
  lemma RecalcItemIdempotent(i: InventoryItem)
    ensures RecalcItem(RecalcItem(i)) == RecalcItem(i)
  {
  }

  /**
   * The lookup table is built before the base prices are recomputed but
   * holds the same records: looking up in the recomputed inventory finds
   * the recomputed form of the article the input lookup finds.
   */
  lemma {:induction false} FindItemAfterRecalc(inventory: seq<InventoryItem>, name: string)
    ensures FindItem(RecalcInventory(inventory), name)
         == (match FindItem(inventory, name) case None => None case Some(i) => Some(RecalcItem(i)))
  {
    var r := RecalcInventory(inventory);
    var p := (i: InventoryItem) => i.name == name;
    match Seqs.LastIndex(inventory, p)
    case None =>
      assert forall j :: 0 <= j < |r| ==> r[j].name == inventory[j].name;
    case Some(k) =>
      assert FindItem(inventory, name) == Some(inventory[k]);
      assert forall j :: k < j < |r| ==> r[j].name == inventory[j].name;
      assert r[k] == RecalcItem(inventory[k]);
  }

  /** The inventory article a name resolves to has a price and a unit. */
  predicate Priced(inventory: seq<InventoryItem>, name: string)
  {
    FindItem(inventory, name).Some? && HasPriceAndUnit(FindItem(inventory, name).value)
  }

  /** The base price of the article a name resolves to, recomputed from its raw price and unit. */
  function BasePrice(inventory: seq<InventoryItem>, name: string): real
    requires Priced(inventory, name)
  {
    var i := FindItem(inventory, name).value;
    EkToBase(i.ekRaw.value, i.unitRaw.value)
  }

  lemma PricedAfterRecalc(inventory: seq<InventoryItem>, name: string)
    ensures var f := FindItem(RecalcInventory(inventory), name);
      (f.Some? && f.value.ekBase.Some?) <==> Priced(inventory, name)
    ensures Priced(inventory, name) ==>
      FindItem(RecalcInventory(inventory), name).value.ekBase == Some(BasePrice(inventory, name))
  {
    FindItemAfterRecalc(inventory, name);
  }

  // ===== Recipe step =====

  /** The status labels are pairwise different. */
  lemma StatusesDistinct()
    ensures StatusOk != StatusMissingQty && StatusOk != StatusMissingMapping && StatusOk != StatusMissingEk
    ensures StatusMissingQty != StatusMissingMapping && StatusMissingQty != StatusMissingEk
    ensures StatusMissingMapping != StatusMissingEk
    ensures StatusOk != StatusMissingPrice && StatusOk != StatusMissingRecipe
    ensures StatusMissingPrice != StatusMissingRecipe
  {
    assert |StatusMissingQty| != |StatusMissingMapping|;
  }

  /**
   * The classification of recipe line `k` in the order the checks run:
   * quantity, then mapping, then inventory price, priced against the base
   * prices the same pass recomputes from the input inventory. Exactly the OK
   * lines carry a cost.
   */
  lemma LineOutcome(data: AppData, k: nat)
    requires k < |data.recipes|
    ensures LineClassified(data.recipes[k], data.mapping, data.inventory, RecalcAll(data).data.recipes[k])
  {
    assert RecalcAll(data).data.recipes[k]
        == RecalcLine(data.recipes[k], data.mapping, RecalcInventory(data.inventory)).0;
    LineStep(data.recipes[k], data.mapping, data.inventory);
  }

  /** `out` is what the recipe step makes of `line`, stated through the input inventory. */
  predicate LineClassified(line: RecipeLine, mapping: seq<MappingRow>, inventory: seq<InventoryItem>, out: RecipeLine)
  {
    var mapped := LineMapped(line, mapping);
    && out.mappedInventory == mapped
    && (out.status == Some(StatusMissingQty) <==> !QtyPositive(line.qty))
    && (out.status == Some(StatusMissingMapping) <==> QtyPositive(line.qty) && !Truthy(mapped))
    && (out.status == Some(StatusMissingEk) <==>
          QtyPositive(line.qty) && Truthy(mapped) && !Priced(inventory, mapped.value))
    && (out.status == Some(StatusOk) <==>
          QtyPositive(line.qty) && Truthy(mapped) && Priced(inventory, mapped.value))
    && (out.status == Some(StatusOk) <==> out.cost.Some?)
    && (out.status == Some(StatusOk) ==>
          out.ekBase == Some(BasePrice(inventory, mapped.value))
          && out.cost == Some(LineCost(line.qty.value, BasePrice(inventory, mapped.value))))
  }

  lemma LineStep(line: RecipeLine, mapping: seq<MappingRow>, inventory: seq<InventoryItem>)
    ensures LineClassified(line, mapping, inventory, RecalcLine(line, mapping, RecalcInventory(inventory)).0)
  {
    var mapped := LineMapped(line, mapping);
    if mapped.Some? {
      PricedAfterRecalc(inventory, mapped.value);
    }
    StatusesDistinct();
    var v := Classify(line, mapping, RecalcInventory(inventory));
    if v.NoQty? {
      LineStepNoQty(line, mapping, inventory);
    } else if v.NoMapping? {
      LineStepNoMapping(line, mapping, inventory);
    } else if v.NoEk? {
      LineStepNoEk(line, mapping, inventory);
    } else {
      LineStepCosted(line, mapping, inventory, v.ekBase);
    }
  }

  lemma LineStepNoQty(line: RecipeLine, mapping: seq<MappingRow>, inventory: seq<InventoryItem>)
    requires Classify(line, mapping, RecalcInventory(inventory)).NoQty?
    ensures var out := RecalcLine(line, mapping, RecalcInventory(inventory)).0;
      out.status == Some(StatusMissingQty) && out.cost == None && out.mappedInventory == LineMapped(line, mapping)
  {
  }

  lemma LineStepNoMapping(line: RecipeLine, mapping: seq<MappingRow>, inventory: seq<InventoryItem>)
    requires Classify(line, mapping, RecalcInventory(inventory)).NoMapping?
    ensures var out := RecalcLine(line, mapping, RecalcInventory(inventory)).0;
      out.status == Some(StatusMissingMapping) && out.cost == None && out.mappedInventory == LineMapped(line, mapping)
  {
  }

  lemma LineStepNoEk(line: RecipeLine, mapping: seq<MappingRow>, inventory: seq<InventoryItem>)
    requires Classify(line, mapping, RecalcInventory(inventory)).NoEk?
    ensures var out := RecalcLine(line, mapping, RecalcInventory(inventory)).0;
      out.status == Some(StatusMissingEk) && out.cost == None && out.mappedInventory == LineMapped(line, mapping)
  {
  }

  lemma LineStepCosted(line: RecipeLine, mapping: seq<MappingRow>, inventory: seq<InventoryItem>, e: real)
    requires Classify(line, mapping, RecalcInventory(inventory)) == Costed(e)
    ensures var out := RecalcLine(line, mapping, RecalcInventory(inventory)).0;
      && out.status == Some(StatusOk) && out.mappedInventory == LineMapped(line, mapping)
      && out.ekBase == Some(e) && out.cost == Some(LineCost(line.qty.value, e))
  {
  }

  /** The diagnostic a recipe line's output status stands for. */
  function LineIssueOf(l: RecipeLine): Option<DataIssue>
  {
    if l.status == Some(StatusMissingQty) then Some(MengeIssue(l.dish, l.ingredient))
    else if l.status == Some(StatusMissingMapping) then Some(MappingIssue(l.dish, l.ingredient))
    else if l.status == Some(StatusMissingEk) then Some(EkIssue(l.dish, l.mappedInventory.GetOr("")))
    else None
  }

  // ===== Dish step =====

  /**
   * The outcome of dish `k`: cogs is the sum of its lines' costs when that
   * is positive; a missing price is reported before missing cogs; an OK dish
   * splits its price exactly into cogs and margin.
   */
  lemma DishOutcome(data: AppData, k: nat)
    requires k < |data.dishes|
    ensures DishClassified(data.dishes[k], RecalcAll(data).data.recipes, RecalcAll(data).data.dishes[k])
  {
    var r := RecalcAll(data);
    assert r.data.dishes[k] == RecalcDish(data.dishes[k], r.data.recipes).0;
    DishStep(data.dishes[k], r.data.recipes);
  }

  lemma DishStep(d: DishRow, lines: seq<RecipeLine>)
    ensures DishClassified(d, lines, RecalcDish(d, lines).0)
  {
    StatusesDistinct();
  }

  /** `out` is what the dish step makes of `d` given the recomputed recipe lines. */
  predicate DishClassified(d: DishRow, lines: seq<RecipeLine>, out: DishRow)
  {
      var sum := CostSum(lines, d.dish);
      var price := PickPrice(d);
      && out.cogs == (if sum > 0.0 then Some(sum) else None)
      && (out.status == Some(StatusMissingPrice) <==> PriceMissing(price))
      && (out.status == Some(StatusMissingRecipe) <==> !PriceMissing(price) && sum <= 0.0)
      && (out.status == Some(StatusOk) <==> !PriceMissing(price) && sum > 0.0)
      && (out.status != Some(StatusOk) ==> out.db == None && out.dbPct == None)
      && (out.status == Some(StatusOk) ==>
            out.db.Some? && out.dbPct.Some? && out.cogs.Some?
            && out.db.value + out.cogs.value == price.value
            && out.dbPct.value * price.value == out.db.value)
  }

  /** A dish none of whose lines was costed has no cogs. */
  lemma {:induction false} CostSumWithoutCostedLines(lines: seq<RecipeLine>, dish: string)
    requires forall j :: 0 <= j < |lines| && lines[j].dish == dish ==> lines[j].cost.None?
    ensures CostSum(lines, dish) == 0.0
  {
    if |lines| > 0 {
      CostSumWithoutCostedLines(lines[1..], dish);
    }
  }

  /**
   * Absence propagation: a dish with a usable price whose recipe lines all
   * failed to be costed is reported as FEHLT_REZEPT, never as a zero-cost dish.
   */
  lemma UncostedDishIsReported(data: AppData, k: nat)
    requires k < |data.dishes|
    requires !PriceMissing(PickPrice(data.dishes[k]))
    requires forall j :: 0 <= j < |data.recipes| && data.recipes[j].dish == data.dishes[k].dish ==>
      RecalcAll(data).data.recipes[j].status != Some(StatusOk)
    ensures RecalcAll(data).data.dishes[k].status == Some(StatusMissingRecipe)
    ensures RecalcAll(data).data.dishes[k].cogs == None
  {
    var lines := RecalcAll(data).data.recipes;
    forall j | 0 <= j < |lines| && lines[j].dish == data.dishes[k].dish
      ensures lines[j].cost.None?
    {
      LineOutcome(data, j);
    }
    CostSumWithoutCostedLines(lines, data.dishes[k].dish);
    DishOutcome(data, k);
  }

  /** The diagnostic a dish's output status stands for. */
  function DishIssueOf(d: DishRow): Option<DataIssue>
  {
    if d.status == Some(StatusMissingPrice) then Some(PreisIssue(d.dish))
    else if d.status == Some(StatusMissingRecipe) then Some(RezeptIssue(d.dish))
    else None
  }

  // ===== Diagnostics =====

  lemma LineIssueMatchesStatus(line: RecipeLine, mapping: seq<MappingRow>, inventory: seq<InventoryItem>)
    ensures var (out, issue) := RecalcLine(line, mapping, inventory);
      issue == LineIssueOf(out) && (issue.Some? <==> out.status != Some(StatusOk))
  {
    StatusesDistinct();
  }

  lemma DishIssueMatchesStatus(d: DishRow, lines: seq<RecipeLine>)
    ensures var (out, issue) := RecalcDish(d, lines);
      issue == DishIssueOf(out) && (issue.Some? <==> out.status != Some(StatusOk))
  {
    StatusesDistinct();
  }

  /** A recipe line or dish row left in a state other than OK. */
  predicate LineNotOk(l: RecipeLine) { l.status != Some(StatusOk) }
  predicate DishNotOk(d: DishRow) { d.status != Some(StatusOk) }

  /**
   * The diagnostics are exactly those the output rows' statuses stand for:
   * recipe lines in order, then dishes in order, one per row that is not
   * OK. The inventory step contributes none.
   */
  lemma IssuesFollowStatuses(data: AppData)
    ensures var r := RecalcAll(data);
      && r.issues == LineIssues(r.data.recipes) + DishIssuesOf(r.data.dishes)
      && |r.issues| == Seqs.Count(r.data.recipes, LineNotOk) + Seqs.Count(r.data.dishes, DishNotOk)
  {
    var inventory := RecalcInventory(data.inventory);
    var lines := RecalcRecipes(data.recipes, data.mapping, inventory);
    RecipeIssuesFollowStatuses(data.recipes, data.mapping, inventory);
    DishIssuesFollowStatuses(data.dishes, lines);
  }

  /** The diagnostics the statuses of `lines` stand for. */
  function LineIssues(lines: seq<RecipeLine>): seq<DataIssue>
  {
    Seqs.Somes(seq(|lines|, k requires 0 <= k < |lines| => LineIssueOf(lines[k])))
  }

  /** The diagnostics the statuses of `dishes` stand for. */
  function DishIssuesOf(dishes: seq<DishRow>): seq<DataIssue>
  {
    Seqs.Somes(seq(|dishes|, k requires 0 <= k < |dishes| => DishIssueOf(dishes[k])))
  }

  lemma RecipeIssuesFollowStatuses(lines: seq<RecipeLine>, mapping: seq<MappingRow>, inventory: seq<InventoryItem>)
    ensures var out := RecalcRecipes(lines, mapping, inventory);
      && RecipeIssues(lines, mapping, inventory) == LineIssues(out)
      && |LineIssues(out)| == Seqs.Count(out, LineNotOk)
  {
    var out := RecalcRecipes(lines, mapping, inventory);
    var raw := LineIssueSlots(lines, mapping, inventory);
    forall k | 0 <= k < |lines|
      ensures raw[k] == LineIssueOf(out[k]) && (LineIssueOf(out[k]).Some? <==> LineNotOk(out[k]))
    {
      LineIssueMatchesStatus(lines[k], mapping, inventory);
    }
    assert raw == seq(|out|, k requires 0 <= k < |out| => LineIssueOf(out[k]));
    Seqs.SomesLength(raw, out, LineNotOk);
  }

  lemma DishIssuesFollowStatuses(dishes: seq<DishRow>, lines: seq<RecipeLine>)
    ensures var out := RecalcDishes(dishes, lines);
      && DishIssues(dishes, lines) == DishIssuesOf(out)
      && |DishIssuesOf(out)| == Seqs.Count(out, DishNotOk)
  {
    var out := RecalcDishes(dishes, lines);
    var raw := DishIssueSlots(dishes, lines);
    forall k | 0 <= k < |dishes|
      ensures raw[k] == DishIssueOf(out[k]) && (DishIssueOf(out[k]).Some? <==> DishNotOk(out[k]))
    {
      DishIssueMatchesStatus(dishes[k], lines);
    }
    assert raw == seq(|out|, k requires 0 <= k < |out| => DishIssueOf(out[k]));
    Seqs.SomesLength(raw, out, DishNotOk);
  }

  // ===== Idempotence =====

  lemma RecalcLineIdempotent(line: RecipeLine, mapping: seq<MappingRow>, inventory: seq<InventoryItem>)
    ensures var (out, issue) := RecalcLine(line, mapping, inventory);
      RecalcLine(out, mapping, inventory) == (out, issue)
  {
    var out := RecalcLine(line, mapping, inventory).0;
    assert LineMapped(out, mapping) == LineMapped(line, mapping);
    assert Classify(out, mapping, inventory) == Classify(line, mapping, inventory);
  }

  lemma RecalcDishIdempotent(d: DishRow, lines: seq<RecipeLine>)
    ensures var (out, issue) := RecalcDish(d, lines);
      RecalcDish(out, lines) == (out, issue)
  {
    var out := RecalcDish(d, lines).0;
    assert PickPrice(out) == PickPrice(d);
  }

  lemma InventoryIdempotent(inventory: seq<InventoryItem>)
    ensures RecalcInventory(RecalcInventory(inventory)) == RecalcInventory(inventory)
  {
    var once := RecalcInventory(inventory);
    forall k | 0 <= k < |once|
      ensures RecalcItem(once[k]) == once[k]
    {
      RecalcItemIdempotent(inventory[k]);
    }
  }

  lemma RecipesIdempotent(lines: seq<RecipeLine>, mapping: seq<MappingRow>, inventory: seq<InventoryItem>)
    ensures var once := RecalcRecipes(lines, mapping, inventory);
      && RecalcRecipes(once, mapping, inventory) == once
      && RecipeIssues(once, mapping, inventory) == RecipeIssues(lines, mapping, inventory)
  {
    var once := RecalcRecipes(lines, mapping, inventory);
    forall k | 0 <= k < |lines|
      ensures RecalcLine(once[k], mapping, inventory) == RecalcLine(lines[k], mapping, inventory)
    {
      RecalcLineIdempotent(lines[k], mapping, inventory);
    }
    assert LineIssueSlots(once, mapping, inventory) == LineIssueSlots(lines, mapping, inventory);
  }

  lemma DishesIdempotent(dishes: seq<DishRow>, lines: seq<RecipeLine>)
    ensures var once := RecalcDishes(dishes, lines);
      && RecalcDishes(once, lines) == once
      && DishIssues(once, lines) == DishIssues(dishes, lines)
  {
    var once := RecalcDishes(dishes, lines);
    forall k | 0 <= k < |dishes|
      ensures RecalcDish(once[k], lines) == RecalcDish(dishes[k], lines)
    {
      RecalcDishIdempotent(dishes[k], lines);
    }
    assert DishIssueSlots(once, lines) == DishIssueSlots(dishes, lines);
  }

  /** Re-running the pass on its own output yields the same data and diagnostics. */
  lemma RecalcIdempotent(data: AppData)
    ensures RecalcAll(RecalcAll(data).data) == RecalcAll(data)
  {
    var inventory := RecalcInventory(data.inventory);
    var lines := RecalcRecipes(data.recipes, data.mapping, inventory);
    InventoryIdempotent(data.inventory);
    RecipesIdempotent(data.recipes, data.mapping, inventory);
    DishesIdempotent(data.dishes, lines);
  }

  // ===== The recipe unit is never consulted =====

  lemma {:induction false} CostSumIgnoresUnits(lines: seq<RecipeLine>, units: seq<Option<string>>, dish: string)
    requires |units| == |lines|
    ensures CostSum(WithUnits(lines, units), dish) == CostSum(lines, dish)
  {
    if |lines| > 0 {
      assert WithUnits(lines, units)[1..] == WithUnits(lines[1..], units[1..]);
      CostSumIgnoresUnits(lines[1..], units[1..], dish);
    }
  }

  lemma RecipesIgnoreUnits(lines: seq<RecipeLine>, units: seq<Option<string>>, mapping: seq<MappingRow>, inventory: seq<InventoryItem>)
    requires |units| == |lines|
    ensures RecalcRecipes(WithUnits(lines, units), mapping, inventory)
         == WithUnits(RecalcRecipes(lines, mapping, inventory), units)
    ensures RecipeIssues(WithUnits(lines, units), mapping, inventory) == RecipeIssues(lines, mapping, inventory)
  {
    var lines2 := WithUnits(lines, units);
    forall k | 0 <= k < |lines|
      ensures RecalcLine(lines2[k], mapping, inventory)
           == (RecalcLine(lines[k], mapping, inventory).0.(unit := units[k]),
               RecalcLine(lines[k], mapping, inventory).1)
    {
      assert LineMapped(lines2[k], mapping) == LineMapped(lines[k], mapping);
      assert Classify(lines2[k], mapping, inventory) == Classify(lines[k], mapping, inventory);
    }
    assert LineIssueSlots(lines2, mapping, inventory) == LineIssueSlots(lines, mapping, inventory);
  }

  lemma DishesIgnoreUnits(dishes: seq<DishRow>, lines: seq<RecipeLine>, units: seq<Option<string>>)
    requires |units| == |lines|
    ensures RecalcDishes(dishes, WithUnits(lines, units)) == RecalcDishes(dishes, lines)
    ensures DishIssues(dishes, WithUnits(lines, units)) == DishIssues(dishes, lines)
  {
    forall k | 0 <= k < |dishes|
      ensures RecalcDish(dishes[k], WithUnits(lines, units)) == RecalcDish(dishes[k], lines)
    {
      CostSumIgnoresUnits(lines, units, dishes[k].dish);
    }
    assert DishIssueSlots(dishes, WithUnits(lines, units)) == DishIssueSlots(dishes, lines);
  }

  /**
   * Changing the unit of any recipe lines changes nothing in the result
   * except those units: same costs, statuses, dishes and diagnostics.
   */
  lemma UnitIsNotConsulted(data: AppData, units: seq<Option<string>>)
    requires |units| == |data.recipes|
    ensures var (r, r2) := (RecalcAll(data), RecalcAll(data.(recipes := WithUnits(data.recipes, units))));
      && r2.data.inventory == r.data.inventory
      && r2.data.recipes == WithUnits(r.data.recipes, units)
      && r2.data.dishes == r.data.dishes
      && r2.issues == r.issues
  {
    var inventory := RecalcInventory(data.inventory);
    RecipesIgnoreUnits(data.recipes, units, data.mapping, inventory);
    DishesIgnoreUnits(data.dishes, RecalcRecipes(data.recipes, data.mapping, inventory), units);
  }

  // ===== Example: a burger with one resolvable and one unmapped line =====

  function BurgerData(): AppData
  {
    AppData(
      [InventoryItem("Rinderpatty", Some(1.2), Some("Stk"), None, None)],
      [MappingRow("Patty", Some("Rinderpatty"), None, None)],
      [RecipeLine("Burger", "Patty", Some(1.0), Some("stk"), None, None, None, None, None),
       RecipeLine("Burger", "Sauce", Some(20.0), Some("g"), None, None, None, None, None)],
      [DishRow("Burger", None, Some(9.9), None, None, None, None, None)])
  }

  /**
   * The resolvable line costs 1.20, the unmapped one is reported, and the
   * dish's cost of goods is that of the resolvable subset.
   */
  lemma BurgerExample()
    ensures var r := RecalcAll(BurgerData());
      && r.data.recipes[0].cost == Some(1.2)
      && r.data.recipes[1].status == Some(StatusMissingMapping)
      && r.data.recipes[1].cost == None
      && r.data.dishes[0].cogs == Some(1.2)
      && r.data.dishes[0].status == Some(StatusOk)
      && r.data.dishes[0].db == Some(8.7)
      && r.issues == [MappingIssue("Burger", "Sauce")]
  {
    var data := BurgerData();
    var inventory := RecalcInventory(data.inventory);
    var lines := RecalcRecipes(data.recipes, data.mapping, inventory);
    BurgerRecipes();
    BurgerDish(lines);
    SomesOfNothing(DishIssueSlots(data.dishes, lines));
  }

  /** A slot without a value keeps nothing. */
  lemma SomesOfNothing<T>(raw: seq<Option<T>>)
    requires |raw| == 1 && raw[0].None?
    ensures Seqs.Somes(raw) == []
  {
    assert raw[1..] == [];
  }

  /** The recomputed recipe lines of the burger. */
  function BurgerLines(): seq<RecipeLine>
  {
    RecalcRecipes(BurgerData().recipes, BurgerData().mapping, RecalcInventory(BurgerData().inventory))
  }

  /** The recipe step on the burger: line 0 is costed at 1.20, line 1 lacks a mapping. */
  lemma BurgerRecipes()
    ensures |BurgerLines()| == 2
    ensures BurgerLines()[0].dish == "Burger" && BurgerLines()[0].cost == Some(1.2)
    ensures BurgerLines()[0].status == Some(StatusOk)
    ensures BurgerLines()[1].dish == "Burger" && BurgerLines()[1].cost == None
    ensures BurgerLines()[1].status == Some(StatusMissingMapping)
    ensures RecipeIssues(BurgerData().recipes, BurgerData().mapping, RecalcInventory(BurgerData().inventory))
         == [MappingIssue("Burger", "Sauce")]
  {
    BurgerLineOutcomes();
    BurgerIssues();
  }

  lemma BurgerLineOutcomes()
    ensures |BurgerLines()| == 2
    ensures BurgerLines()[0].dish == "Burger" && BurgerLines()[0].cost == Some(1.2)
    ensures BurgerLines()[0].status == Some(StatusOk)
    ensures BurgerLines()[1].dish == "Burger" && BurgerLines()[1].cost == None
    ensures BurgerLines()[1].status == Some(StatusMissingMapping)
  {
    var data := BurgerData();
    var inventory := RecalcInventory(data.inventory);
    BurgerPattyOutcome();
    BurgerSauceOutcome();
    var lines := RecalcRecipes(data.recipes, data.mapping, inventory);
    assert |lines| == 2;
    assert lines[0] == RecalcLine(data.recipes[0], data.mapping, inventory).0;
    assert lines[1] == RecalcLine(data.recipes[1], data.mapping, inventory).0;
  }

  lemma BurgerIssues()
    ensures RecipeIssues(BurgerData().recipes, BurgerData().mapping, RecalcInventory(BurgerData().inventory))
         == [MappingIssue("Burger", "Sauce")]
  {
    var data := BurgerData();
    var inventory := RecalcInventory(data.inventory);
    BurgerPattyOutcome();
    BurgerSauceOutcome();
    var raw := LineIssueSlots(data.recipes, data.mapping, inventory);
    SomesOfSecond(raw);
  }

  /** Of two slots where only the second holds a value, that value is all that is kept. */
  lemma SomesOfSecond<T>(raw: seq<Option<T>>)
    requires |raw| == 2 && raw[0].None? && raw[1].Some?
    ensures Seqs.Somes(raw) == [raw[1].value]
  {
    assert raw[1..][1..] == [];
  }

  lemma BurgerPattyOutcome()
    ensures var data := BurgerData();
      var (out, issue) := RecalcLine(data.recipes[0], data.mapping, RecalcInventory(data.inventory));
      out.dish == "Burger" && out.cost == Some(1.2) && out.status == Some(StatusOk) && issue == None
  {
    var data := BurgerData();
    BurgerPattyLine();
    LineStep(data.recipes[0], data.mapping, data.inventory);
    LineIssueMatchesStatus(data.recipes[0], data.mapping, RecalcInventory(data.inventory));
  }

  lemma BurgerSauceOutcome()
    ensures var data := BurgerData();
      var (out, issue) := RecalcLine(data.recipes[1], data.mapping, RecalcInventory(data.inventory));
      && out.dish == "Burger" && out.cost == None && out.status == Some(StatusMissingMapping)
      && issue == Some(MappingIssue("Burger", "Sauce"))
  {
    var data := BurgerData();
    BurgerSauceLine();
    assert Classify(data.recipes[1], data.mapping, RecalcInventory(data.inventory)) == NoMapping;
  }

  /** The dish step on the burger, given the two recomputed lines. */
  lemma BurgerDish(lines: seq<RecipeLine>)
    requires |lines| == 2
    requires lines[0].dish == "Burger" && lines[0].cost == Some(1.2)
    requires lines[1].dish == "Burger" && lines[1].cost == None
    ensures var (out, issue) := RecalcDish(BurgerData().dishes[0], lines);
      out.cogs == Some(1.2) && out.status == Some(StatusOk) && out.db == Some(8.7) && issue == None
  {
    assert lines[1..][1..] == [];
    assert CostSum(lines[1..], "Burger") == 0.0;
    assert CostSum(lines, "Burger") == 1.2;
  }

  /** "Patty" resolves to a priced article whose base price is 1.20 per piece. */
  lemma BurgerPattyLine()
    ensures LineMapped(BurgerData().recipes[0], BurgerData().mapping) == Some("Rinderpatty")
    ensures Priced(BurgerData().inventory, "Rinderpatty")
    ensures BasePrice(BurgerData().inventory, "Rinderpatty") == 1.2
  {
    var data := BurgerData();
    assert FindMapping(data.mapping, "Patty") == Some(data.mapping[0]);
    assert FindItem(data.inventory, "Rinderpatty") == Some(data.inventory[0]);
    UnitPiece();
  }

  /** "Sauce" has no mapping row. */
  lemma BurgerSauceLine()
    ensures LineMapped(BurgerData().recipes[1], BurgerData().mapping) == None
  {
    var data := BurgerData();
    assert data.mapping[0].recipeName != "Sauce";
    assert FindMapping(data.mapping, "Sauce") == None;
  }
}

=== FILE: rollup.dfy ===
/**
 * The day close-out of src/app.tsx (`daySummary` and the day-state
 * setters). It works on the application's own record shapes, which carry a
 * per-line inventory choice and a price per base unit on each article, and
 * are kept apart from the records of src/core.ts.
 */
module DayRollup {
  import opened Wrappers
  import opened JsValue
  import Coerce
  import Seqs

  datatype DayDish = DayDish(
    dish: string,
    priceMaster: Option<real>,
    priceMenu: Option<real>,
    priceTest: Option<real>,
    cogs: Option<real>)

  /** A recipe line with the editor's per-line article choice. */
  datatype DayLine = DayLine(
    dish: string,
    ingredient: string,
    qty: Option<real>,
    unit: Option<string>,
    selected: Option<string>)

  datatype DayItem = DayItem(name: string, pricePerBase: Option<Num>)

  datatype DayMapping = DayMapping(recipeName: string, correction: Option<string>, suggestion: Option<string>)

  datatype DayData = DayData(
    inventory: seq<DayItem>,
    mapping: seq<DayMapping>,
    recipes: seq<DayLine>,
    dishes: seq<DayDish>)

  /** Sold quantities and price overrides by dish name, and the two percentages. */
  datatype DayState = DayState(
    qtyByDish: map<string, real>,
    priceByDish: map<string, Option<real>>,
    aufschlagPct: Num,
    franchiseFeePct: Num)

  /** One row of the consumption table: an article in one unit. */
  datatype Entry = Entry(key: string, name: string, unit: string, qty: real, cost: real)

  datatype Summary = Summary(
    revenue: real,
    revenueAdj: real,
    totalCogs: real,
    franchiseFee: real,
    dbNet: real,
    dbPctNet: Option<real>,
    consumption: seq<Entry>)

  /** JavaScript truthiness of a nullable string. */
  predicate Truthy(s: Option<string>) { s.Some? && s.value != "" }

  /** JavaScript truthiness of a nullable number: `null` and 0 are falsy. */
  predicate NumTruthy(q: Option<real>) { q.Some? && q.value != 0.0 }

  // ===== Per-dish revenue and cost =====

  /** `day.qtyByDish[dish] ?? 0`. */
  function SoldQty(day: DayState, dish: string): real
  {
    if dish in day.qtyByDish then day.qtyByDish[dish] else 0.0
  }

  /** A price override that is neither missing nor `null` wins; otherwise test, menu, then master. */
  function UsedPrice(day: DayState, d: DayDish): (r: Option<real>)
    ensures d.dish in day.priceByDish && day.priceByDish[d.dish].Some? ==> r == day.priceByDish[d.dish]
    ensures !(d.dish in day.priceByDish && day.priceByDish[d.dish].Some?) ==>
      r == (if d.priceTest.Some? then d.priceTest else if d.priceMenu.Some? then d.priceMenu else d.priceMaster)
  {
    if d.dish in day.priceByDish && day.priceByDish[d.dish].Some? then day.priceByDish[d.dish]
    else d.priceTest.OrElse(d.priceMenu).OrElse(d.priceMaster)
  }

  /** A dish counts only when more than zero were sold. */
  predicate Sold(day: DayState, d: DayDish) { SoldQty(day, d.dish) > 0.0 }

  function DishRevenue(day: DayState, d: DayDish): (r: real)
    ensures !Sold(day, d) || UsedPrice(day, d).None? ==> r == 0.0
    ensures Sold(day, d) && UsedPrice(day, d).Some? ==> r == UsedPrice(day, d).value * SoldQty(day, d.dish)
  {
    if !Sold(day, d) then 0.0
    else match UsedPrice(day, d)
      case None => 0.0
      case Some(p) => p * SoldQty(day, d.dish)
  }

  function DishCost(day: DayState, d: DayDish): (r: real)
    ensures !Sold(day, d) || d.cogs.None? ==> r == 0.0
    ensures Sold(day, d) && d.cogs.Some? ==> r == d.cogs.value * SoldQty(day, d.dish)
  {
    if !Sold(day, d) || d.cogs.None? then 0.0 else d.cogs.value * SoldQty(day, d.dish)
  }

  function Revenue(day: DayState, dishes: seq<DayDish>): real
  {
    if |dishes| == 0 then 0.0 else DishRevenue(day, dishes[0]) + Revenue(day, dishes[1..])
  }

  function TotalCogs(day: DayState, dishes: seq<DayDish>): real
  {
    if |dishes| == 0 then 0.0 else DishCost(day, dishes[0]) + TotalCogs(day, dishes[1..])
  }

  // ===== Consumption =====

  /** `mapByRecipe.get(name)`: the last mapping row of that name wins. */
  function FindMapping(mapping: seq<DayMapping>, name: string): (r: Option<DayMapping>)
    ensures r.None? <==> forall k :: 0 <= k < |mapping| ==> mapping[k].recipeName != name
    ensures r.Some? ==> r.value.recipeName == name
    ensures r.Some? ==> exists k :: (0 <= k < |mapping| && mapping[k] == r.value
                                    && forall j :: k < j < |mapping| ==> mapping[j].recipeName != name)
  {
    match Seqs.LastIndex(mapping, (m: DayMapping) => m.recipeName == name)
    case None => None
    case Some(k) => Some(mapping[k])
  }

  /** `selected || correction || suggestion || null`. */
  function Chosen(line: DayLine, mapping: seq<DayMapping>): (r: Option<string>)
    ensures r.Some? ==> r.value != ""
    ensures Truthy(line.selected) ==> r == line.selected
    ensures var m := FindMapping(mapping, line.ingredient);
      !Truthy(line.selected) && m.Some? && Truthy(m.value.correction) ==> r == m.value.correction
    ensures var m := FindMapping(mapping, line.ingredient);
      !Truthy(line.selected) && m.Some? && !Truthy(m.value.correction) && Truthy(m.value.suggestion) ==> r == m.value.suggestion
    ensures var m := FindMapping(mapping, line.ingredient);
      !Truthy(line.selected) && (m.None? || (!Truthy(m.value.correction) && !Truthy(m.value.suggestion))) ==> r.None?
  {
    var m := FindMapping(mapping, line.ingredient);
    if Truthy(line.selected) then line.selected
    else if m.Some? && Truthy(m.value.correction) then m.value.correction
    else if m.Some? && Truthy(m.value.suggestion) then m.value.suggestion
    else None
  }

  /** `data.inventory.find(i => i.name === chosen)?.pricePerBase`, kept only when finite. */
  function FinitePrice(inventory: seq<DayItem>, name: string): (r: Option<real>)
    ensures r.Some? <==> exists k :: (0 <= k < |inventory| && inventory[k].name == name
                                     && (forall j :: 0 <= j < k ==> inventory[j].name != name)
                                     && inventory[k].pricePerBase.Some? && inventory[k].pricePerBase.value.Finite?)
    ensures r.Some? ==> exists k :: (0 <= k < |inventory| && inventory[k].name == name
                                    && (forall j :: 0 <= j < k ==> inventory[j].name != name)
                                    && inventory[k].pricePerBase == Some(Finite(r.value)))
  {
    match Seqs.FirstIndex(inventory, (i: DayItem) => i.name == name)
    case None => None
    case Some(k) =>
      match inventory[k].pricePerBase
      case Some(Finite(p)) => Some(p)
      case _ => None
  }

  /** `${chosen}__${unit}`. */
  function ConsumptionKey(name: string, unit: string): string
  {
    name + "__" + unit
  }

  /** What one recipe line of a sold dish adds to the consumption table. */
  datatype Contribution = Contribution(key: string, name: string, unit: string, qty: real, cost: real)

  /**
   * Lines without a quantity (or with 0), without a unit, or without a
   * chosen article add nothing; otherwise the consumed quantity is the line
   * quantity times the sold count, with its cost when the article's price is finite.
   */
  function LineContribution(data: DayData, qtySold: real, line: DayLine): (r: Option<Contribution>)
    ensures r.None? <==> !NumTruthy(line.qty) || !Truthy(line.unit) || Chosen(line, data.mapping).None?
    ensures r.Some? ==> (r.value.name == Chosen(line, data.mapping).value && r.value.unit == line.unit.value
      && r.value.key == ConsumptionKey(r.value.name, r.value.unit))
    ensures r.Some? ==> r.value.qty == line.qty.value * qtySold
    ensures r.Some? && FinitePrice(data.inventory, r.value.name).None? ==> r.value.cost == 0.0
    ensures r.Some? && FinitePrice(data.inventory, r.value.name).Some? ==>
      r.value.cost == r.value.qty * FinitePrice(data.inventory, r.value.name).value
  {
    if !NumTruthy(line.qty) || !Truthy(line.unit) then None
    else match Chosen(line, data.mapping)
      case None => None
      case Some(name) =>
        var consumed := line.qty.value * qtySold;
        var cost := match FinitePrice(data.inventory, name) case None => 0.0 case Some(p) => consumed * p;
        Some(Contribution(ConsumptionKey(name, line.unit.value), name, line.unit.value, consumed, cost))
  }

  /** The recipe lines of one dish, in recipe order. */
  function LinesOf(recipes: seq<DayLine>, dish: string): seq<DayLine>
  {
    Seqs.Filter(recipes, (l: DayLine) => l.dish == dish)
  }

  function DishContributions(data: DayData, day: DayState, d: DayDish): (r: seq<Contribution>)
    ensures !Sold(day, d) ==> r == []
  {
    if !Sold(day, d) then []
    else
      var lines := LinesOf(data.recipes, d.dish);
      Seqs.Somes(seq(|lines|, k requires 0 <= k < |lines| => LineContribution(data, SoldQty(day, d.dish), lines[k])))
  }

  function Contributions(data: DayData, day: DayState, dishes: seq<DayDish>): seq<Contribution>
  {
    if |dishes| == 0 then [] else DishContributions(data, day, dishes[0]) + Contributions(data, day, dishes[1..])
  }

  /** Add one contribution to the table: to the entry of its key, or as a new last entry. */
  function Upsert(entries: seq<Entry>, c: Contribution): seq<Entry>
  {
    match Seqs.FirstIndex(entries, (e: Entry) => e.key == c.key)
    case None => entries + [Entry(c.key, c.name, c.unit, c.qty, c.cost)]
    case Some(i) => entries[i := entries[i].(qty := entries[i].qty + c.qty, cost := entries[i].cost + c.cost)]
  }

  /** The table after all contributions, in the order keys first occur. */
  function Accumulate(cs: seq<Contribution>): seq<Entry>
  {
    if |cs| == 0 then [] else Upsert(Accumulate(cs[..|cs| - 1]), cs[|cs| - 1])
  }

  /** Total consumed quantity contributed under one key. */
  function KeyQty(cs: seq<Contribution>, key: string): real
  {
    if |cs| == 0 then 0.0
    else KeyQty(cs[..|cs| - 1], key) + (if cs[|cs| - 1].key == key then cs[|cs| - 1].qty else 0.0)
  }

  /** Total cost contributed under one key. */
  function KeyCost(cs: seq<Contribution>, key: string): real
  {
    if |cs| == 0 then 0.0
    else KeyCost(cs[..|cs| - 1], key) + (if cs[|cs| - 1].key == key then cs[|cs| - 1].cost else 0.0)
  }

  /** Quantity the table lists under one key. */
  function TableQty(entries: seq<Entry>, key: string): real
  {
    if |entries| == 0 then 0.0
    else (if entries[0].key == key then entries[0].qty else 0.0) + TableQty(entries[1..], key)
  }

  /** Cost the table lists under one key. */
  function TableCost(entries: seq<Entry>, key: string): real
  {
    if |entries| == 0 then 0.0
    else (if entries[0].key == key then entries[0].cost else 0.0) + TableCost(entries[1..], key)
  }

  predicate UniqueKeys(entries: seq<Entry>)
  {
    forall i, j :: 0 <= i < j < |entries| ==> entries[i].key != entries[j].key
  }

  /**
   * Nothing is lost or counted twice: the table has one entry per key, and
   * for every key it lists exactly the quantity and cost contributed under it.
   */
  lemma {:induction false} AccumulateTotals(cs: seq<Contribution>)
    ensures UniqueKeys(Accumulate(cs))
    ensures forall key :: TableQty(Accumulate(cs), key) == KeyQty(cs, key)
    ensures forall key :: TableCost(Accumulate(cs), key) == KeyCost(cs, key)
  {
    if |cs| > 0 {
      var init := cs[..|cs| - 1];
      var c := cs[|cs| - 1];
      var prev := Accumulate(init);
      AccumulateTotals(init);
      UpsertUnique(prev, c);
      forall key
        ensures TableQty(Upsert(prev, c), key) == TableQty(prev, key) + (if c.key == key then c.qty else 0.0)
        ensures TableCost(Upsert(prev, c), key) == TableCost(prev, key) + (if c.key == key then c.cost else 0.0)
      {
        UpsertTotals(prev, c, key);
      }
    }
  }

  /** `e` carries the name and unit of the first contribution under its key. */
  predicate LabelledByFirst(cs: seq<Contribution>, e: Entry)
  {
    exists j :: 0 <= j < |cs| && cs[j].key == e.key && (forall p :: 0 <= p < j ==> cs[p].key != e.key)
                && cs[j].name == e.name && cs[j].unit == e.unit
  }

  /** The table has an entry under `key`. */
  predicate HasEntry(entries: seq<Entry>, key: string)
  {
    exists i :: 0 <= i < |entries| && entries[i].key == key
  }

  /**
   * `consumption[key]` is created by the first contribution under its key,
   * with that contribution's name and unit, and later ones only add to its
   * figures: every entry is labelled by the first contribution of its key,
   * and every contributed key has an entry.
   */
  lemma {:induction false} AccumulateLabels(cs: seq<Contribution>)
    ensures forall i :: 0 <= i < |Accumulate(cs)| ==> LabelledByFirst(cs, Accumulate(cs)[i])
    ensures forall j :: 0 <= j < |cs| ==> HasEntry(Accumulate(cs), cs[j].key)
  {
    if |cs| > 0 {
      var init := cs[..|cs| - 1];
      var c := cs[|cs| - 1];
      var prev := Accumulate(init);
      AccumulateLabels(init);
      forall i | 0 <= i < |prev|
        ensures LabelledByFirst(cs, prev[i])
      {
        LabelledByPrefix(init, cs, prev[i]);
      }
      UpsertLabels(prev, c, init, cs);
    }
  }

  /** A label fixed by a prefix of the contributions stays fixed by the whole. */
  lemma LabelledByPrefix(init: seq<Contribution>, cs: seq<Contribution>, e: Entry)
    requires |init| <= |cs| && cs[..|init|] == init
    requires LabelledByFirst(init, e)
    ensures LabelledByFirst(cs, e)
  {
    var j :| 0 <= j < |init| && init[j].key == e.key && (forall p :: 0 <= p < j ==> init[p].key != e.key)
             && init[j].name == e.name && init[j].unit == e.unit;
    assert cs[j] == init[j];
    forall p | 0 <= p < j
      ensures cs[p].key != e.key
    {
      assert cs[p] == init[p];
    }
  }

  /** One more contribution: old entries keep their labels, and its key gets an entry labelled by the first one. */
  lemma UpsertLabels(prev: seq<Entry>, c: Contribution, init: seq<Contribution>, cs: seq<Contribution>)
    requires cs == init + [c]
    requires forall i :: 0 <= i < |prev| ==> LabelledByFirst(cs, prev[i])
    requires forall j :: 0 <= j < |init| ==> HasEntry(prev, init[j].key)
    ensures forall i :: 0 <= i < |Upsert(prev, c)| ==> LabelledByFirst(cs, Upsert(prev, c)[i])
    ensures forall j :: 0 <= j < |cs| ==> HasEntry(Upsert(prev, c), cs[j].key)
  {
    var next := Upsert(prev, c);
    match Seqs.FirstIndex(prev, (e: Entry) => e.key == c.key)
    case None =>
      assert next == prev + [Entry(c.key, c.name, c.unit, c.qty, c.cost)];
      forall p | 0 <= p < |init|
        ensures cs[p].key != c.key
      {
        assert cs[p] == init[p];
        var i :| 0 <= i < |prev| && prev[i].key == init[p].key;
      }
      assert cs[|init|] == c;
      assert LabelledByFirst(cs, next[|prev|]);
      forall j | 0 <= j < |cs|
        ensures HasEntry(next, cs[j].key)
      {
        if j < |init| {
          assert cs[j] == init[j];
          var i :| 0 <= i < |prev| && prev[i].key == init[j].key;
          assert next[i] == prev[i];
        } else {
          assert next[|prev|].key == cs[j].key;
        }
      }
    case Some(k) =>
      assert forall i :: 0 <= i < |prev| ==> next[i].key == prev[i].key && next[i].name == prev[i].name
                                              && next[i].unit == prev[i].unit;
      forall i | 0 <= i < |next|
        ensures LabelledByFirst(cs, next[i])
      {
        assert LabelledByFirst(cs, prev[i]);
      }
      forall j | 0 <= j < |cs|
        ensures HasEntry(next, cs[j].key)
      {
        if j < |init| {
          assert cs[j] == init[j];
          var i :| 0 <= i < |prev| && prev[i].key == init[j].key;
          assert next[i].key == prev[i].key;
        } else {
          assert next[k].key == cs[j].key;
        }
      }
  }

  /** Reordering the table keeps every entry's label and every key's entry. */
  lemma LabelsSurviveSort(a: seq<Entry>, b: seq<Entry>, cs: seq<Contribution>)
    requires multiset(a) == multiset(b)
    requires forall i :: 0 <= i < |a| ==> LabelledByFirst(cs, a[i])
    requires forall j :: 0 <= j < |cs| ==> HasEntry(a, cs[j].key)
    ensures forall i :: 0 <= i < |b| ==> LabelledByFirst(cs, b[i])
    ensures forall j :: 0 <= j < |cs| ==> HasEntry(b, cs[j].key)
  {
    forall i | 0 <= i < |b|
      ensures LabelledByFirst(cs, b[i])
    {
      assert b[i] in multiset(a);
      var k :| 0 <= k < |a| && a[k] == b[i];
    }
    forall j | 0 <= j < |cs|
      ensures HasEntry(b, cs[j].key)
    {
      var k :| 0 <= k < |a| && a[k].key == cs[j].key;
      assert a[k] in multiset(b);
      var i :| 0 <= i < |b| && b[i] == a[k];
    }
  }

  /** With one entry per key, the table's total for an entry's key is that entry's own figure. */
  lemma {:induction false} EntryHoldsTally(entries: seq<Entry>, i: nat)
    requires UniqueKeys(entries) && i < |entries|
    ensures TableQty(entries, entries[i].key) == entries[i].qty
    ensures TableCost(entries, entries[i].key) == entries[i].cost
  {
    if i == 0 {
      TableWithoutKey(entries[1..], entries[0].key);
    } else {
      EntryHoldsTally(entries[1..], i - 1);
    }
  }

  lemma {:induction false} TableWithoutKey(entries: seq<Entry>, key: string)
    requires forall j :: 0 <= j < |entries| ==> entries[j].key != key
    ensures TableQty(entries, key) == 0.0 && TableCost(entries, key) == 0.0
  {
    if |entries| > 0 {
      TableWithoutKey(entries[1..], key);
    }
  }

  lemma UpsertUnique(entries: seq<Entry>, c: Contribution)
    requires UniqueKeys(entries)
    ensures UniqueKeys(Upsert(entries, c))
  {
  }

  lemma UpsertTotals(entries: seq<Entry>, c: Contribution, key: string)
    requires UniqueKeys(entries)
    ensures TableQty(Upsert(entries, c), key) == TableQty(entries, key) + (if c.key == key then c.qty else 0.0)
    ensures TableCost(Upsert(entries, c), key) == TableCost(entries, key) + (if c.key == key then c.cost else 0.0)
  {
    match Seqs.FirstIndex(entries, (e: Entry) => e.key == c.key)
    case None =>
      TableAppend(entries, Entry(c.key, c.name, c.unit, c.qty, c.cost), key);
    case Some(i) =>
      TableUpdate(entries, i, c.qty, c.cost, key);
  }

  lemma {:induction false} TableAppend(entries: seq<Entry>, e: Entry, key: string)
    ensures TableQty(entries + [e], key) == TableQty(entries, key) + (if e.key == key then e.qty else 0.0)
    ensures TableCost(entries + [e], key) == TableCost(entries, key) + (if e.key == key then e.cost else 0.0)
  {
    if |entries| == 0 {
      assert (entries + [e])[1..] == [];
    } else {
      assert (entries + [e])[1..] == entries[1..] + [e];
      TableAppend(entries[1..], e, key);
    }
  }

  lemma {:induction false} TableUpdate(entries: seq<Entry>, i: nat, dq: real, dc: real, key: string)
    requires i < |entries|
    ensures var r := entries[i := entries[i].(qty := entries[i].qty + dq, cost := entries[i].cost + dc)];
      && TableQty(r, key) == TableQty(entries, key) + (if entries[i].key == key then dq else 0.0)
      && TableCost(r, key) == TableCost(entries, key) + (if entries[i].key == key then dc else 0.0)
  {
    var r := entries[i := entries[i].(qty := entries[i].qty + dq, cost := entries[i].cost + dc)];
    if i == 0 {
      assert r[1..] == entries[1..];
    } else {
      assert r[1..] == entries[1..][i - 1 := entries[i].(qty := entries[i].qty + dq, cost := entries[i].cost + dc)];
      TableUpdate(entries[1..], i - 1, dq, dc, key);
    }
  }

  // ===== Sorting by name =====

  /** `localeCompare(a, b) <= 0`, as an abstract comparison that is total. */
  ghost predicate TotalOrder(le: (string, string) -> bool)
  {
    forall a, b :: le(a, b) || le(b, a)
  }

  predicate SortedByName(entries: seq<Entry>, le: (string, string) -> bool)
  {
    forall i :: 0 < i < |entries| ==> le(entries[i - 1].name, entries[i].name)
  }

  /** Insert `e` before the first entry it does not come after; equal names keep their order. */
  function Insert(e: Entry, sorted: seq<Entry>, le: (string, string) -> bool): (r: seq<Entry>)
    requires TotalOrder(le) && SortedByName(sorted, le)
    ensures multiset(r) == multiset(sorted) + multiset{e}
    ensures SortedByName(r, le)
    ensures |r| > 0 && (r[0] == e || (|sorted| > 0 && r[0] == sorted[0]))
  {
    if |sorted| == 0 || le(e.name, sorted[0].name) then
      ConsSorted(e, sorted, le);
      [e] + sorted
    else
      assert SortedByName(sorted[1..], le);
      var rest := Insert(e, sorted[1..], le);
      assert sorted == [sorted[0]] + sorted[1..];
      assert le(sorted[0].name, e.name);
      ConsSorted(sorted[0], rest, le);
      assert multiset([sorted[0]] + rest) == multiset{sorted[0]} + multiset(rest);
      [sorted[0]] + rest
  }

  /** An entry that comes no later than the head of a sorted table can go in front of it. */
  lemma ConsSorted(x: Entry, rest: seq<Entry>, le: (string, string) -> bool)
    requires SortedByName(rest, le)
    requires |rest| == 0 || le(x.name, rest[0].name)
    ensures SortedByName([x] + rest, le)
  {
    var r := [x] + rest;
    forall i | 0 < i < |r|
      ensures le(r[i - 1].name, r[i].name)
    {
      if i > 1 {
        assert r[i - 1] == rest[i - 2] && r[i] == rest[i - 1];
      }
    }
  }

  /** `Array.prototype.sort` by name: a permutation sorted by the comparison. */
  function SortByName(entries: seq<Entry>, le: (string, string) -> bool): (r: seq<Entry>)
    requires TotalOrder(le)
    ensures multiset(r) == multiset(entries)
    ensures SortedByName(r, le)
  {
    if |entries| == 0 then []
    else
      assert entries == [entries[0]] + entries[1..];
      Insert(entries[0], SortByName(entries[1..], le), le)
  }

  // ===== The summary =====

  /** The money figures derived from revenue and cost of goods. */
  datatype Margins = Margins(revenueAdj: real, fee: real, dbNet: real, dbPctNet: Option<real>)

  /**
   * The surcharge raises revenue, the franchise fee is taken from the
   * raised revenue, and what remains after the fee and the cost of goods
   * is the net margin; its share of the raised revenue exists only when
   * that revenue is positive.
   */
  function NetMargins(revenue: real, totalCogs: real, surchargePct: real, feePct: real): (m: Margins)
    ensures m.revenueAdj == revenue * (1.0 + surchargePct / 100.0)
    ensures m.fee == m.revenueAdj * (feePct / 100.0)
    ensures m.dbNet + m.fee + totalCogs == m.revenueAdj
    ensures m.dbPctNet.Some? <==> m.revenueAdj > 0.0
    ensures m.dbPctNet.Some? ==> m.dbPctNet.value * m.revenueAdj == m.dbNet
    ensures surchargePct == 0.0 && feePct == 0.0 ==> m.revenueAdj == revenue && m.dbNet == revenue - totalCogs
  {
    var revenueAdj := revenue * (1.0 + surchargePct / 100.0);
    var fee := revenueAdj * (feePct / 100.0);
    var dbNet := revenueAdj - fee - totalCogs;
    Margins(revenueAdj, fee, dbNet, if revenueAdj > 0.0 then Some(dbNet / revenueAdj) else None)
  }

  /**
   * `daySummary`: revenue and cost of goods of the sold dishes, the
   * surcharge on revenue, the franchise fee on the surcharged revenue, the
   * net margin, and the consumption table sorted by article name.
   */
  function Summarise(data: DayData, day: DayState, le: (string, string) -> bool): (r: Summary)
    requires TotalOrder(le)
    ensures r.revenue == Revenue(day, data.dishes) && r.totalCogs == TotalCogs(day, data.dishes)
    ensures Margins(r.revenueAdj, r.franchiseFee, r.dbNet, r.dbPctNet)
         == NetMargins(r.revenue, r.totalCogs, Coerce.ClampPct(day.aufschlagPct), Coerce.ClampPct(day.franchiseFeePct))
    ensures SortedByName(r.consumption, le)
    ensures multiset(r.consumption) == multiset(Accumulate(Contributions(data, day, data.dishes)))
    ensures forall i :: 0 <= i < |r.consumption| ==> LabelledByFirst(Contributions(data, day, data.dishes), r.consumption[i])
    ensures var cs := Contributions(data, day, data.dishes);
      forall j :: 0 <= j < |cs| ==> HasEntry(r.consumption, cs[j].key)
  {
    AccumulateLabels(Contributions(data, day, data.dishes));
    LabelsSurviveSort(Accumulate(Contributions(data, day, data.dishes)),
      SortByName(Accumulate(Contributions(data, day, data.dishes)), le), Contributions(data, day, data.dishes));
    var revenue := Revenue(day, data.dishes);
    var totalCogs := TotalCogs(day, data.dishes);
    var m := NetMargins(revenue, totalCogs, Coerce.ClampPct(day.aufschlagPct), Coerce.ClampPct(day.franchiseFeePct));
    Summary(revenue, m.revenueAdj, totalCogs, m.fee, m.dbNet, m.dbPctNet,
      SortByName(Accumulate(Contributions(data, day, data.dishes)), le))
  }

  /** The summary balances: net margin, fee and cost of goods add up to the surcharged revenue. */
  lemma SummaryBalances(data: DayData, day: DayState, le: (string, string) -> bool)
    requires TotalOrder(le)
    ensures var r := Summarise(data, day, le);
      && r.dbNet + r.franchiseFee + r.totalCogs == r.revenueAdj
      && (r.dbPctNet.Some? <==> r.revenueAdj > 0.0)
      && (r.dbPctNet.Some? ==> r.dbPctNet.value * r.revenueAdj == r.dbNet)
  {
    var r := Summarise(data, day, le);
    SummaryMargins(r, Coerce.ClampPct(day.aufschlagPct), Coerce.ClampPct(day.franchiseFeePct));
  }

  /** A summary whose margin fields are the net margins of its revenue and cost of goods balances. */
  lemma SummaryMargins(r: Summary, surchargePct: real, feePct: real)
    requires Margins(r.revenueAdj, r.franchiseFee, r.dbNet, r.dbPctNet) == NetMargins(r.revenue, r.totalCogs, surchargePct, feePct)
    ensures r.dbNet + r.franchiseFee + r.totalCogs == r.revenueAdj
    ensures r.dbPctNet.Some? <==> r.revenueAdj > 0.0
    ensures r.dbPctNet.Some? ==> r.dbPctNet.value * r.revenueAdj == r.dbNet
  {
    var m := NetMargins(r.revenue, r.totalCogs, surchargePct, feePct);
    assert r.revenueAdj == m.revenueAdj && r.franchiseFee == m.fee && r.dbNet == m.dbNet && r.dbPctNet == m.dbPctNet;
  }

  /** Without loaded data there is no summary. */
  function DaySummary(data: Option<DayData>, day: DayState, le: (string, string) -> bool): (r: Option<Summary>)
    requires TotalOrder(le)
    ensures r.Some? <==> data.Some?
  {
    match data
    case None => None
    case Some(d) => Some(Summarise(d, day, le))
  }

  // ===== Day-state setters =====

  /** `v === null ? 0 : Math.max(0, Math.floor(v))`. */
  function QtyInput(v: Option<real>): (n: nat)
    ensures v.None? ==> n == 0
    ensures v.Some? && v.value < 0.0 ==> n == 0
    ensures v.Some? && v.value >= 0.0 ==> n as real <= v.value < n as real + 1.0
  {
    if v.None? || v.value.Floor < 0 then 0 else v.value.Floor
  }

  /** `setDayQty`: the dish's sold quantity becomes a non-negative whole number. */
  function SetDayQty(day: DayState, dish: string, v: Option<real>): (r: DayState)
    ensures r.priceByDish == day.priceByDish
    ensures r.aufschlagPct == day.aufschlagPct && r.franchiseFeePct == day.franchiseFeePct
    ensures SoldQty(r, dish) == QtyInput(v) as real
    ensures forall d :: d != dish ==> SoldQty(r, d) == SoldQty(day, d)
  {
    day.(qtyByDish := day.qtyByDish[dish := QtyInput(v) as real])
  }

  /** `setDayPrice`: the dish's price override becomes `v` (`null` clears it). */
  function SetDayPrice(day: DayState, dish: string, v: Option<real>): (r: DayState)
    ensures r.qtyByDish == day.qtyByDish
    ensures r.aufschlagPct == day.aufschlagPct && r.franchiseFeePct == day.franchiseFeePct
    ensures dish in r.priceByDish && r.priceByDish[dish] == v
    ensures forall d :: d != dish ==> (d in r.priceByDish <==> d in day.priceByDish)
    ensures forall d :: d != dish && d in day.priceByDish ==> r.priceByDish[d] == day.priceByDish[d]
  {
    day.(priceByDish := day.priceByDish[dish := v])
  }

  /** `clampPct(v ?? 0)`. */
  function PctInput(v: Option<Num>): (p: real)
    ensures 0.0 <= p <= 100.0
    ensures v.None? ==> p == 0.0
    ensures v.Some? ==> p == Coerce.ClampPct(v.value)
  {
    Coerce.ClampPct(v.GetOr(Finite(0.0)))
  }

  function SetAufschlagPct(day: DayState, v: Option<Num>): (r: DayState)
    ensures r.qtyByDish == day.qtyByDish && r.priceByDish == day.priceByDish
    ensures r.franchiseFeePct == day.franchiseFeePct
    ensures r.aufschlagPct.Finite? && 0.0 <= r.aufschlagPct.value <= 100.0
    ensures r.aufschlagPct == Finite(PctInput(v))
  {
    day.(aufschlagPct := Finite(PctInput(v)))
  }

  function SetFranchiseFeePct(day: DayState, v: Option<Num>): (r: DayState)
    ensures r.qtyByDish == day.qtyByDish && r.priceByDish == day.priceByDish
    ensures r.aufschlagPct == day.aufschlagPct
    ensures r.franchiseFeePct.Finite? && 0.0 <= r.franchiseFeePct.value <= 100.0
    ensures r.franchiseFeePct == Finite(PctInput(v))
  {
    day.(franchiseFeePct := Finite(PctInput(v)))
  }
}

=== FILE: rollup_facts.dfy ===
/** What the day close-out promises about sold dishes, the setters and a worked example. */
module DayRollupFacts {
  import opened Wrappers
  import opened JsValue
  import Coerce
  import Seqs
  import opened DayRollup

  /** Each row of the consumption table holds the total contributed under its key. */
  lemma ConsumptionRowsAreTotals(cs: seq<Contribution>, i: nat)
    requires i < |Accumulate(cs)|
    ensures Accumulate(cs)[i].qty == KeyQty(cs, Accumulate(cs)[i].key)
    ensures Accumulate(cs)[i].cost == KeyCost(cs, Accumulate(cs)[i].key)
  {
    AccumulateTotals(cs);
    EntryHoldsTally(Accumulate(cs), i);
  }

  /** Dishes not sold contribute nothing: revenue and cost of goods are those of the sold dishes alone. */
  lemma {:induction false} OnlySoldDishesCount(day: DayState, dishes: seq<DayDish>)
    ensures Revenue(day, dishes) == Revenue(day, Seqs.Filter(dishes, (d: DayDish) => Sold(day, d)))
    ensures TotalCogs(day, dishes) == TotalCogs(day, Seqs.Filter(dishes, (d: DayDish) => Sold(day, d)))
  {
    if |dishes| > 0 {
      OnlySoldDishesCount(day, dishes[1..]);
    }
  }

  /** Clearing a dish's sold quantity removes it from the revenue and the consumption. */
  lemma ClearedQtyDropsDish(day: DayState, data: DayData, d: DayDish)
    ensures var r := SetDayQty(day, d.dish, None);
      DishRevenue(r, d) == 0.0 && DishCost(r, d) == 0.0 && DishContributions(data, r, d) == []
  {
  }

  /** A stored percentage is already clamped, so the summary reads it unchanged and re-entering it changes nothing. */
  lemma PctSetterIdempotent(day: DayState, v: Option<Num>)
    ensures var r := SetAufschlagPct(day, v);
      && Coerce.ClampPct(r.aufschlagPct) == r.aufschlagPct.value
      && SetAufschlagPct(r, Some(r.aufschlagPct)) == r
    ensures var r := SetFranchiseFeePct(day, v);
      && Coerce.ClampPct(r.franchiseFeePct) == r.franchiseFeePct.value
      && SetFranchiseFeePct(r, Some(r.franchiseFeePct)) == r
  {
  }

  // ===== Consumption read straight from the recipes =====

  /** Whether a recipe line is booked under `key`: it has a quantity, a unit and a chosen article forming that key. */
  predicate LineUnder(data: DayData, line: DayLine, key: string)
  {
    NumTruthy(line.qty) && Truthy(line.unit) && Chosen(line, data.mapping).Some?
    && ConsumptionKey(Chosen(line, data.mapping).value, line.unit.value) == key
  }

  /** Quantity one line of a dish sold `qtySold` times consumes under `key`: line quantity times sold count. */
  function LineQtyUnder(data: DayData, qtySold: real, line: DayLine, key: string): real
  {
    if LineUnder(data, line, key) then line.qty.value * qtySold else 0.0
  }

  /** Cost of that consumption: the consumed quantity times the article's price, when the price is finite. */
  function LineCostUnder(data: DayData, qtySold: real, line: DayLine, key: string): real
  {
    if LineUnder(data, line, key) && FinitePrice(data.inventory, Chosen(line, data.mapping).value).Some?
    then line.qty.value * qtySold * FinitePrice(data.inventory, Chosen(line, data.mapping).value).value
    else 0.0
  }

  function LinesQtyUnder(data: DayData, qtySold: real, lines: seq<DayLine>, key: string): real
  {
    if |lines| == 0 then 0.0 else LineQtyUnder(data, qtySold, lines[0], key) + LinesQtyUnder(data, qtySold, lines[1..], key)
  }

  function LinesCostUnder(data: DayData, qtySold: real, lines: seq<DayLine>, key: string): real
  {
    if |lines| == 0 then 0.0 else LineCostUnder(data, qtySold, lines[0], key) + LinesCostUnder(data, qtySold, lines[1..], key)
  }

  /** Sum, over the recipe lines of the sold dishes, of the quantity consumed under `key`. */
  function SoldQtyUnder(data: DayData, day: DayState, dishes: seq<DayDish>, key: string): real
  {
    if |dishes| == 0 then 0.0
    else
      (if Sold(day, dishes[0]) then LinesQtyUnder(data, SoldQty(day, dishes[0].dish), LinesOf(data.recipes, dishes[0].dish), key) else 0.0)
      + SoldQtyUnder(data, day, dishes[1..], key)
  }

  /** Sum, over the recipe lines of the sold dishes, of the cost consumed under `key`. */
  function SoldCostUnder(data: DayData, day: DayState, dishes: seq<DayDish>, key: string): real
  {
    if |dishes| == 0 then 0.0
    else
      (if Sold(day, dishes[0]) then LinesCostUnder(data, SoldQty(day, dishes[0].dish), LinesOf(data.recipes, dishes[0].dish), key) else 0.0)
      + SoldCostUnder(data, day, dishes[1..], key)
  }

  lemma {:induction false} KeyTotalsAppend(a: seq<Contribution>, b: seq<Contribution>, key: string)
    ensures KeyQty(a + b, key) == KeyQty(a, key) + KeyQty(b, key)
    ensures KeyCost(a + b, key) == KeyCost(a, key) + KeyCost(b, key)
  {
    if |b| == 0 {
      assert a + b == a;
    } else {
      assert (a + b)[..|a + b| - 1] == a + b[..|b| - 1];
      KeyTotalsAppend(a, b[..|b| - 1], key);
    }
  }

  /** The contributions of some recipe lines hold, under each key, what those lines consume under it. */
  lemma {:induction false} LinesTotals(data: DayData, qtySold: real, lines: seq<DayLine>, key: string)
    ensures var cs := Seqs.Somes(seq(|lines|, k requires 0 <= k < |lines| => LineContribution(data, qtySold, lines[k])));
      KeyQty(cs, key) == LinesQtyUnder(data, qtySold, lines, key)
      && KeyCost(cs, key) == LinesCostUnder(data, qtySold, lines, key)
  {
    var os := seq(|lines|, k requires 0 <= k < |lines| => LineContribution(data, qtySold, lines[k]));
    if |lines| > 0 {
      var rest := lines[1..];
      assert os[1..] == seq(|rest|, k requires 0 <= k < |rest| => LineContribution(data, qtySold, rest[k]));
      LinesTotals(data, qtySold, rest, key);
      var head: seq<Contribution> := if os[0].Some? then [os[0].value] else [];
      assert Seqs.Somes(os) == head + Seqs.Somes(os[1..]);
      KeyTotalsAppend(head, Seqs.Somes(os[1..]), key);
      assert KeyQty(head, key) == LineQtyUnder(data, qtySold, lines[0], key) by {
        if os[0].Some? { assert head[..0] == []; }
      }
      assert KeyCost(head, key) == LineCostUnder(data, qtySold, lines[0], key) by {
        if os[0].Some? { assert head[..0] == []; }
      }
    }
  }

  /** The contributions of some dishes hold, under each key, what the lines of the sold ones consume under it. */
  lemma {:induction false} ContributionTotals(data: DayData, day: DayState, dishes: seq<DayDish>, key: string)
    ensures KeyQty(Contributions(data, day, dishes), key) == SoldQtyUnder(data, day, dishes, key)
    ensures KeyCost(Contributions(data, day, dishes), key) == SoldCostUnder(data, day, dishes, key)
  {
    if |dishes| > 0 {
      var d := dishes[0];
      ContributionTotals(data, day, dishes[1..], key);
      KeyTotalsAppend(DishContributions(data, day, d), Contributions(data, day, dishes[1..]), key);
      if Sold(day, d) {
        LinesTotals(data, SoldQty(day, d.dish), LinesOf(data.recipes, d.dish), key);
      }
    }
  }

  /**
   * The consumption table is read from the recipes: under every key it lists
   * the sum, over the recipe lines of the sold dishes booked under that key,
   * of line quantity times sold count, and of that times the article's price.
   */
  lemma ConsumptionFromRecipes(data: DayData, day: DayState)
    ensures var table := Accumulate(Contributions(data, day, data.dishes));
      forall key :: TableQty(table, key) == SoldQtyUnder(data, day, data.dishes, key)
                 && TableCost(table, key) == SoldCostUnder(data, day, data.dishes, key)
  {
    var cs := Contributions(data, day, data.dishes);
    AccumulateTotals(cs);
    forall key
      ensures KeyQty(cs, key) == SoldQtyUnder(data, day, data.dishes, key)
      ensures KeyCost(cs, key) == SoldCostUnder(data, day, data.dishes, key)
    {
      ContributionTotals(data, day, data.dishes, key);
    }
  }

  /**
   * Each row of the summary's consumption table holds the recipe-based totals
   * of its key, and the name and unit of the first contribution under it.
   */
  lemma SummaryRowsFromRecipes(data: DayData, day: DayState, le: (string, string) -> bool, e: Entry)
    requires TotalOrder(le)
    requires e in Summarise(data, day, le).consumption
    ensures e.qty == SoldQtyUnder(data, day, data.dishes, e.key)
    ensures e.cost == SoldCostUnder(data, day, data.dishes, e.key)
    ensures LabelledByFirst(Contributions(data, day, data.dishes), e)
  {
    var cs := Contributions(data, day, data.dishes);
    var rows := Summarise(data, day, le).consumption;
    var k :| 0 <= k < |rows| && rows[k] == e;
    assert e in multiset(Accumulate(cs));
    var i :| 0 <= i < |Accumulate(cs)| && Accumulate(cs)[i] == e;
    ConsumptionRowsAreTotals(cs, i);
    ContributionTotals(data, day, data.dishes, e.key);
  }

  // ===== Example: ten Currywurst at 8.50 with 5% surcharge and 8% fee =====

  function CurrywurstData(): DayData
  {
    DayData(
      [DayItem("Bratwurst", Some(Finite(1.1)))],
      [],
      [DayLine("Currywurst", "Wurst", Some(1.0), Some("stk"), Some("Bratwurst"))],
      [DayDish("Currywurst", None, Some(8.5), None, Some(2.0))])
  }

  function CurrywurstDay(): DayState
  {
    DayState(map["Currywurst" := 10.0], map[], Finite(5.0), Finite(8.0))
  }

  lemma CurrywurstExample(le: (string, string) -> bool)
    requires TotalOrder(le)
    ensures var r := Summarise(CurrywurstData(), CurrywurstDay(), le);
      && r.revenue == 85.0 && r.revenueAdj == 89.25 && r.franchiseFee == 7.14
      && r.totalCogs == 20.0 && r.dbNet == 62.11 && r.dbPctNet == Some(62.11 / 89.25)
      && r.consumption == [Entry("Bratwurst__stk", "Bratwurst", "stk", 10.0, 11.0)]
  {
    CurrywurstFigures(le);
    CurrywurstTable(le);
  }

  lemma CurrywurstFigures(le: (string, string) -> bool)
    requires TotalOrder(le)
    ensures var r := Summarise(CurrywurstData(), CurrywurstDay(), le);
      && r.revenue == 85.0 && r.revenueAdj == 89.25 && r.franchiseFee == 7.14
      && r.totalCogs == 20.0 && r.dbNet == 62.11 && r.dbPctNet == Some(62.11 / 89.25)
  {
    CurrywurstRevenue();
    assert Coerce.ClampPct(CurrywurstDay().aufschlagPct) == 5.0;
    assert Coerce.ClampPct(CurrywurstDay().franchiseFeePct) == 8.0;
    CurrywurstMargins();
  }

  lemma CurrywurstMargins()
    ensures NetMargins(85.0, 20.0, 5.0, 8.0) == Margins(89.25, 7.14, 62.11, Some(62.11 / 89.25))
  {
    var m := NetMargins(85.0, 20.0, 5.0, 8.0);
    assert m.revenueAdj == 85.0 * 1.05;
    assert m.fee == 89.25 * 0.08;
  }

  lemma CurrywurstTable(le: (string, string) -> bool)
    requires TotalOrder(le)
    ensures Summarise(CurrywurstData(), CurrywurstDay(), le).consumption
         == [Entry("Bratwurst__stk", "Bratwurst", "stk", 10.0, 11.0)]
  {
    var data := CurrywurstData();
    var day := CurrywurstDay();
    CurrywurstConsumption();
    var table := Accumulate(Contributions(data, day, data.dishes));
    assert SortByName(table, le) == table by {
      assert table[1..] == [];
    }
  }

  lemma CurrywurstRevenue()
    ensures Revenue(CurrywurstDay(), CurrywurstData().dishes) == 85.0
    ensures TotalCogs(CurrywurstDay(), CurrywurstData().dishes) == 20.0
  {
    var data := CurrywurstData();
    assert data.dishes[1..] == [];
  }

  lemma CurrywurstLine()
    ensures LineContribution(CurrywurstData(), 10.0, CurrywurstData().recipes[0])
         == Some(Contribution("Bratwurst__stk", "Bratwurst", "stk", 10.0, 11.0))
  {
    var data := CurrywurstData();
    assert Chosen(data.recipes[0], data.mapping) == Some("Bratwurst");
    assert FinitePrice(data.inventory, "Bratwurst") == Some(1.1);
    assert ConsumptionKey("Bratwurst", "stk") == "Bratwurst__stk";
  }

  lemma CurrywurstConsumption()
    ensures var (data, day) := (CurrywurstData(), CurrywurstDay());
      Accumulate(Contributions(data, day, data.dishes)) == [Entry("Bratwurst__stk", "Bratwurst", "stk", 10.0, 11.0)]
  {
    var data := CurrywurstData();
    var day := CurrywurstDay();
    var c := Contribution("Bratwurst__stk", "Bratwurst", "stk", 10.0, 11.0);
    assert LinesOf(data.recipes, "Currywurst") == data.recipes;
    CurrywurstLine();
    assert DishContributions(data, day, data.dishes[0]) == [c] by {
      var os := seq(1, k requires 0 <= k < 1 => LineContribution(data, 10.0, data.recipes[k]));
      assert os == [Some(c)];
      assert os[1..] == [];
    }
    assert Contributions(data, day, data.dishes) == [c] by {
      assert data.dishes[1..] == [];
    }
    assert [c][..0] == [];
  }
}

=== FILE: seqs.dfy ===
/** Generic sequence helpers shared by the engine: filters, lookups and sums. */
module Seqs {
  import opened Wrappers

  /** `xs.filter(p)`: the elements satisfying `p`, in their original order. */
  function Filter<T(==)>(xs: seq<T>, p: T -> bool): (r: seq<T>)
    ensures |r| <= |xs| && |r| == Count(xs, p)
    ensures forall k :: 0 <= k < |r| ==> r[k] in xs && p(r[k])
    ensures forall k :: 0 <= k < |xs| && p(xs[k]) ==> xs[k] in r
    ensures IsSubsequence(r, xs)
  {
    if |xs| == 0 then []
    else if p(xs[0]) then [xs[0]] + Filter(xs[1..], p)
    else Filter(xs[1..], p)
  }

  /** `r` can be obtained from `xs` by deleting elements, keeping the order. */
  predicate IsSubsequence<T(==)>(r: seq<T>, xs: seq<T>)
    decreases |xs|
  {
    if |r| == 0 then true
    else if |xs| == 0 then false
    else if r[0] == xs[0] then IsSubsequence(r[1..], xs[1..])
    else IsSubsequence(r, xs[1..])
  }

  /** If every element satisfies `p`, filtering changes nothing. */
  lemma {:induction false} FilterKeepsAll<T>(xs: seq<T>, p: T -> bool)
    requires forall k :: 0 <= k < |xs| ==> p(xs[k])
    ensures Filter(xs, p) == xs
  {
    if |xs| > 0 {
      FilterKeepsAll(xs[1..], p);
    }
  }

  /** Number of elements of `xs` satisfying `p`. */
  function Count<T>(xs: seq<T>, p: T -> bool): nat
  {
    if |xs| == 0 then 0 else (if p(xs[0]) then 1 else 0) + Count(xs[1..], p)
  }

  /** Index found by `xs.findIndex(p)`: the first element satisfying `p`. */
  function FirstIndex<T>(xs: seq<T>, p: T -> bool): (r: Option<nat>)
    ensures r.Some? ==> r.value < |xs| && p(xs[r.value])
    ensures r.Some? ==> forall j :: 0 <= j < r.value ==> !p(xs[j])
    ensures r.None? <==> forall j :: 0 <= j < |xs| ==> !p(xs[j])
  {
    if |xs| == 0 then None
    else if p(xs[0]) then Some(0)
    else match FirstIndex(xs[1..], p)
      case None => None
      case Some(i) => Some(i + 1)
  }

  /**
   * Index of the element a `Map` built by `xs.forEach(x => m.set(key(x), x))`
   * returns: the last element satisfying `p`, since later `set` calls overwrite.
   */
  function LastIndex<T>(xs: seq<T>, p: T -> bool): (r: Option<nat>)
    ensures r.Some? ==> r.value < |xs| && p(xs[r.value])
    ensures r.Some? ==> forall j :: r.value < j < |xs| ==> !p(xs[j])
    ensures r.None? <==> forall j :: 0 <= j < |xs| ==> !p(xs[j])
  {
    if |xs| == 0 then None
    else if p(xs[|xs| - 1]) then Some(|xs| - 1)
    else LastIndex(xs[..|xs| - 1], p)
  }

  /** The present values of `os`, in order (`null` entries dropped). */
  function Somes<T>(os: seq<Option<T>>): (r: seq<T>)
    ensures |r| <= |os|
    ensures |r| == Count(os, (o: Option<T>) => o.Some?)
  {
    if |os| == 0 then []
    else (if os[0].Some? then [os[0].value] else []) + Somes(os[1..])
  }

  /** Sum of a sequence of reals. */
  function Sum(xs: seq<real>): real
  {
    if |xs| == 0 then 0.0 else xs[0] + Sum(xs[1..])
  }

  lemma {:induction false} SumAppend(xs: seq<real>, ys: seq<real>)
    ensures Sum(xs + ys) == Sum(xs) + Sum(ys)
  {
    if |xs| == 0 {
      assert xs + ys == ys;
    } else {
      assert (xs + ys)[1..] == xs[1..] + ys;
      SumAppend(xs[1..], ys);
    }
  }

  /** Keeping the present entries of `os` keeps one per element of `xs` satisfying `p`, when the two line up. */
  lemma {:induction false} SomesLength<T, U>(os: seq<Option<U>>, xs: seq<T>, p: T -> bool)
    requires |os| == |xs|
    requires forall k :: 0 <= k < |xs| ==> (os[k].Some? <==> p(xs[k]))
    ensures |Somes(os)| == Count(xs, p)
  {
    if |xs| > 0 {
      SomesLength(os[1..], xs[1..], p);
    }
  }

  lemma {:induction false} FilterAppend<T>(xs: seq<T>, ys: seq<T>, p: T -> bool)
    ensures Filter(xs + ys, p) == Filter(xs, p) + Filter(ys, p)
  {
    if |xs| == 0 {
      assert xs + ys == ys;
    } else {
      assert (xs + ys)[1..] == xs[1..] + ys;
      FilterAppend(xs[1..], ys, p);
    }
  }
}

=== FILE: text.dfy ===
/**
 * The JavaScript string primitives the engine relies on: `trim`, the `\s`
 * character class, `toLowerCase` (ASCII letters only) and `replace` with a
 * one-character string pattern, which replaces only the first occurrence.
 */
module Text {

  /** JavaScript's WhiteSpace and LineTerminator characters (what `trim` and `\s` match). */
  predicate IsSpace(c: char)
  {
    || c == ' ' || c == '\t' || c == '\n' || c == '\r'
    || c == '\U{000B}' || c == '\U{000C}' || c == '\U{00A0}' || c == '\U{1680}'
    || ('\U{2000}' <= c <= '\U{200A}') || c == '\U{2028}' || c == '\U{2029}'
    || c == '\U{202F}' || c == '\U{205F}' || c == '\U{3000}' || c == '\U{FEFF}'
  }

  /** No leading and no trailing whitespace. */
  predicate IsTrimmed(s: string)
  {
    |s| == 0 || (!IsSpace(s[0]) && !IsSpace(s[|s| - 1]))
  }

  /** The first position at or after `i` that holds a non-space (or `|s|`). */
  function SkipSpaces(s: string, i: nat): (k: nat)
    requires i <= |s|
    ensures i <= k <= |s|
    ensures k < |s| ==> !IsSpace(s[k])
    ensures forall j :: i <= j < k ==> IsSpace(s[j])
    decreases |s| - i
  {
    if i < |s| && IsSpace(s[i]) then SkipSpaces(s, i + 1) else i
  }

  /** The end of `s[lo..j]` once its trailing spaces are dropped. */
  function SkipSpacesBack(s: string, lo: nat, j: nat): (k: nat)
    requires lo <= j <= |s|
    ensures lo <= k <= j
    ensures k > lo ==> !IsSpace(s[k - 1])
    ensures forall m :: k <= m < j ==> IsSpace(s[m])
    decreases j
  {
    if j > lo && IsSpace(s[j - 1]) then SkipSpacesBack(s, lo, j - 1) else j
  }

  /** Number of leading whitespace characters `trim` removes. */
  function TrimOffset(s: string): nat
    ensures TrimOffset(s) <= |s|
  {
    SkipSpaces(s, 0)
  }

  /** `s.trim()`: `s` without its leading and trailing whitespace. */
  function Trim(s: string): (r: string)
    ensures IsTrimmed(r)
    ensures TrimOffset(s) + |r| <= |s| && r == s[TrimOffset(s)..TrimOffset(s) + |r|]
    ensures forall k :: 0 <= k < TrimOffset(s) ==> IsSpace(s[k])
    ensures forall k :: TrimOffset(s) + |r| <= k < |s| ==> IsSpace(s[k])
    ensures r == "" <==> forall k :: 0 <= k < |s| ==> IsSpace(s[k])
  {
    var a := SkipSpaces(s, 0);
    var b := SkipSpacesBack(s, a, |s|);
    s[a..b]
  }

  lemma TrimOfTrimmed(s: string)
    requires IsTrimmed(s)
    ensures Trim(s) == s
  {
  }

  /** `trim` is idempotent. */
  lemma TrimIdempotent(s: string)
    ensures Trim(Trim(s)) == Trim(s)
  {
    TrimOfTrimmed(Trim(s));
  }

  /** `toLowerCase` on one character, for the ASCII letters. */
  function LowerChar(c: char): char
  {
    if 'A' <= c <= 'Z' then (c as int + 32) as char else c
  }

  function Lower(s: string): (r: string)
    ensures |r| == |s|
    ensures forall k :: 0 <= k < |s| ==> r[k] == LowerChar(s[k])
  {
    if |s| == 0 then "" else [LowerChar(s[0])] + Lower(s[1..])
  }

  /** Position of the first occurrence of `c` in `s`. */
  function IndexOf(s: string, c: char): (k: nat)
    requires c in s
    ensures k < |s| && s[k] == c
    ensures forall j :: 0 <= j < k ==> s[j] != c
  {
    if s[0] == c then 0 else 1 + IndexOf(s[1..], c)
  }

  /** `s.replace(from, to)` for one-character strings: only the first occurrence changes. */
  function ReplaceFirst(s: string, from: char, to: char): (r: string)
    ensures |r| == |s|
    ensures from !in s ==> r == s
    ensures from in s ==> r[IndexOf(s, from)] == to
    ensures forall k :: 0 <= k < |s| && (from !in s || k != IndexOf(s, from)) ==> r[k] == s[k]
  {
    if from in s then s[IndexOf(s, from) := to] else s
  }

  /** `s.replace(/\s/g, "")`: every whitespace character removed. */
  function RemoveSpaces(s: string): (r: string)
    ensures |r| <= |s|
    ensures forall k :: 0 <= k < |r| ==> !IsSpace(r[k])
  {
    if |s| == 0 then ""
    else if IsSpace(s[0]) then RemoveSpaces(s[1..])
    else [s[0]] + RemoveSpaces(s[1..])
  }

  /** The characters left by `RemoveSpaces` are exactly the non-space characters of the text. */
  lemma {:induction false} RemoveSpacesKeepsNonSpaces(s: string, c: char)
    ensures c in RemoveSpaces(s) <==> c in s && !IsSpace(c)
  {
    if |s| > 0 {
      RemoveSpacesKeepsNonSpaces(s[1..], c);
      assert c in s <==> c == s[0] || c in s[1..];
    }
  }
}

=== FILE: wrappers.dfy ===
/** The optional-value type used for every nullable field of the model. */
module Wrappers {

  /** A JavaScript value that may be `null`: `None` is `null`, `Some(v)` is `v`. */
  datatype Option<+T> = None | Some(value: T) {

    /** `this ?? default`: the value when present, otherwise the default. */
    function GetOr(default: T): T
    {
      match this
      case Some(v) => v
      case None => default
    }

    /** `this ?? other`: this option when present, otherwise the other one. */
    function OrElse(other: Option<T>): Option<T>
    {
      match this
      case Some(_) => this
      case None => other
    }
  }
}
